=== FILE: README.md ===
# velog-view-counter router, modelled in Dafny

This project models the request router of the velog view counter, a
Cloudflare Worker. It covers `WorkerAPIGateway` in `src/router.ts` and the
middlewares the worker installs.

**Registration.** The gateway keeps two lists:

- a middleware stack of `{ prefix, middlewares }` bindings, built by `use`;
- a route list of `{ method, path, tokens, middlewares, handler }`, built by
  `add` and its verb shorthands. Each route pattern is split into static and
  `:param` tokens when it is registered.

**Dispatch.** For each request the gateway:

1. upper-cases the method and normalises the pathname (one trailing `/`
   dropped) before splitting it;
2. parses the query string and the `cookie` header into plain maps (the last
   value wins after a sort, empty values and `__proto__` are dropped);
3. picks the first route whose pattern and method both match;
4. otherwise answers 405 with an `Allow` header naming the methods whose
   pattern matched, or 404 when none did.

The handler sits inside a chain. That chain is the global middlewares whose
prefix is a segment-aligned prefix of the pathname, stably sorted by prefix
length, followed by the route's own middlewares. The chain is composed with
`reduceRight`.

**Middlewares.**

- `defaultMiddleware` stamps a request id.
- verify-user-agent refuses 21 bot keywords, matched case-insensitively.
- verify-referer and CORS judge the `origin` header, falling back to the
  origin of the `referer`.
- verify-token compares the trimmed `x-api-token` header.

**Scenario.** `src/index.ts` registers these in a fixed order. The scenario
module proves what that registration produces and how it treats a few
representative requests.

**Modules**, one per concern:

| module | file | what it holds |
|---|---|---|
| `Wrappers` | `wrappers.dfy` | `Option`/`Result` |
| `Strings` | `strings.dfy` | split, join, trim, ASCII case mapping, `__proto__`-aware assignment |
| `StringSort` | `string_sort.dfy` | the default `Array.prototype.sort` order |
| `Paths` | `paths.dfy` | `split`, `normalizePath`, `normalizePrefix`, `pathnameStartsWith` |
| `Uri` | `uri.dfy` | `decode` |
| `Tokens` | `tokens.dfy` | `tokenize`, `matchTokens` |
| `Decoders` | `decoders.dfy` | `parseQueryString`, `parseCookie` |
| `Http` | `http.dfy` | requests, responses, headers, the runtime's collaborators |
| `Origins` | `origins.dfy` | `getOrigin`, `getHostName`, `isAllowedOrigin` |
| `TokenPolicy` | `token_policy.dfy` | verify-token |
| `CorsPolicy` | `cors_policy.dfy` | CORS |
| `RefererPolicy` | `referer_policy.dfy` | verify-referer |
| `AgentPolicy` | `agent_policy.dfy` | verify-user-agent |
| `Pipeline` | `pipeline.dfy` | middlewares as data, `composeMiddleware`, running a composed handler with a trace |
| `Chain` | `chain.dfy` | the global chain: filter, stable sort, flatten |
| `Gateway` | `gateway.dfy` | `use`, `add`, route resolution, dispatch |
| `Scenarios` | `scenarios.dfy` | the registrations in `src/index.ts` and requests against them |

**Collaborators as inputs.** The worker relies on code the model does not
contain. Each such collaborator is a field of `Http.Runtime`:

- `decodeURIComponent` is a `Decoder` function, with `None` for the
  `URIError` it throws;
- `new URL(...)` is a parser returning `Option<Url>`;
- `crypto.randomUUID()` is `requestId`;
- the `Date.now()` difference is `elapsedMs`;
- the route handlers are `serve(name, request, context)`.

**Behaviour worth noting:**

- The `Allow` header lists methods in the order a JS `Set` first saw them. It
  is not sorted.
- An assignment to the key `__proto__` of a plain object is swallowed by the
  prototype setter. So `params`, `query` and `cookie` never hold that key.
- `ignoreTrailingSlash` is a private field fixed to `true`, so normalisation
  always drops one trailing slash.
- The CORS max-age is `maxAge && maxAge <= 86400 ? maxAge : 300`. This lets a
  negative value through unchanged.

## Model

| member | source | states |
|---|---|---|
| Strings.SplitOn | src/router.ts:220-225 | `String.prototype.split` on one character: at least one piece, and no piece contains the separator |
| Strings.JoinSplitOn | src/router.ts:220-225 | joining the pieces of a split with the separator gives back the original text |
| Strings.SplitOnJoin | src/router.ts:220-225 | splitting a join of separator-free pieces gives back exactly those pieces |
| Strings.SplitOnConcat | src/router.ts:220-225 | splitting `a + c + b` on `c` is the split of `a` followed by the split of `b` |
| Strings.TrimStartSpec | src/middlewares/middleware-verify-token.ts:7 | `trimStart` removes exactly a leading run of white space and leaves a result that does not start with a space |
| Strings.TrimEndSpec | src/middlewares/middleware-verify-token.ts:7 | `trimEnd` removes exactly a trailing run of white space and leaves a result that does not end with a space |
| Strings.TrimSlice | src/middlewares/middleware-verify-token.ts:7 | `trim` returns a trimmed slice of its input with only white space cut on either side |
| Strings.TrimUnique | src/middlewares/middleware-verify-token.ts:7 | white space around an already trimmed text is exactly what `trim` removes |
| Strings.TrimPadding | src/middlewares/middleware-verify-token.ts:7 | padding a text with white space does not change its trim |
| Strings.TrimIdempotent | src/middlewares/middleware-verify-token.ts:7 | trimming twice is trimming once |
| Strings.CaseFolding | src/router.ts:97 | upper-casing leaves no lower-case ASCII letter and lower-casing no upper-case one; each is idempotent; lower-casing the upper case is lower-casing, and the reverse; a text is its own upper case exactly when it has no lower-case letter |
| Strings.RemoveAll | src/router.ts:290 | `replace(/;/g, "")`: the result holds every other character as often as the input and the removed one never; a text without it is unchanged |
| Strings.RemoveAllSingle | src/router.ts:290 | on one character, removal drops exactly that character; with `RemoveAllConcat` this fixes every result |
| Strings.RemoveAllConcat | src/router.ts:290 | removing a character distributes over concatenation |
| Strings.NatDecimal | src/middlewares/middleware-cors.ts:39 | `String(n)` of a natural number: decimal digits whose value is `n`, with no leading zero except in `"0"` |
| Strings.Assign | src/router.ts:257 | `obj[k] = v` on a plain object: the key `__proto__` is ignored; any other key is set to `v`; every other key keeps its value |
| StringSort.BelowTotal | src/router.ts:270 | the default sort order compares any two strings |
| StringSort.BelowAntisymmetric | src/router.ts:270 | two strings each below the other are equal |
| StringSort.BelowTransitive | src/router.ts:270 | the default sort order is transitive |
| StringSort.SortCorrect | src/router.ts:270 | `sort()` returns a sorted permutation of its input |
| StringSort.SortedUnique | src/router.ts:270 | two sorted permutations of the same multiset are equal |
| StringSort.SortForgetsOrder | src/router.ts:270 | sorting two permutations of each other gives the same sequence |
| Paths.Split | src/router.ts:220-225 | `split(pathname)` yields only non-empty, trimmed, slash-free segments |
| Paths.SplitConcat | src/router.ts:220-225 | the segments of `x + "/" + y` are the segments of `x` followed by those of `y` |
| Paths.SplitTrailingSlash | src/router.ts:220-225 | a trailing slash adds no segment |
| Paths.SplitLeadingSlash | src/router.ts:220-225 | a leading slash adds no segment |
| Paths.SegmentsOfSegments | src/router.ts:220-225 | filtering already clean segments leaves them unchanged |
| Paths.SplitCanonical | src/router.ts:220-225 | rendering segments as `/a/b` and splitting gives the same segments back |
| Paths.CanonicalOfSplit | src/router.ts:220-225 | render-then-split is the identity on the segments of any path |
| Paths.NormalizePath | src/router.ts:232-237 | the normalised path always starts with `/` |
| Paths.NormalizePathShape | src/router.ts:232-237 | `""` becomes `/`; otherwise the path gets a leading `/`, and exactly one trailing `/` is dropped unless the result is the root |
| Paths.SplitNormalizePath | src/router.ts:232-237 | normalising a path does not change its segments |
| Paths.NormalizeTrailingSlash | src/router.ts:232-237 | `p` and `p + "/"` normalise to the same path |
| Paths.NormalizeNotIdempotent | src/router.ts:232-237 | only one trailing slash is removed: `/a//` normalises to `/a/`, which normalises to `/a` |
| Paths.NormalizeCanonical | src/router.ts:232-237 | a canonical path is left unchanged by normalisation |
| Paths.NormalizePrefixIsNormalizePath | src/router.ts:227-230 | `normalizePrefix` is the same function as `normalizePath` |
| Paths.PrefixSegmentsMatch | src/router.ts:239-244 | a segment-wise prefix passes `pathnameStartsWith` |
| Paths.PrefixSplits | src/router.ts:239-244 | any non-root prefix accepted by `pathnameStartsWith` is a segment-wise prefix of the pathname |
| Paths.AlignedPrefix | src/router.ts:239-244 | on canonical paths, `pathnameStartsWith` holds if and only if the prefix's segments are a prefix of the pathname's segments |
| Paths.PrefixBoundaryExamples | src/router.ts:239-244 | `/api` does not prefix `/apiv2`; it prefixes `/api` and `/api/x`; `/` prefixes everything |
| Tokens.TokenizeSegments | src/router.ts:199-218 | the segments tokenise if and only if none is a bad `:param`; then each segment yields the token for it |
| Tokens.FirstBadSegment | src/router.ts:202-211 | a refused pattern is refused for its first bad segment, with that segment's error (empty name or bad name) |
| Tokens.Tokenize | src/router.ts:199-218 | `tokenize(path)` succeeds if and only if no segment of the path is a bad `:param`; each token matches its segment |
| Tokens.TokenizeRender | src/router.ts:199-218 | rendering well-formed tokens as a path and tokenising it gives the tokens back |
| Tokens.RenderTokenize | src/router.ts:199-218 | rendering the tokens of a pattern gives the canonical form of the pattern |
| Tokens.TokenizeRefusesEmptyName | src/router.ts:206-208 | `/posts/:` is refused with the empty-param error |
| Tokens.TokenizeRefusesLeadingDigit | src/router.ts:209-211 | `/posts/:1id` is refused with the bad-name error for `1id` |
| Tokens.TokenizeRefusesDash | src/router.ts:209-211 | `/posts/:post-id` is refused with the bad-name error for `post-id` |
| Tokens.FirstRefusal | src/router.ts:199-218 | with a good first segment and a bad second one, the error names the second |
| Tokens.BindFails | src/router.ts:246-261 | binding fails if and only if some static token differs from its part; `decode` never fails, as it keeps its input on a throw |
| Tokens.BindKeys | src/router.ts:246-261 | a successful binding has exactly the pattern's param names, minus `__proto__` |
| Tokens.BindValues | src/router.ts:246-261 | each param name is bound to the decoded part at its last occurrence |
| Tokens.MatchTokensSpec | src/router.ts:246-261 | `matchTokens` is null if and only if the lengths differ or some position mismatches; on success its keys and values are as above |
| Tokens.MatchIgnoresDecoder | src/router.ts:246-261 | whether a pattern matches does not depend on the decoder |
| Tokens.PatternMatchesItself | src/router.ts:246-261 | a registered pattern matches its own segments |
| Decoders.ParseQueryString | src/router.ts:263-283 | an empty query string gives `{}`; the map never holds `__proto__` or an empty value |
| Decoders.ParseCookie | src/router.ts:285-304 | an empty cookie header gives `{}`; the map never holds `__proto__` or an empty value |
| Decoders.QueryValues | src/router.ts:263-283 | each key of the query map holds the decoded value of its last stored part in sorted order |
| Decoders.CookieValues | src/router.ts:285-304 | each key of the cookie map holds the decoded value of its last stored part in sorted order |
| Decoders.MergeKeys | src/router.ts:271-280 | a key is in the map if and only if some kept entry carries it |
| Decoders.MergeClean | src/router.ts:276-277 | merged maps hold no `__proto__` key and no empty value |
| Decoders.MergeLastWins | src/router.ts:271-280 | a key maps to the value of its last kept entry |
| Decoders.ParseEntryShape | src/router.ts:272-274 | `k=v…` parses to decoded `k` and decoded `v`; text after a second `=` is ignored; an empty value is null |
| Decoders.ParseEntryNoValue | src/router.ts:272-274 | a part without `=` has a null value |
| Decoders.ParsePartsForgetsOrder | src/router.ts:270-280 | the sort makes the map depend only on the multiset of parts |
| Decoders.QueryForgetsOrder | src/router.ts:263-283 | two query strings with the same parts in any order give the same map |
| Decoders.CookieForgetsOrder | src/router.ts:285-304 | two cookie headers with the same parts in any order give the same map |
| Decoders.PartsKeys | src/router.ts:270-280 | the keys of the map are exactly the keys of the kept entries |
| Decoders.QueryKeys | src/router.ts:263-283 | a key is in the query map if and only if some `&`-part parses to a kept entry with that key |
| Decoders.CookieKeys | src/router.ts:285-304 | a key is in the cookie map if and only if some `;`-part parses to a kept entry with that key |
| Decoders.PartsTwoSameKey | src/router.ts:270-280 | for a repeated key, the value that sorts last wins, whichever order the parts came in |
| Decoders.QueryTwoSameKey | src/router.ts:263-283 | `?k=v1&k=v2` and `?k=v2&k=v1` both give `{k: v2}` when `k=v2` sorts after `k=v1` |
| Decoders.QueryRepeatedKey | src/router.ts:263-283 | `?a=1&a=2` and `?a=2&a=1` both give `{a: "2"}` |
| Decoders.CookieTwoKeys | src/router.ts:285-304 | `k1=v1; k2=v2` gives both pairs |
| Decoders.CookiePartsTwo | src/router.ts:289-291 | `; ` separated cookies split into their two parts once spaces and `;` are dropped |
| Decoders.CookiePairs | src/router.ts:285-304 | `a=1; b=2` parses to `{a: "1", b: "2"}` |
| Decoders.QuerySinglePart | src/router.ts:263-283 | a single `k=v` part with no `?` gives `{k: v}`, or `{}` when `v` is empty |
| Decoders.QueryValueBoundaries | src/router.ts:263-283 | `a=b=c` gives `{a: "b"}`; `a=` and `?a` give `{}` |
| Decoders.QueryBareKey | src/router.ts:263-283 | a bare key without `=` is dropped |
| Http.VerbNameInjective | src/router.ts:1 | distinct methods have distinct names |
| Http.VerbNameUpper | src/router.ts:97 | method names are already upper case |
| Http.HeaderGetSet | src/router.ts:103 | `headers.get(name) \|\| ""` reads back a header just set, and is unaffected by setting any other header |
| Http.Truthy | src/middlewares/constants.ts:2-6 | a header is truthy if and only if it is present and non-empty |
| Http.JsonMessage | src/router.ts:159-168 | `Response.json({ message }, { status, headers })`: the status, a JSON body and a JSON content type on top of the given headers |
| Http.SetHeader | src/router.ts:193-195 | `headers.set` changes one header and keeps the status, body and every other header |
| Origins.GetOrigin | src/middlewares/constants.ts:1-13 | a truthy `origin` header wins; with neither `origin` nor `referer` the result is null |
| Origins.RefererFallback | src/middlewares/constants.ts:5-12 | without `origin`, the origin of a parsable `referer` is used and an unparsable one gives null |
| Origins.OriginWins | src/middlewares/constants.ts:2-3 | when `origin` is present, the `referer` header is irrelevant |
| Origins.IsAllowedOrigin | src/middlewares/constants.ts:20-22 | the origin is returned if and only if it is non-empty and in the allow list |
| Origins.GetHostName | src/middlewares/constants.ts:15-18 | null for a missing or empty origin; the parser's hostname for a parsable one; a throw for an unparsable one |
| Origins.HostNameNullity | src/middlewares/constants.ts:15-18 | when parsed origins are never empty, the hostname is null exactly when there is no origin |
| TokenPolicy.Admit | src/middlewares/middleware-verify-token.ts:6-18 | the request goes on unchanged if and only if the trimmed token is non-empty and equals the configured one; otherwise a JSON refusal |
| TokenPolicy.MissingToken | src/middlewares/middleware-verify-token.ts:9-11 | an absent or blank token is answered 401 `Unauthorized, please check headers` |
| TokenPolicy.WrongToken | src/middlewares/middleware-verify-token.ts:13-15 | a wrong token is answered 403 `Forbidden, please check x-api-token` |
| TokenPolicy.PaddingIgnored | src/middlewares/middleware-verify-token.ts:7 | white space around the right token is accepted |
| TokenPolicy.EmptyTokenRefusesAll | src/middlewares/middleware-verify-token.ts:9-15 | with an empty configured token, no request gets through |
| CorsPolicy.AllowMethods | src/middlewares/middleware-cors.ts:23 | the configured methods, or `GET, OPTIONS` when none are given |
| CorsPolicy.AllowHeaders | src/middlewares/middleware-cors.ts:24 | the configured headers, or `content-type` when none are given |
| CorsPolicy.Credentials | src/middlewares/middleware-cors.ts:25-38 | `"true"` exactly when credentials are configured, else `"false"` |
| CorsPolicy.MaxAge | src/middlewares/middleware-cors.ts:26 | the configured max-age when it is truthy and at most 86400; otherwise 300 |
| CorsPolicy.MaxAgeClamp | src/middlewares/middleware-cors.ts:26 | 86400 is kept; 86401 and 0 become 300; -5 is kept |
| CorsPolicy.Vary | src/middlewares/middleware-cors.ts:27 | the configured vary list, or `Origin, Accept-Encoding` when none is given |
| CorsPolicy.Defaults | src/middlewares/middleware-cors.ts:23-27 | an empty config yields the header texts `GET, OPTIONS`, `content-type`, `false`, `300` and `Origin, Accept-Encoding` |
| CorsPolicy.Admit | src/middlewares/middleware-cors.ts:29-42 | only a preflight is answered at once, with an empty body: 204 with the allowed origin when the origin is allowed, else a bare 403 with no headers; anything else goes on unchanged |
| CorsPolicy.PreflightAnsweredAtOnce | src/middlewares/middleware-cors.ts:29-32 | an `OPTIONS` request never reaches `next`; without an origin, or with one not on the list, it is answered a bare 403 |
| CorsPolicy.PreflightIgnoresCase | src/middlewares/middleware-cors.ts:29 | `options` and `Options` are preflights; `GET` is not |
| CorsPolicy.PreflightHeadersSpec | src/middlewares/middleware-cors.ts:34-41 | an allowed preflight carries exactly the six CORS headers: the allowed origin, the joined methods, the joined allowed headers, the credentials text, the decimal max-age and the joined `Vary` list |
| CorsPolicy.Finish | src/middlewares/middleware-cors.ts:44-51 | with an allowed origin, the response gains allow-origin, allow-credentials and vary; with none it is unchanged; status, body and other headers are kept |
| CorsPolicy.FinishIdempotent | src/middlewares/middleware-cors.ts:45-49 | decorating a response twice is decorating it once |
| RefererPolicy.Admit | src/middlewares/middleware-verify-referer.ts:7-18 | the request goes on unchanged if and only if its origin is non-empty and in the list; otherwise 403 `Referer Not Allowed` |
| RefererPolicy.NoOriginRefused | src/middlewares/middleware-verify-referer.ts:13-15 | a request with neither `origin` nor `referer` is refused |
| RefererPolicy.UnparsableRefererRefused | src/middlewares/middleware-verify-referer.ts:10-15 | a request whose only evidence is an unparsable `referer` is refused |
| RefererPolicy.ExactMatchOnly | src/middlewares/middleware-verify-referer.ts:10-15 | `https://velog.io.evil` is refused and `https://velog.io` admitted: the list is matched exactly |
| AgentPolicy.Agent | src/middlewares/middleware-verify-ua.ts:6 | the agent text the pattern is matched against is never empty |
| AgentPolicy.KeywordsLowerForm | src/middlewares/middleware-verify-ua.ts:5 | every keyword of the pattern is written in lower case |
| AgentPolicy.MatchesAtLower | src/middlewares/middleware-verify-ua.ts:5 | a case-insensitive match at a position is an exact match in the lower-cased agent |
| AgentPolicy.PatternIsSubstring | src/middlewares/middleware-verify-ua.ts:4-7 | the case-insensitive pattern test holds if and only if some keyword occurs in the lower-cased agent |
| AgentPolicy.Admit | src/middlewares/middleware-verify-ua.ts:3-13 | the request goes on unchanged if and only if the pattern does not match; otherwise 403 with message `<agent> Not Allowed` |
| AgentPolicy.BotAt | src/middlewares/middleware-verify-ua.ts:5 | `bot` in any letter case anywhere in the agent is a match |
| AgentPolicy.MissingAgent | src/middlewares/middleware-verify-ua.ts:6-9 | a request without a user agent is refused as `bot Not Allowed` |
| AgentPolicy.MixedCaseBot | src/middlewares/middleware-verify-ua.ts:4-9 | a mixed-case `GoogleBOT` agent is refused, with its own text in the message |
| Pipeline.HandlerDetermined | src/router.ts:171-176 | a composed handler is determined by its layers and its endpoint |
| Pipeline.Compose | src/router.ts:171-176 | `reduceRight` wraps the final handler in the middlewares, first one outermost, and keeps its endpoint |
| Pipeline.NestShape | src/router.ts:171-176 | the independent left-to-right nesting has the same layers and endpoint |
| Pipeline.ComposeIsNest | src/router.ts:171-176 | `reduceRight` composition equals left-to-right nesting; no middlewares leave the final handler as it is |
| Pipeline.ComposeAppend | src/router.ts:171-176 | composing `a + b` is composing `a` around the composition of `b` |
| Pipeline.LeavesMirrorEnters | src/router.ts:171-176 | middlewares are left in the reverse of the order they were entered |
| Pipeline.EnteredPrefix | src/router.ts:171-176 | the middlewares reached form a prefix of the chain: the whole chain when the request gets through, else at least the one that answered |
| Pipeline.TraceShape | src/router.ts:171-176 | a run enters the reached middlewares in order, reaches the endpoint only if every middleware forwarded, and leaves them in reverse |
| Pipeline.ReachedIffPasses | src/router.ts:171-176 | the endpoint runs if and only if no middleware answered; it is the only endpoint that can appear |
| Pipeline.InertLayersTransparent | src/router.ts:171-176 | middlewares that forward without touching request or response give the endpoint's own response |
| Pipeline.OutermostShortCircuit | src/router.ts:171-176 | an outermost middleware that answers hides everything inside it |
| Chain.MatchingMembers | src/router.ts:118-119 | a binding survives the filter if and only if it is in the stack and its prefix matches the pathname |
| Chain.MatchingOrder | src/router.ts:118-119 | the filter keeps the stack's order |
| Chain.MatchingConcat | src/router.ts:118-119 | filtering distributes over concatenation |
| Chain.InsertSorted | src/router.ts:120 | inserting into a length-sorted list keeps it sorted |
| Chain.InsertOfLength | src/router.ts:120 | insertion puts a binding after every binding of equal prefix length |
| Chain.SortByLengthCorrect | src/router.ts:120 | the sort returns a permutation, sorted by prefix length, and keeps the order of equal-length prefixes |
| Chain.SortByLengthStable | src/router.ts:120 | for every length, the bindings of that length keep their relative order |
| Chain.StableSortUnique | src/router.ts:120 | two length-sorted lists with the same order within every length are equal, so the stable sort is unique |
| Chain.SortedIsFixed | src/router.ts:120 | an already sorted stack is left as it is |
| Chain.FlattenConcat | src/router.ts:121 | `flatMap` distributes over concatenation |
| Chain.OuterFirst | src/router.ts:118-121 | in the global chain, shorter prefixes run before longer ones |
| Gateway.New | src/router.ts:36-40 | a plain gateway runs no middleware on any path; an extended one starts with the default middleware at `/` and has the stamp-first shape |
| Gateway.StampRunsFirst | src/router.ts:36-40 | on an extended gateway the default middleware is the outermost layer of every request's chain |
| Gateway.RegistrationKeepsStampFirst | src/router.ts:42-94 | `use` and `add` keep the default middleware first |
| Gateway.Use | src/router.ts:42-54 | `use(prefix, ...)` with no middleware throws; otherwise it appends one binding with the normalised prefix and keeps the routes |
| Gateway.UseGlobalIsRoot | src/router.ts:42-54 | `use(mw, ...)` is the same as `use("/", mw, ...)` |
| Gateway.Add | src/router.ts:89-94 | `add` throws the tokenizer's error for a bad pattern; otherwise it appends one route with the normalised path, the tokens `tokenize` gives for it, the given method, handler and middlewares, and keeps the stack |
| Gateway.AddedRouteMatchesItsPath | src/router.ts:89-94 | a route just added matches its own normalised path |
| Gateway.PathMethodsEmpty | src/router.ts:105-116 | no mismatched methods are collected if and only if no route's pattern matches |
| Gateway.PathMethodsElements | src/router.ts:105-116 | the collected methods are exactly those of routes whose pattern matches |
| Gateway.DistinctSpec | src/router.ts:105-113 | the `Set`: same members, no repeats, in first-seen order |
| Gateway.Scan | src/router.ts:107-138 | a match found by the loop is a full match at or after the start |
| Gateway.ScanFinds | src/router.ts:107-138 | the loop returns a route if and only if some route from the start on matches both pattern and method |
| Gateway.ScanFirst | src/router.ts:107-138 | it returns the first such route, with that route's params |
| Gateway.ScanFallback | src/router.ts:105-147 | without a full match the loop ends with 404, or with 405 carrying the distinct methods of the pattern matches |
| Gateway.ResolveSpec | src/router.ts:105-147 | the first full match wins; otherwise 405 if and only if some pattern matched, with the first-seen method list; otherwise 404 |
| Gateway.AllowListSpec | src/router.ts:145-169 | the `Allow` list is non-empty and repeat-free; it names exactly the pattern-matching routes' methods and never the requested one |
| Gateway.DispatchSpec | src/router.ts:96-153 | query and cookie are parsed from the request; the chain starts with the global chain; a match adds the route's middlewares, handler and params; a fallback gets `{}` params and the global chain alone |
| Gateway.BareRoutesRunGlobalChain | src/router.ts:118-143 | when no route has its own middlewares, every request runs exactly the global chain |
| Gateway.TrailingSlashIgnored | src/router.ts:100 | `/p/` is dispatched exactly like `/p` |
| Gateway.MethodCaseIgnored | src/router.ts:97 | methods that upper-case alike are dispatched alike |
| Gateway.FallbackNotFound | src/router.ts:156-161 | without middlewares, a path no route matches is answered 404 `Not Found` |
| Gateway.FallbackNotAllowed | src/router.ts:163-169 | without middlewares, a path matched only under other methods is answered 405 `Method Not Allowed`, with `Allow` listing those methods joined by `, ` |
| Scenarios.AddAll | src/index.ts:32-184 | registering routes one after another keeps the stack and the earlier routes |
| Scenarios.AddAllCompiled | src/index.ts:32-184 | route specs that each compile to a route register as exactly those routes |
| Scenarios.PrefixedStack | src/index.ts:12-30 | the extended constructor and the four `use` calls build the five-binding stack |
| Scenarios.PixelTokens | src/index.ts:32 | `/view.png` is one static token |
| Scenarios.ViewsTokens | src/index.ts:62 | `/posts/:postId/views` tokenises to static, param, static |
| Scenarios.SessionsTokens | src/index.ts:109 | `/posts/:postId/sessions` tokenises to static, param, static |
| Scenarios.SessionTokens | src/index.ts:162 | `/posts/:postId/sessions/:sessionId` tokenises to static, param, static, param |
| Scenarios.RoutesCompile | src/index.ts:32-184 | every registration of the worker compiles to its expected route |
| Scenarios.AppLoads | src/index.ts:12-184 | the worker's registrations all succeed and produce exactly the expected stack and routes |
| Scenarios.PostsChain | src/index.ts:27-30 | a request under `/posts/` runs stamp, user-agent check, CORS, token check, in that order |
| Scenarios.PixelChain | src/index.ts:27-30 | `/view.png` runs stamp, user-agent check, referer check |
| Scenarios.ViewsBinds | src/index.ts:62 | `/posts/<id>/views` binds `postId` to the decoded id |
| Scenarios.SessionsRejectsViews | src/index.ts:109 | the sessions route does not match a views path |
| Scenarios.ResolveViews | src/index.ts:62 | `GET /posts/<id>/views` resolves to the views route |
| Scenarios.RefuseViewsPost | src/index.ts:62 | `POST /posts/<id>/views` is refused with `Allow: GET` |
| Scenarios.PlanIsGlobalChain | src/index.ts:32-184 | the worker's routes carry no middleware of their own, so every request runs the global chain |
| Scenarios.StampedResponse | src/router.ts:193-196 | the default middleware stamps the request id and `x-powered-by: day1swhan` and keeps status, body and other headers |
| Scenarios.PreflightAnswered | src/router.ts:178-197 | a preflight that passes the agent check is answered by CORS before any inner handler |
| Scenarios.PreflightRun | src/index.ts:27-30 | an allowed preflight under `/posts` gets a stamped 204 with the allowed origin and never enters the token check |
| Scenarios.CorsWrapsRefusal | src/index.ts:29-30 | CORS headers are added to the token check's 401 |
| Scenarios.TokenRefused | src/index.ts:27-30 | a tokenless request runs stamp, agent, CORS and token check, which answers 401 |
| Scenarios.MissingTokenRun | src/index.ts:27-30 | a tokenless request from an allowed origin gets a stamped 401 with CORS headers and never reaches the handler |
| Scenarios.PreflightSkipsToken | src/index.ts:19-30 | through the whole gateway, an allowed preflight to `/posts/...` is answered 204 without entering the token check |

## Left out

- `onError` and the `try`/`catch` in `handler` (src/router.ts:56-59, 129-137) are not modelled. Every handler and middleware is an `async` function, so a throw becomes a rejected promise that the synchronous `catch` never sees. The 500 path cannot be reached.
- `decodeURIComponent`, `new URL`, `crypto.randomUUID` and `Date.now` are inputs in `Http.Runtime`. Their behaviour is outside the model.
- `new URL(req.url)` is not modelled. `Http.Request` carries its `pathname` and `search` directly.
- The route handlers' bodies in `src/index.ts` are not modelled: KV storage, caching, the PNG body and session ids. A route handler is an opaque `serve` function from handler name, request and context.
- `env` and `ctx` in the context are not modelled, because the router only passes them through.
- `export()` is not modelled, because it only hands the fetch handler to the platform.
- Case mapping covers ASCII only. `toUpperCase`/`toLowerCase` and the `i` regex flag on non-ASCII letters are left out, because every name the router compares is ASCII.
- `StringSort.Below` compares characters by code point, and `Chain.Len` counts code points. JavaScript's default sort compares UTF-16 code units and `prefix.length` counts them. The two differ only on characters outside the Basic Multilingual Plane.
- `CorsPolicy.MaxAge`: the max-age is modelled as an integer, while the source's `maxAge?: number` is any JS number. `NaN` (falsy, so 300), `Infinity` (above 86400, so 300), `-Infinity` (kept) and fractions such as `1.5` (kept and sent as `"1.5"`) are not modelled.
- Header names are kept lower-case, as `Headers` normalises them. Responses are modelled with mutable headers, as the platform gives every response built with `new Response` or `Response.json`. Only responses from `fetch()` have immutable headers, and none reaches the middlewares here.
- `src/middleware/index.ts` is not part of this model. It is an older copy of the middlewares, which `src/index.ts` does not import.
- `Uri.Decode`: carries no contract of its own. It is `decodeURIComponent` with the input kept on a throw, and `Tokens.BindValues` and `Decoders.ParseEntryShape` state its use.

=== FILE: agent_policy.dfy ===
/** The user-agent middleware: a request whose `user-agent` matches a bot
    pattern is refused with 403, a missing or empty one counting as `bot`.
    The pattern is an alternation of plain keywords under the `i` flag,
    tested unanchored. */
module AgentPolicy {
  import opened Strings
  import opened Http

  const Keywords: seq<string> := [
    "bot", "curl", "crawl", "slurp", "spider", "crawler", "python", "go-http", "wget", "libwww", "java",
    "httpclient", "http_request2", "php", "node", "headless", "phantomjs", "selenium", "postman", "yeti",
    "fasthttp"]

  /** `req.headers.get("user-agent") || "bot"`. */
  function Agent(req: Request): (ua: string)
    ensures ua != ""
  {
    if HeaderOr(req, "user-agent") == "" then "bot" else HeaderOr(req, "user-agent")
  }

  /** The two characters are equal under the `i` flag of a non-Unicode
      pattern: both are canonicalised by upper-casing, and a non-ASCII
      character never canonicalises to an ASCII one. */
  predicate SameIgnoringCase(a: char, b: char) {
    UpperChar(a) == UpperChar(b)
  }

  /** The keyword matches `ua` at position `i` under the `i` flag. */
  predicate MatchesAt(ua: string, kw: string, i: int) {
    0 <= i && i + |kw| <= |ua| && forall j :: 0 <= j < |kw| ==> SameIgnoringCase(ua[i + j], kw[j])
  }

  /** `regexp.test(ua)`: some alternative matches somewhere. */
  predicate PatternTest(ua: string) {
    exists k, i :: 0 <= k < |Keywords| && 0 <= i <= |ua| && MatchesAt(ua, Keywords[k], i)
  }

  /** The implementation's reading: some keyword is a substring of the
      lower-cased agent. */
  predicate IsBot(ua: string) {
    exists k :: 0 <= k < |Keywords| && Contains(Lower(ua), Keywords[k])
  }

  /** No upper-case ASCII letter. */
  predicate LowerForm(s: string) {
    forall j :: 0 <= j < |s| ==> !('A' <= s[j] <= 'Z')
  }

  lemma KeywordsLowerForm()
    ensures forall k :: 0 <= k < |Keywords| ==> LowerForm(Keywords[k])
  {
    forall k | 0 <= k < |Keywords| ensures LowerForm(Keywords[k]) {
      var kw := Keywords[k];
      assert forall j :: 0 <= j < |kw| ==> 'a' <= kw[j] <= 'z' || kw[j] in "-_2";
    }
  }

  /** Against a character with no upper-case letter, case-insensitive
      equality is equality after lower-casing. */
  lemma SameIgnoringCaseLower(a: char, b: char)
    requires !('A' <= b <= 'Z')
    ensures SameIgnoringCase(a, b) <==> LowerChar(a) == b
  {
  }

  lemma MatchesAtLower(ua: string, kw: string, i: int)
    requires LowerForm(kw) && 0 <= i && i + |kw| <= |ua|
    ensures MatchesAt(ua, kw, i) <==> OccursAt(Lower(ua), kw, i)
  {
    var low := Lower(ua);
    forall j | 0 <= j < |kw| ensures SameIgnoringCase(ua[i + j], kw[j]) <==> low[i + j] == kw[j] {
      SameIgnoringCaseLower(ua[i + j], kw[j]);
    }
    if MatchesAt(ua, kw, i) {
      assert low[i..i + |kw|] == kw;
    }
    if OccursAt(low, kw, i) {
      forall j | 0 <= j < |kw| ensures SameIgnoringCase(ua[i + j], kw[j]) {
        assert low[i..i + |kw|][j] == kw[j];
      }
    }
  }

  /** The pattern test is exactly the lower-cased substring test. */
  lemma PatternIsSubstring(ua: string)
    ensures PatternTest(ua) <==> IsBot(ua)
  {
    KeywordsLowerForm();
    if PatternTest(ua) {
      var k, i :| 0 <= k < |Keywords| && 0 <= i <= |ua| && MatchesAt(ua, Keywords[k], i);
      MatchesAtLower(ua, Keywords[k], i);
      assert OccursAt(Lower(ua), Keywords[k], i);
    }
    if IsBot(ua) {
      var k :| 0 <= k < |Keywords| && Contains(Lower(ua), Keywords[k]);
      var i :| 0 <= i <= |Lower(ua)| - |Keywords[k]| && OccursAt(Lower(ua), Keywords[k], i);
      MatchesAtLower(ua, Keywords[k], i);
      assert MatchesAt(ua, Keywords[k], i);
    }
  }

  /** The decision `middlewareVerifyUserAgent` takes before calling `next`. */
  function Admit(req: Request): (s: Step)
    ensures s.Forward? <==> !PatternTest(Agent(req))
    ensures s.Forward? ==> s.request == req
    ensures s.Respond? ==> s.response == JsonMessage(403, Agent(req) + " Not Allowed", map[])
  {
    PatternIsSubstring(Agent(req));
    var ua := Agent(req);
    if IsBot(ua) then Respond(JsonMessage(403, ua + " Not Allowed", map[])) else Forward(req)
  }

  /** An agent holding `bot` in any case at position `i` is refused. */
  lemma BotAt(ua: string, i: int)
    requires 0 <= i && i + 3 <= |ua|
    requires UpperChar(ua[i]) == 'B' && UpperChar(ua[i + 1]) == 'O' && UpperChar(ua[i + 2]) == 'T'
    ensures PatternTest(ua)
  {
    assert Keywords[0] == "bot";
    assert MatchesAt(ua, Keywords[0], i);
  }

  /** A request without a user agent is refused as `bot`. */
  lemma MissingAgent(req: Request)
    requires Truthy(req, "user-agent").None?
    ensures Admit(req) == Respond(JsonMessage(403, "bot Not Allowed", map[]))
  {
    assert Agent(req) == "bot";
    BotAt("bot", 0);
    assert "bot" + " Not Allowed" == "bot Not Allowed";
  }

  /** A crawler agent that spells `bot` in capitals. */
  const GoogleBot := "Mozilla/5.0 (compatible; GoogleBOT/2.1)"

  /** The keywords match regardless of case and position. */
  lemma MixedCaseBot(req: Request)
    requires req.headers == map["user-agent" := GoogleBot]
    ensures Admit(req) == Respond(JsonMessage(403, GoogleBot + " Not Allowed", map[]))
  {
    var ua := GoogleBot;
    assert Agent(req) == ua;
    assert ua[31] == 'B' && ua[32] == 'O' && ua[33] == 'T';
    BotAt(ua, 31);
  }
}

=== FILE: chain.dfy ===
/** The global middleware chain for a request: the registered bindings whose
    prefix covers the pathname, stably sorted by prefix length (so that an
    outer prefix runs before an inner one, and bindings of equal length keep
    their registration order), flattened into one list of middleware. */
module Chain {
  import opened Paths
  import opened Pipeline

  /** One `use(prefix, ...middlewares)` registration. */
  datatype Binding = Binding(prefix: string, middlewares: seq<Middleware>)

  function Len(b: Binding): nat {
    |b.prefix|
  }

  /** `middlewareStack.filter((mw) => pathnameStartsWith(pathname, mw.prefix))`. */
  function Matching(stack: seq<Binding>, pathname: string): seq<Binding> {
    if |stack| == 0 then []
    else
      var rest := Matching(stack[1..], pathname);
      if PathnameStartsWith(pathname, stack[0].prefix) then [stack[0]] + rest else rest
  }

  /** The filter keeps exactly the bindings whose prefix covers the
      pathname. */
  lemma {:induction false} MatchingMembers(stack: seq<Binding>, pathname: string)
    ensures forall b :: b in Matching(stack, pathname) <==> b in stack && PathnameStartsWith(pathname, b.prefix)
  {
    if |stack| > 0 {
      MatchingMembers(stack[1..], pathname);
      assert forall b :: b in stack <==> b == stack[0] || b in stack[1..];
    }
  }

  lemma MatchingFromTail(stack: seq<Binding>, pathname: string, x: Binding)
    requires |stack| > 0 && x in Matching(stack[1..], pathname)
    ensures exists l :: 1 <= l < |stack| && stack[l] == x
  {
    MatchingMembers(stack[1..], pathname);
    var l :| 0 <= l < |stack[1..]| && stack[1..][l] == x;
    assert stack[l + 1] == x;
  }

  /** The filter keeps the order of the stack: it is a subsequence. */
  lemma {:induction false} MatchingOrder(stack: seq<Binding>, pathname: string, i: int, j: int)
    requires 0 <= i < j < |Matching(stack, pathname)|
    ensures exists k, l :: 0 <= k < l < |stack| && stack[k] == Matching(stack, pathname)[i] && stack[l] == Matching(stack, pathname)[j]
  {
    var m := Matching(stack, pathname);
    var rest := Matching(stack[1..], pathname);
    if PathnameStartsWith(pathname, stack[0].prefix) {
      if i == 0 {
        assert m[j] == rest[j - 1];
        MatchingFromTail(stack, pathname, m[j]);
      } else {
        MatchingOrder(stack[1..], pathname, i - 1, j - 1);
        var k, l :| 0 <= k < l < |stack[1..]| && stack[1..][k] == rest[i - 1] && stack[1..][l] == rest[j - 1];
        assert stack[k + 1] == m[i] && stack[l + 1] == m[j];
      }
    } else {
      MatchingOrder(stack[1..], pathname, i, j);
      var k, l :| 0 <= k < l < |stack[1..]| && stack[1..][k] == rest[i] && stack[1..][l] == rest[j];
      assert stack[k + 1] == m[i] && stack[l + 1] == m[j];
    }
  }

  lemma {:induction false} MatchingConcat(a: seq<Binding>, b: seq<Binding>, pathname: string)
    ensures Matching(a + b, pathname) == Matching(a, pathname) + Matching(b, pathname)
  {
    if |a| == 0 {
      assert a + b == b;
    } else {
      assert (a + b)[0] == a[0];
      assert (a + b)[1..] == a[1..] + b;
      MatchingConcat(a[1..], b, pathname);
    }
  }

  lemma MatchingOne(b: Binding, pathname: string)
    ensures Matching([b], pathname) == if PathnameStartsWith(pathname, b.prefix) then [b] else []
  {
    assert [b][1..] == [];
  }

  /* ---------------------------------------------------------------------
     the stable sort by prefix length
     --------------------------------------------------------------------- */

  predicate SortedByLength(s: seq<Binding>) {
    forall i, j :: 0 <= i < j < |s| ==> Len(s[i]) <= Len(s[j])
  }

  /** The bindings of one prefix length, in their order. */
  function OfLength(n: nat, s: seq<Binding>): seq<Binding> {
    if |s| == 0 then []
    else (if Len(s[0]) == n then [s[0]] else []) + OfLength(n, s[1..])
  }

  /** Insert `b` after every binding no longer than it. */
  function Insert(b: Binding, s: seq<Binding>): seq<Binding> {
    if |s| == 0 then [b]
    else if Len(b) < Len(s[0]) then [b] + s
    else [s[0]] + Insert(b, s[1..])
  }

  /** `.sort((a, b) => a.prefix.length - b.prefix.length)`: `Array.prototype.sort`
      is stable, and so is this insertion sort. */
  function SortByLength(s: seq<Binding>): seq<Binding> {
    if |s| == 0 then [] else Insert(s[|s| - 1], SortByLength(s[..|s| - 1]))
  }

  lemma {:induction false} OfLengthConcat(n: nat, a: seq<Binding>, b: seq<Binding>)
    ensures OfLength(n, a + b) == OfLength(n, a) + OfLength(n, b)
  {
    if |a| > 0 {
      assert (a + b)[0] == a[0];
      assert (a + b)[1..] == a[1..] + b;
      OfLengthConcat(n, a[1..], b);
    } else {
      assert a + b == b;
    }
  }

  /** Nothing in a sorted sequence is shorter than its first element. */
  lemma {:induction false} OfLengthBelowFirst(n: nat, s: seq<Binding>)
    requires SortedByLength(s) && |s| > 0 && n < Len(s[0])
    ensures OfLength(n, s) == []
  {
    if |s| > 1 {
      assert Len(s[0]) <= Len(s[1]);
      OfLengthBelowFirst(n, s[1..]);
    }
  }

  lemma {:induction false} InsertOfLength(n: nat, b: Binding, s: seq<Binding>)
    requires SortedByLength(s)
    ensures OfLength(n, Insert(b, s)) == OfLength(n, s) + (if Len(b) == n then [b] else [])
  {
    if |s| == 0 {
    } else if Len(b) < Len(s[0]) {
      assert ([b] + s)[1..] == s;
      if Len(b) == n {
        OfLengthBelowFirst(n, s);
      }
    } else {
      InsertOfLength(n, b, s[1..]);
      assert ([s[0]] + Insert(b, s[1..]))[1..] == Insert(b, s[1..]);
    }
  }

  lemma {:induction false} InsertPermutes(b: Binding, s: seq<Binding>)
    ensures multiset(Insert(b, s)) == multiset(s) + multiset{b}
  {
    if |s| > 0 && Len(b) >= Len(s[0]) {
      InsertPermutes(b, s[1..]);
      assert s == [s[0]] + s[1..];
    }
  }

  /** Inserting keeps a lower bound on the prefix lengths. */
  lemma {:induction false} InsertAbove(b: Binding, s: seq<Binding>, m: nat)
    requires Len(b) >= m && forall k :: 0 <= k < |s| ==> Len(s[k]) >= m
    ensures forall k :: 0 <= k < |Insert(b, s)| ==> Len(Insert(b, s)[k]) >= m
  {
    if |s| > 0 && Len(b) >= Len(s[0]) {
      InsertAbove(b, s[1..], m);
      var t := Insert(b, s[1..]);
      assert forall k :: 1 <= k < |t| + 1 ==> ([s[0]] + t)[k] == t[k - 1];
    }
  }

  lemma {:induction false} InsertSorted(b: Binding, s: seq<Binding>)
    requires SortedByLength(s)
    ensures SortedByLength(Insert(b, s))
  {
    if |s| > 0 && Len(b) >= Len(s[0]) {
      InsertSorted(b, s[1..]);
      InsertAbove(b, s[1..], Len(s[0]));
      var t := Insert(b, s[1..]);
      var r := [s[0]] + t;
      assert Insert(b, s) == r;
      forall i, j | 0 <= i < j < |r| ensures Len(r[i]) <= Len(r[j]) {
        if i == 0 {
          assert r[j] == t[j - 1];
        } else {
          assert r[i] == t[i - 1] && r[j] == t[j - 1];
        }
      }
    }
  }

  lemma {:induction false} SortByLengthSorted(s: seq<Binding>)
    ensures SortedByLength(SortByLength(s))
  {
    if |s| > 0 {
      SortByLengthSorted(s[..|s| - 1]);
      InsertSorted(s[|s| - 1], SortByLength(s[..|s| - 1]));
    }
  }

  lemma {:induction false} SortByLengthPermutes(s: seq<Binding>)
    ensures multiset(SortByLength(s)) == multiset(s)
  {
    if |s| > 0 {
      var init, last := s[..|s| - 1], s[|s| - 1];
      SortByLengthPermutes(init);
      InsertPermutes(last, SortByLength(init));
      assert s == init + [last];
    }
  }

  /** Appending one binding to the input adds it after the bindings of its
      length in the output. */
  lemma SnocOfLength(n: nat, init: seq<Binding>, last: Binding)
    requires OfLength(n, SortByLength(init)) == OfLength(n, init)
    ensures OfLength(n, SortByLength(init + [last])) == OfLength(n, init + [last])
  {
    var s := init + [last];
    assert s[..|s| - 1] == init && s[|s| - 1] == last;
    SortByLengthSorted(init);
    InsertOfLength(n, last, SortByLength(init));
    OfLengthConcat(n, init, [last]);
  }

  lemma {:induction false} SortByLengthStable(s: seq<Binding>, n: nat)
    ensures OfLength(n, SortByLength(s)) == OfLength(n, s)
  {
    if |s| > 0 {
      var init, last := s[..|s| - 1], s[|s| - 1];
      SortByLengthStable(init, n);
      SnocOfLength(n, init, last);
      assert s == init + [last];
    }
  }

  /** The sort is a permutation, ordered by prefix length, and stable:
      among bindings of one length the registration order is kept. */
  lemma SortByLengthCorrect(s: seq<Binding>)
    ensures SortedByLength(SortByLength(s))
    ensures multiset(SortByLength(s)) == multiset(s)
    ensures forall n: nat :: OfLength(n, SortByLength(s)) == OfLength(n, s)
  {
    SortByLengthSorted(s);
    SortByLengthPermutes(s);
    forall n: nat ensures OfLength(n, SortByLength(s)) == OfLength(n, s) {
      SortByLengthStable(s, n);
    }
  }

  lemma OfLengthCons(n: nat, x: Binding, s: seq<Binding>)
    ensures OfLength(n, [x] + s) == (if Len(x) == n then [x] else []) + OfLength(n, s)
  {
    assert ([x] + s)[1..] == s;
  }

  lemma {:induction false} OfLengthIn(n: nat, s: seq<Binding>, x: Binding)
    requires x in OfLength(n, s)
    ensures x in s && Len(x) == n
  {
    if |s| > 0 {
      if x in OfLength(n, s[1..]) {
        OfLengthIn(n, s[1..], x);
      }
    }
  }

  lemma OfLengthHead(s: seq<Binding>)
    requires |s| > 0
    ensures OfLength(Len(s[0]), s) == [s[0]] + OfLength(Len(s[0]), s[1..])
  {
  }

  lemma SortedMinLen(s: seq<Binding>, x: Binding)
    requires SortedByLength(s) && x in s
    ensures Len(s[0]) <= Len(x)
  {
    var i :| 0 <= i < |s| && s[i] == x;
    assert i == 0 || Len(s[0]) <= Len(s[i]);
  }

  /** Two sorted sequences with the same per-length subsequences start
      with the same binding. */
  lemma HeadsAgree(a: seq<Binding>, b: seq<Binding>)
    requires SortedByLength(a) && SortedByLength(b) && |a| > 0
    requires forall n: nat :: OfLength(n, a) == OfLength(n, b)
    ensures |b| > 0 && a[0] == b[0]
  {
    var m := Len(a[0]);
    OfLengthHead(a);
    assert a[0] in OfLength(m, b);
    OfLengthIn(m, b, a[0]);
    SortedMinLen(b, a[0]);
    var n := Len(b[0]);
    OfLengthHead(b);
    assert b[0] in OfLength(n, a);
    OfLengthIn(n, a, b[0]);
    SortedMinLen(a, b[0]);
    assert OfLength(m, a)[0] == a[0] && OfLength(m, b)[0] == b[0];
  }

  lemma TailsAgree(a: seq<Binding>, b: seq<Binding>, n: nat)
    requires |a| > 0 && |b| > 0 && a[0] == b[0]
    requires OfLength(n, a) == OfLength(n, b)
    ensures OfLength(n, a[1..]) == OfLength(n, b[1..])
  {
    OfLengthCons(n, a[0], a[1..]);
    OfLengthCons(n, b[0], b[1..]);
    assert a == [a[0]] + a[1..] && b == [b[0]] + b[1..];
    var p := if Len(a[0]) == n then [a[0]] else [];
    assert OfLength(n, a[1..]) == (p + OfLength(n, a[1..]))[|p|..];
    assert OfLength(n, b[1..]) == (p + OfLength(n, b[1..]))[|p|..];
  }

  /** A sorted sequence is fixed by its per-length subsequences, so every
      stable sort by prefix length yields the same order as this one. */
  lemma {:induction false} StableSortUnique(a: seq<Binding>, b: seq<Binding>)
    requires SortedByLength(a) && SortedByLength(b)
    requires forall n: nat :: OfLength(n, a) == OfLength(n, b)
    ensures a == b
  {
    if |a| == 0 {
      if |b| > 0 {
        HeadsAgree(b, a);
      }
    } else {
      HeadsAgree(a, b);
      forall n: nat ensures OfLength(n, a[1..]) == OfLength(n, b[1..]) {
        TailsAgree(a, b, n);
      }
      StableSortUnique(a[1..], b[1..]);
      assert a == [a[0]] + a[1..] && b == [b[0]] + b[1..];
    }
  }

  /** Sorting bindings that are already in prefix-length order changes
      nothing. */
  lemma SortedIsFixed(s: seq<Binding>)
    requires SortedByLength(s)
    ensures SortByLength(s) == s
  {
    SortByLengthCorrect(s);
    StableSortUnique(SortByLength(s), s);
  }

  /* ---------------------------------------------------------------------
     the chain
     --------------------------------------------------------------------- */

  /** `.flatMap((mw) => mw.middlewares)`. */
  function Flatten(bs: seq<Binding>): seq<Middleware> {
    if |bs| == 0 then [] else bs[0].middlewares + Flatten(bs[1..])
  }

  lemma {:induction false} FlattenConcat(a: seq<Binding>, b: seq<Binding>)
    ensures Flatten(a + b) == Flatten(a) + Flatten(b)
  {
    if |a| == 0 {
      assert a + b == b;
    } else {
      assert (a + b)[1..] == a[1..] + b;
      FlattenConcat(a[1..], b);
    }
  }

  /** The global chain for a normalised pathname. */
  function GlobalChain(stack: seq<Binding>, pathname: string): seq<Middleware> {
    Flatten(SortByLength(Matching(stack, pathname)))
  }

  /** Of two bindings that both apply, the one with the shorter prefix
      comes first in the sorted list. How equally long prefixes are ordered
      is `SortByLengthStable`'s statement. */
  lemma OuterFirst(stack: seq<Binding>, pathname: string, i: int, j: int)
    requires 0 <= i < j < |SortByLength(Matching(stack, pathname))|
    ensures Len(SortByLength(Matching(stack, pathname))[i]) <= Len(SortByLength(Matching(stack, pathname))[j])
  {
    SortByLengthCorrect(Matching(stack, pathname));
  }
}

=== FILE: cors_policy.dfy ===
/** The CORS middleware. A preflight (`OPTIONS`, compared after upper-casing)
    is answered at once: 403 without an allowed origin, 204 with the six
    `Access-Control-*`/`Vary` headers with one. Any other request goes to
    `next`, and the response it returns is decorated with three headers
    when the origin is allowed. */
module CorsPolicy {
  import opened Wrappers
  import opened Strings
  import opened Http
  import opened Origins

  /** `CORSConfig`. An optional array reads as the empty one (both fall
      back to the default), and an absent `credentials` as `false`. */
  datatype CorsConfig = CorsConfig(
    origins: seq<string>,
    methods: seq<Verb>,
    headers: seq<string>,
    credentials: bool,
    maxAge: Option<int>,
    vary: seq<string>)

  const AllowOriginHeader := "access-control-allow-origin"
  const AllowMethodsHeader := "access-control-allow-methods"
  const AllowHeadersHeader := "access-control-allow-headers"
  const AllowCredentialsHeader := "access-control-allow-credentials"
  const MaxAgeHeader := "access-control-max-age"
  const VaryHeader := "vary"

  const DefaultMaxAge := 300
  const MaxAgeCeiling := 86400

  /** `ALLOW_METHODS`. */
  function AllowMethods(c: CorsConfig): (r: seq<Verb>)
    ensures |r| > 0
    ensures |c.methods| > 0 ==> r == c.methods
  {
    if |c.methods| > 0 then c.methods else [GET, OPTIONS]
  }

  /** `ALLOW_HEADERS`. */
  function AllowHeaders(c: CorsConfig): (r: seq<string>)
    ensures |r| > 0
    ensures |c.headers| > 0 ==> r == c.headers
  {
    if |c.headers| > 0 then c.headers else ["content-type"]
  }

  /** `String(ALLOW_CREDENTIALS)`. */
  function Credentials(c: CorsConfig): (r: string)
    ensures r == "true" || r == "false"
    ensures r == "true" <==> c.credentials
  {
    if c.credentials then "true" else "false"
  }

  /** `MAX_AGE`: the configured value when it is truthy (non-zero) and at
      most a day, otherwise five minutes. A negative value passes. */
  function MaxAge(c: CorsConfig): (r: int)
    ensures r <= MaxAgeCeiling && r != 0
    ensures r == DefaultMaxAge || (c.maxAge.Some? && r == c.maxAge.value)
    ensures c.maxAge.Some? && c.maxAge.value != 0 && c.maxAge.value <= MaxAgeCeiling ==> r == c.maxAge.value
  {
    match c.maxAge
    case Some(n) => if n != 0 && n <= MaxAgeCeiling then n else DefaultMaxAge
    case None => DefaultMaxAge
  }

  /** `VARY`. */
  function Vary(c: CorsConfig): (r: seq<string>)
    ensures |r| > 0
    ensures |c.vary| > 0 ==> r == c.vary
  {
    if |c.vary| > 0 then c.vary else ["Origin", "Accept-Encoding"]
  }

  /** `ALLOW_ORIGIN`. */
  function AllowOrigin(c: CorsConfig, req: Request, parseUrl: string -> Option<Url>): Option<string> {
    IsAllowedOrigin(GetOrigin(req, parseUrl), c.origins)
  }

  predicate IsPreflight(req: Request) {
    Upper(req.methodName) == "OPTIONS"
  }

  /** The headers of a successful preflight answer. */
  function PreflightHeaders(c: CorsConfig, origin: string): Headers {
    map[AllowOriginHeader := origin,
        AllowMethodsHeader := Join(VerbNames(AllowMethods(c)), ", "),
        AllowHeadersHeader := Join(AllowHeaders(c), ", "),
        AllowCredentialsHeader := Credentials(c),
        MaxAgeHeader := Decimal(MaxAge(c)),
        VaryHeader := Join(Vary(c), ", ")]
  }

  /** What the middleware decides before calling `next`. */
  function Admit(c: CorsConfig, req: Request, parseUrl: string -> Option<Url>): (s: Step)
    ensures s.Forward? <==> !IsPreflight(req)
    ensures s.Forward? ==> s.request == req
    ensures s.Respond? ==> s.response.body == Empty
    ensures s.Respond? ==> (s.response.status == 204 <==> AllowOrigin(c, req, parseUrl).Some?)
    ensures s.Respond? && s.response.status == 204 ==>
              && AllowOriginHeader in s.response.headers
              && s.response.headers[AllowOriginHeader] == AllowOrigin(c, req, parseUrl).value
    ensures IsPreflight(req) && AllowOrigin(c, req, parseUrl).None? ==> s == Respond(Response(403, Empty, map[]))
  {
    if IsPreflight(req) then
      match AllowOrigin(c, req, parseUrl)
      case None => Respond(Response(403, Empty, map[]))
      case Some(origin) => Respond(Response(204, Empty, PreflightHeaders(c, origin)))
    else Forward(req)
  }

  /** What the middleware does to the response `next` returned. */
  function Finish(c: CorsConfig, req: Request, parseUrl: string -> Option<Url>, res: Response): (r: Response)
    ensures r.status == res.status && r.body == res.body
    ensures AllowOrigin(c, req, parseUrl).None? ==> r == res
    ensures AllowOrigin(c, req, parseUrl).Some? ==>
              && AllowOriginHeader in r.headers && r.headers[AllowOriginHeader] == AllowOrigin(c, req, parseUrl).value
              && AllowCredentialsHeader in r.headers && r.headers[AllowCredentialsHeader] == Credentials(c)
              && VaryHeader in r.headers && r.headers[VaryHeader] == Join(Vary(c), ", ")
    ensures forall k :: k !in {AllowOriginHeader, AllowCredentialsHeader, VaryHeader} ==>
              (k in r.headers <==> k in res.headers) && (k in res.headers ==> r.headers[k] == res.headers[k])
  {
    match AllowOrigin(c, req, parseUrl)
    case None => res
    case Some(origin) =>
      SetHeader(SetHeader(SetHeader(res, AllowOriginHeader, origin), AllowCredentialsHeader, Credentials(c)),
                VaryHeader, Join(Vary(c), ", "))
  }

  /** Decorating twice is decorating once. */
  lemma FinishIdempotent(c: CorsConfig, req: Request, parseUrl: string -> Option<Url>, res: Response)
    ensures Finish(c, req, parseUrl, Finish(c, req, parseUrl, res)) == Finish(c, req, parseUrl, res)
  {
    var once := Finish(c, req, parseUrl, res);
    var twice := Finish(c, req, parseUrl, once);
    if AllowOrigin(c, req, parseUrl).Some? {
      assert twice.headers.Keys == once.headers.Keys;
      assert forall k :: k in once.headers ==> twice.headers[k] == once.headers[k];
    }
  }

  /** A preflight never reaches `next`, whatever the origin; a request with
      any other method always does. A preflight with no origin, or with one
      that is not on the list, gets a bare 403. */
  lemma PreflightAnsweredAtOnce(c: CorsConfig, req: Request, parseUrl: string -> Option<Url>)
    ensures Admit(c, req, parseUrl).Respond? <==> IsPreflight(req)
    ensures IsPreflight(req) && GetOrigin(req, parseUrl).None? ==> Admit(c, req, parseUrl) == Respond(Response(403, Empty, map[]))
    ensures IsPreflight(req) && AllowOrigin(c, req, parseUrl).None? ==> Admit(c, req, parseUrl) == Respond(Response(403, Empty, map[]))
  {
  }

  /** The method comparison ignores case: `options` is a preflight too. */
  lemma PreflightIgnoresCase()
    ensures IsPreflight(Request("options", "/", "", map[]))
    ensures IsPreflight(Request("Options", "/", "", map[]))
    ensures !IsPreflight(Request("GET", "/", "", map[]))
  {
    assert Upper("options") == "OPTIONS";
    assert Upper("Options") == "OPTIONS";
    assert Upper("GET")[0] == 'G';
  }

  /** A successful preflight carries exactly the six headers, each with
      its configured or default value. */
  lemma PreflightHeadersSpec(c: CorsConfig, req: Request, parseUrl: string -> Option<Url>)
    requires IsPreflight(req) && AllowOrigin(c, req, parseUrl).Some?
    ensures Admit(c, req, parseUrl).response.status == 204
    ensures Admit(c, req, parseUrl).response.headers.Keys
            == {AllowOriginHeader, AllowMethodsHeader, AllowHeadersHeader, AllowCredentialsHeader, MaxAgeHeader, VaryHeader}
    ensures Admit(c, req, parseUrl).response.headers[AllowMethodsHeader] == Join(VerbNames(AllowMethods(c)), ", ")
    ensures Admit(c, req, parseUrl).response.headers[AllowOriginHeader] == AllowOrigin(c, req, parseUrl).value
    ensures Admit(c, req, parseUrl).response.headers[AllowHeadersHeader] == Join(AllowHeaders(c), ", ")
    ensures Admit(c, req, parseUrl).response.headers[AllowCredentialsHeader] == Credentials(c)
    ensures Admit(c, req, parseUrl).response.headers[MaxAgeHeader] == Decimal(MaxAge(c))
    ensures Admit(c, req, parseUrl).response.headers[VaryHeader] == Join(Vary(c), ", ")
  {
  }

  lemma DefaultMethods(c: CorsConfig)
    requires c.methods == []
    ensures Join(VerbNames(AllowMethods(c)), ", ") == "GET, OPTIONS"
  {
    assert VerbNames(AllowMethods(c)) == ["GET", "OPTIONS"];
    JoinTwo("GET", "OPTIONS", ", ");
  }

  lemma DecimalThreeHundred()
    ensures Decimal(300) == "300"
  {
    assert NatDecimal(3) == "3";
    assert NatDecimal(30) == "30";
    assert NatDecimal(300) == "300";
  }

  lemma DefaultHeaders(c: CorsConfig)
    requires c.headers == []
    ensures Join(AllowHeaders(c), ", ") == "content-type"
  {
    JoinOne("content-type", ", ");
  }

  lemma DefaultMaxAgeText(c: CorsConfig)
    requires c.maxAge.None?
    ensures Decimal(MaxAge(c)) == "300"
  {
    DecimalThreeHundred();
  }

  lemma DefaultVary(c: CorsConfig)
    requires c.vary == []
    ensures Join(Vary(c), ", ") == "Origin, Accept-Encoding"
  {
    JoinTwo("Origin", "Accept-Encoding", ", ");
  }

  /** With nothing configured beyond the origins, a preflight answers with
      the defaults. */
  lemma Defaults(origins: seq<string>)
    ensures var c := CorsConfig(origins, [], [], false, None, []);
            && Join(VerbNames(AllowMethods(c)), ", ") == "GET, OPTIONS"
            && Join(AllowHeaders(c), ", ") == "content-type"
            && Credentials(c) == "false"
            && Decimal(MaxAge(c)) == "300"
            && Join(Vary(c), ", ") == "Origin, Accept-Encoding"
  {
    var c := CorsConfig(origins, [], [], false, None, []);
    DefaultMethods(c);
    DefaultHeaders(c);
    DefaultMaxAgeText(c);
    DefaultVary(c);
  }

  lemma JoinOne(a: string, sep: string)
    ensures Join([a], sep) == a
  {
  }

  lemma JoinTwo(a: string, b: string, sep: string)
    ensures Join([a, b], sep) == a + sep + b
  {
    assert [a, b][1..] == [b];
  }

  /** The Max-Age clamp: a day is kept, more than a day and zero fall back
      to five minutes, and a negative value is passed through. */
  lemma MaxAgeClamp(origins: seq<string>)
    ensures MaxAge(CorsConfig(origins, [], [], false, Some(86400), [])) == 86400
    ensures MaxAge(CorsConfig(origins, [], [], false, Some(86401), [])) == 300
    ensures MaxAge(CorsConfig(origins, [], [], false, Some(0), [])) == 300
    ensures MaxAge(CorsConfig(origins, [], [], false, Some(-5), [])) == -5
  {
  }
}

=== FILE: decoders.dfy ===
/** The per-request decoders of router.ts: `parseQueryString` for the URL's
    search part and `parseCookie` for the `cookie` header. Both split the
    input into `key=value` parts, SORT the parts as strings, and fold them
    into an object from left to right, so that among parts with the same
    key the one sorting last wins, and a part without a non-empty value is
    skipped. */
module Decoders {
  import opened Wrappers
  import opened Strings
  import opened StringSort
  import opened Uri

  /** One decoded part: its key and, when present and non-empty, its
      value. */
  datatype Entry = Entry(key: string, value: Option<string>)

  /** `const [k, v = null] = part.split("=")`, then `decode(k)` and
      `v ? decode(v) : v`. Only the text between the first and the second
      `=` is ever read as the value. */
  function ParseEntry(decodeUri: Decoder, part: string): Entry {
    var pieces := SplitOn(part, '=');
    var key := Decode(decodeUri, pieces[0]);
    if |pieces| > 1 && pieces[1] != "" then Entry(key, Some(Decode(decodeUri, pieces[1])))
    else Entry(key, None)
  }

  /** The reducer: `if (!value) return acc; acc[key] = value;`. */
  function Absorb(acc: map<string, string>, e: Entry): map<string, string> {
    if e.value.None? || e.value.value == "" then acc else Assign(acc, e.key, e.value.value)
  }

  /** `entries.reduce(reducer, {})`. */
  function Merge(entries: seq<Entry>): map<string, string> {
    if |entries| == 0 then map[]
    else Absorb(Merge(entries[..|entries| - 1]), entries[|entries| - 1])
  }

  function Entries(decodeUri: Decoder, parts: seq<string>): (r: seq<Entry>)
    ensures |r| == |parts|
    ensures forall i :: 0 <= i < |parts| ==> r[i] == ParseEntry(decodeUri, parts[i])
  {
    seq(|parts|, i requires 0 <= i < |parts| => ParseEntry(decodeUri, parts[i]))
  }

  /** `.sort().reduce(...)` over the raw parts. */
  function ParseParts(decodeUri: Decoder, parts: seq<string>): map<string, string> {
    Merge(Entries(decodeUri, Sort(parts)))
  }

  /** The parts of a search string: one leading `?` dropped, split on `&`. */
  function QueryParts(raw: string): seq<string> {
    SplitOn(if StartsWith(raw, "?") then raw[1..] else raw, '&')
  }

  /** The parts of a cookie header: every `;` removed, split on spaces. */
  function CookieParts(raw: string): seq<string> {
    SplitOn(RemoveAll(raw, ';'), ' ')
  }

  /** `parseQueryString(raw)`. */
  function ParseQueryString(decodeUri: Decoder, raw: string): (r: map<string, string>)
    ensures raw == "" ==> r == map[]
    ensures forall k :: k in r ==> k != "__proto__" && r[k] != ""
  {
    MergeClean(Entries(decodeUri, Sort(QueryParts(raw))));
    if raw == "" then map[] else ParseParts(decodeUri, QueryParts(raw))
  }

  /** `parseCookie(raw)`. */
  function ParseCookie(decodeUri: Decoder, raw: string): (r: map<string, string>)
    ensures raw == "" ==> r == map[]
    ensures forall k :: k in r ==> k != "__proto__" && r[k] != ""
  {
    MergeClean(Entries(decodeUri, Sort(CookieParts(raw))));
    if raw == "" then map[] else ParseParts(decodeUri, CookieParts(raw))
  }

  /* ---------------------------------------------------------------------
     what the fold keeps
     --------------------------------------------------------------------- */

  /** An entry the reducer stores. */
  predicate Kept(e: Entry) {
    e.value.Some? && e.value.value != "" && e.key != "__proto__"
  }

  /** Entry `i` is the last stored entry with its key. */
  predicate LastKept(entries: seq<Entry>, i: int)
    requires 0 <= i < |entries|
  {
    Kept(entries[i]) && forall j :: i < j < |entries| ==> !(Kept(entries[j]) && entries[j].key == entries[i].key)
  }

  /** The fold keeps exactly the keys of stored entries. */
  lemma {:induction false} MergeKeys(entries: seq<Entry>)
    ensures forall k :: k in Merge(entries) <==>
              exists i :: 0 <= i < |entries| && Kept(entries[i]) && entries[i].key == k
  {
    if |entries| > 0 {
      var n := |entries| - 1;
      var init := entries[..n];
      MergeKeys(init);
      assert forall i :: 0 <= i < n ==> init[i] == entries[i];
      forall k | k in Merge(entries)
        ensures exists i :: 0 <= i < |entries| && Kept(entries[i]) && entries[i].key == k
      {
        if k !in Merge(init) {
          assert Kept(entries[n]) && entries[n].key == k;
        }
      }
    }
  }

  /** Every stored value is non-empty, and `__proto__` is never a key. */
  lemma {:induction false} MergeClean(entries: seq<Entry>)
    ensures forall k :: k in Merge(entries) ==> k != "__proto__" && Merge(entries)[k] != ""
  {
    if |entries| > 0 {
      MergeClean(entries[..|entries| - 1]);
    }
  }

  /** Each key holds the value of the last stored entry for it. */
  lemma {:induction false} MergeLastWins(entries: seq<Entry>, i: int)
    requires 0 <= i < |entries| && LastKept(entries, i)
    ensures entries[i].key in Merge(entries) && Merge(entries)[entries[i].key] == entries[i].value.value
  {
    var n := |entries| - 1;
    if i < n {
      var init := entries[..n];
      assert forall j :: i < j < n ==> init[j] == entries[j];
      assert LastKept(init, i);
      MergeLastWins(init, i);
      assert !(Kept(entries[n]) && entries[n].key == entries[i].key);
    }
  }

  /* ---------------------------------------------------------------------
     properties of the decoders
     --------------------------------------------------------------------- */

  /** The decoded key and value of a part `k=v…`: the key is the text
      before the first `=`, the value the text between the first and the
      second `=`, and an empty value is no value. */
  lemma ParseEntryShape(decodeUri: Decoder, k: string, v: string, rest: string)
    requires '=' !in k && '=' !in v
    requires rest == "" || rest[0] == '='
    ensures ParseEntry(decodeUri, k + "=" + v + rest)
            == Entry(Decode(decodeUri, k), if v == "" then None else Some(Decode(decodeUri, v)))
  {
    var tail := SplitOn(v + rest, '=');
    assert k + "=" + v + rest == k + ['='] + (v + rest);
    SplitOnFree(k, '=');
    SplitOnConcat(k, v + rest, '=');
    FirstPiece(v, rest);
    assert SplitOn(k + "=" + v + rest, '=') == [k] + tail;
  }

  /** The text up to the first `=` of `v + rest` is `v`. */
  lemma FirstPiece(v: string, rest: string)
    requires '=' !in v
    requires rest == "" || rest[0] == '='
    ensures SplitOn(v + rest, '=')[0] == v
  {
    SplitOnFree(v, '=');
    if rest != "" {
      assert v + rest == v + ['='] + rest[1..];
      SplitOnConcat(v, rest[1..], '=');
    } else {
      assert v + rest == v;
    }
  }

  /** A part without any `=` carries no value and is skipped. */
  lemma ParseEntryNoValue(decodeUri: Decoder, part: string)
    requires '=' !in part
    ensures ParseEntry(decodeUri, part).value == None
  {
    SplitOnFree(part, '=');
  }

  /** The sort makes the result independent of the order of the parts. */
  lemma ParsePartsForgetsOrder(decodeUri: Decoder, a: seq<string>, b: seq<string>)
    requires multiset(a) == multiset(b)
    ensures ParseParts(decodeUri, a) == ParseParts(decodeUri, b)
  {
    SortForgetsOrder(a, b);
  }

  /** Reordering the `&`-separated parts of a query string changes nothing. */
  lemma QueryForgetsOrder(decodeUri: Decoder, a: string, b: string)
    requires a != "" && b != ""
    requires multiset(QueryParts(a)) == multiset(QueryParts(b))
    ensures ParseQueryString(decodeUri, a) == ParseQueryString(decodeUri, b)
  {
    ParsePartsForgetsOrder(decodeUri, QueryParts(a), QueryParts(b));
  }

  /** Reordering the space-separated parts of a cookie header changes
      nothing. */
  lemma CookieForgetsOrder(decodeUri: Decoder, a: string, b: string)
    requires a != "" && b != ""
    requires multiset(CookieParts(a)) == multiset(CookieParts(b))
    ensures ParseCookie(decodeUri, a) == ParseCookie(decodeUri, b)
  {
    ParsePartsForgetsOrder(decodeUri, CookieParts(a), CookieParts(b));
  }

  /** A query string holds a key exactly when one of its parts decodes to
      that key with a non-empty value (and the key is not `__proto__`). */
  lemma QueryKeys(decodeUri: Decoder, raw: string)
    requires raw != ""
    ensures forall k :: k in ParseQueryString(decodeUri, raw) <==>
              exists part :: part in QueryParts(raw) && Kept(ParseEntry(decodeUri, part))
                             && ParseEntry(decodeUri, part).key == k
  {
    PartsKeys(decodeUri, QueryParts(raw));
  }

  /** The same for the parts of a cookie header. */
  lemma CookieKeys(decodeUri: Decoder, raw: string)
    requires raw != ""
    ensures forall k :: k in ParseCookie(decodeUri, raw) <==>
              exists part :: part in CookieParts(raw) && Kept(ParseEntry(decodeUri, part))
                             && ParseEntry(decodeUri, part).key == k
  {
    PartsKeys(decodeUri, CookieParts(raw));
  }

  /** Each key of the query map holds the decoded value of the last stored
      entry with that key, in the sorted order of the parts. */
  lemma QueryValues(decodeUri: Decoder, raw: string, i: int)
    requires raw != ""
    requires 0 <= i < |Entries(decodeUri, Sort(QueryParts(raw)))|
    requires LastKept(Entries(decodeUri, Sort(QueryParts(raw))), i)
    ensures var e := Entries(decodeUri, Sort(QueryParts(raw)))[i];
      e.key in ParseQueryString(decodeUri, raw) && ParseQueryString(decodeUri, raw)[e.key] == e.value.value
  {
    MergeLastWins(Entries(decodeUri, Sort(QueryParts(raw))), i);
  }

  /** The same for the cookie map. */
  lemma CookieValues(decodeUri: Decoder, raw: string, i: int)
    requires raw != ""
    requires 0 <= i < |Entries(decodeUri, Sort(CookieParts(raw)))|
    requires LastKept(Entries(decodeUri, Sort(CookieParts(raw))), i)
    ensures var e := Entries(decodeUri, Sort(CookieParts(raw)))[i];
      e.key in ParseCookie(decodeUri, raw) && ParseCookie(decodeUri, raw)[e.key] == e.value.value
  {
    MergeLastWins(Entries(decodeUri, Sort(CookieParts(raw))), i);
  }

  lemma SortKeepsMembers(parts: seq<string>)
    ensures forall part :: part in Sort(parts) <==> part in parts
  {
    SortCorrect(parts);
    forall part ensures part in Sort(parts) <==> part in parts {
      assert part in Sort(parts) <==> part in multiset(Sort(parts));
      assert part in parts <==> part in multiset(parts);
    }
  }

  lemma PartsKeys(decodeUri: Decoder, parts: seq<string>)
    ensures forall k :: k in ParseParts(decodeUri, parts) <==>
              exists part :: part in parts && Kept(ParseEntry(decodeUri, part))
                             && ParseEntry(decodeUri, part).key == k
  {
    forall k ensures k in ParseParts(decodeUri, parts) <==>
              exists part :: part in parts && Kept(ParseEntry(decodeUri, part))
                             && ParseEntry(decodeUri, part).key == k
    {
      if k in ParseParts(decodeUri, parts) {
        PartsKeyFrom(decodeUri, parts, k);
      }
      if exists part :: part in parts && Kept(ParseEntry(decodeUri, part)) && ParseEntry(decodeUri, part).key == k {
        var part :| part in parts && Kept(ParseEntry(decodeUri, part)) && ParseEntry(decodeUri, part).key == k;
        PartsKeyOf(decodeUri, parts, part);
      }
    }
  }

  /** Every key of the result comes from a stored part. */
  lemma PartsKeyFrom(decodeUri: Decoder, parts: seq<string>, k: string)
    requires k in ParseParts(decodeUri, parts)
    ensures exists part :: part in parts && Kept(ParseEntry(decodeUri, part)) && ParseEntry(decodeUri, part).key == k
  {
    var sorted := Sort(parts);
    var es := Entries(decodeUri, sorted);
    SortKeepsMembers(parts);
    MergeKeys(es);
    var i :| 0 <= i < |es| && Kept(es[i]) && es[i].key == k;
    assert sorted[i] in parts;
  }

  /** Every stored part gives a key of the result. */
  lemma PartsKeyOf(decodeUri: Decoder, parts: seq<string>, part: string)
    requires part in parts && Kept(ParseEntry(decodeUri, part))
    ensures ParseEntry(decodeUri, part).key in ParseParts(decodeUri, parts)
  {
    var sorted := Sort(parts);
    var es := Entries(decodeUri, sorted);
    SortKeepsMembers(parts);
    MergeKeys(es);
    var i :| 0 <= i < |sorted| && sorted[i] == part;
    assert Kept(es[i]) && es[i].key == ParseEntry(decodeUri, part).key;
  }

  /** Two parts separated by one separator split into exactly those parts. */
  lemma SplitTwo(x: string, y: string, c: char)
    requires c !in x && c !in y
    ensures SplitOn(x + [c] + y, c) == [x, y]
  {
    SplitOnFree(x, c);
    SplitOnFree(y, c);
    SplitOnConcat(x, y, c);
  }

  /** Two distinct parts sort alike from either order. */
  lemma SortTwo(x: string, y: string)
    requires Below(x, y) && !Below(y, x)
    ensures Sort([x, y]) == [x, y] && Sort([y, x]) == [x, y]
  {
    assert [x, y][..1] == [x] && [y, x][..1] == [y];
    assert Sort([x]) == [x] by { assert [x][..0] == []; }
    assert Sort([y]) == [y] by { assert [y][..0] == []; }
    assert Insert(y, [x]) == [x] + Insert(y, []);
    assert Insert(x, [y]) == [x, y];
  }

  /** Two parts are folded in order. */
  lemma ParseTwo(decodeUri: Decoder, x: string, y: string)
    ensures Merge(Entries(decodeUri, [x, y]))
            == Absorb(Absorb(map[], ParseEntry(decodeUri, x)), ParseEntry(decodeUri, y))
  {
    var es := Entries(decodeUri, [x, y]);
    assert es == [ParseEntry(decodeUri, x), ParseEntry(decodeUri, y)];
    assert es[..1] == [ParseEntry(decodeUri, x)];
    assert es[..1][..0] == [];
    assert Merge(es[..1]) == Absorb(map[], ParseEntry(decodeUri, x));
  }

  /** One part alone. */
  lemma ParseOne(decodeUri: Decoder, x: string)
    ensures Merge(Entries(decodeUri, [x])) == Absorb(map[], ParseEntry(decodeUri, x))
  {
    assert Entries(decodeUri, [x])[..0] == [];
  }

  /** The entry of a plain part `k=v` whose key and value decode to
      themselves. */
  lemma PlainEntry(decodeUri: Decoder, k: string, v: string)
    requires '=' !in k && '=' !in v && v != ""
    requires decodeUri(k) == Some(k) && decodeUri(v) == Some(v)
    ensures ParseEntry(decodeUri, k + "=" + v) == Entry(k, Some(v))
  {
    ParseEntryShape(decodeUri, k, v, "");
    assert k + "=" + v + "" == k + "=" + v;
  }

  /** A non-empty query string decodes to the fold over its parts. */
  lemma QueryOfParts(decodeUri: Decoder, raw: string, parts: seq<string>)
    requires raw != "" && QueryParts(raw) == parts
    ensures ParseQueryString(decodeUri, raw) == ParseParts(decodeUri, parts)
  {
  }

  lemma QueryPartsTwo(x: string, y: string)
    requires '&' !in x && '&' !in y
    ensures QueryParts("?" + x + "&" + y) == [x, y]
  {
    var raw := "?" + x + "&" + y;
    assert StartsWith(raw, "?") && raw[1..] == x + ['&'] + y;
    SplitTwo(x, y, '&');
  }

  /** Two parts with one key, in either order: the one sorting last wins. */
  lemma PartsTwoSameKey(decodeUri: Decoder, k: string, v1: string, v2: string)
    requires '=' !in k && '=' !in v1 && '=' !in v2 && v1 != "" && v2 != "" && k != "__proto__"
    requires decodeUri(k) == Some(k) && decodeUri(v1) == Some(v1) && decodeUri(v2) == Some(v2)
    requires Below(k + "=" + v1, k + "=" + v2) && !Below(k + "=" + v2, k + "=" + v1)
    ensures ParseParts(decodeUri, [k + "=" + v1, k + "=" + v2]) == map[k := v2]
    ensures ParseParts(decodeUri, [k + "=" + v2, k + "=" + v1]) == map[k := v2]
  {
    var x, y := k + "=" + v1, k + "=" + v2;
    PlainEntry(decodeUri, k, v1);
    PlainEntry(decodeUri, k, v2);
    SortTwo(x, y);
    ParseTwo(decodeUri, x, y);
  }

  /** A query string of two parts holding one key: the part that sorts
      last gives the value, whichever order the parts come in. */
  lemma QueryTwoSameKey(decodeUri: Decoder, k: string, v1: string, v2: string)
    requires '=' !in k && '=' !in v1 && '=' !in v2 && v1 != "" && v2 != ""
    requires '&' !in k && '&' !in v1 && '&' !in v2 && k != "__proto__"
    requires decodeUri(k) == Some(k) && decodeUri(v1) == Some(v1) && decodeUri(v2) == Some(v2)
    requires Below(k + "=" + v1, k + "=" + v2) && !Below(k + "=" + v2, k + "=" + v1)
    ensures ParseQueryString(decodeUri, "?" + (k + "=" + v1) + "&" + (k + "=" + v2)) == map[k := v2]
    ensures ParseQueryString(decodeUri, "?" + (k + "=" + v2) + "&" + (k + "=" + v1)) == map[k := v2]
  {
    var x, y := k + "=" + v1, k + "=" + v2;
    PartsTwoSameKey(decodeUri, k, v1, v2);
    assert '&' !in x && '&' !in y;
    QueryPartsTwo(x, y);
    QueryPartsTwo(y, x);
    QueryOfParts(decodeUri, "?" + x + "&" + y, [x, y]);
    QueryOfParts(decodeUri, "?" + y + "&" + x, [y, x]);
  }

  /** A cookie header of two parts with distinct keys holds both. */
  lemma CookieTwoKeys(decodeUri: Decoder, k1: string, v1: string, k2: string, v2: string)
    requires '=' !in k1 && '=' !in v1 && '=' !in k2 && '=' !in v2 && v1 != "" && v2 != ""
    requires ' ' !in k1 && ' ' !in v1 && ';' !in k1 && ';' !in v1
    requires ' ' !in k2 && ' ' !in v2 && ';' !in k2 && ';' !in v2
    requires k1 != "__proto__" && k2 != "__proto__"
    requires decodeUri(k1) == Some(k1) && decodeUri(v1) == Some(v1)
    requires decodeUri(k2) == Some(k2) && decodeUri(v2) == Some(v2)
    requires Below(k1 + "=" + v1, k2 + "=" + v2) && !Below(k2 + "=" + v2, k1 + "=" + v1)
    ensures ParseCookie(decodeUri, (k1 + "=" + v1) + "; " + (k2 + "=" + v2))
            == Absorb(map[k1 := v1], Entry(k2, Some(v2)))
  {
    var x, y := k1 + "=" + v1, k2 + "=" + v2;
    PlainEntry(decodeUri, k1, v1);
    PlainEntry(decodeUri, k2, v2);
    assert ' ' !in x && ';' !in x && ' ' !in y && ';' !in y;
    CookiePartsTwo(x, y);
    SortTwo(x, y);
    ParseTwo(decodeUri, x, y);
  }

  lemma CookiePartsTwo(x: string, y: string)
    requires ' ' !in x && ';' !in x && ' ' !in y && ';' !in y
    ensures CookieParts(x + "; " + y) == [x, y]
  {
    var t := "; " + y;
    ConcatAssoc(x, "; ", y);
    RemoveAllConcat(x, t, ';');
    RemoveAllConcat("; ", y, ';');
    SemicolonRemoved();
    ConcatAssoc(x, " ", y);
    assert RemoveAll(x + "; " + y, ';') == x + [' '] + y;
    SplitTwo(x, y, ' ');
  }

  lemma SemicolonRemoved()
    ensures RemoveAll("; ", ';') == " "
  {
    assert "; "[1..] == " ";
  }

  /** A repeated key keeps the value of the part that sorts last: in
      `?a=1&a=2` and in `?a=2&a=1` alike, `a` is `2`. */
  lemma QueryRepeatedKey(decodeUri: Decoder)
    requires decodeUri("a") == Some("a") && decodeUri("1") == Some("1") && decodeUri("2") == Some("2")
    ensures ParseQueryString(decodeUri, "?a=1&a=2") == map["a" := "2"]
    ensures ParseQueryString(decodeUri, "?a=2&a=1") == map["a" := "2"]
  {
    PairTexts();
    QueryTwoSameKey(decodeUri, "a", "1", "2");
    QueryTexts();
  }

  /** `a=1` sorts before `a=2`, and before `b=2`. */
  lemma PairTexts()
    ensures "a" + "=" + "1" == "a=1" && "a" + "=" + "2" == "a=2" && "b" + "=" + "2" == "b=2"
    ensures Below("a=1", "a=2") && !Below("a=2", "a=1")
    ensures Below("a=1", "b=2") && !Below("b=2", "a=1")
  {
  }

  lemma QueryTexts()
    ensures "?" + "a=1" + "&" + "a=2" == "?a=1&a=2"
    ensures "?" + "a=2" + "&" + "a=1" == "?a=2&a=1"
  {
  }

  /** Cookies are separated by `; `, each carrying its own value. */
  lemma CookiePairs(decodeUri: Decoder)
    requires decodeUri("a") == Some("a") && decodeUri("b") == Some("b")
    requires decodeUri("1") == Some("1") && decodeUri("2") == Some("2")
    ensures ParseCookie(decodeUri, "a=1; b=2") == map["a" := "1", "b" := "2"]
  {
    PairTexts();
    CookieTwoKeys(decodeUri, "a", "1", "b", "2");
    CookieText();
    assert Assign(map["a" := "1"], "b", "2") == map["a" := "1"]["b" := "2"];
  }

  lemma CookieText()
    ensures "a=1" + "; " + "b=2" == "a=1; b=2"
  {
  }

  /** The value of a single part `k=v…`: only the text between the first
      and the second `=`, and no entry at all when that text is empty. */
  lemma QuerySinglePart(decodeUri: Decoder, k: string, v: string, rest: string)
    requires '=' !in k && '=' !in v && '&' !in k && '&' !in v && '&' !in rest && '?' !in k
    requires rest == "" || rest[0] == '='
    requires k != "__proto__" && decodeUri(k) == Some(k)
    requires v != "" ==> Decode(decodeUri, v) != ""
    ensures ParseQueryString(decodeUri, k + "=" + v + rest)
            == if v == "" then map[] else map[k := Decode(decodeUri, v)]
  {
    var raw := k + "=" + v + rest;
    assert !StartsWith(raw, "?") by {
      if k == "" { assert raw[0] == '='; } else { assert raw[0] == k[0]; }
    }
    assert '&' !in raw by {
      assert forall i :: 0 <= i < |raw| ==> raw[i] in k || raw[i] == '=' || raw[i] in v || raw[i] in rest;
    }
    SplitOnFree(raw, '&');
    QueryOfParts(decodeUri, raw, [raw]);
    assert Sort([raw]) == [raw] by { assert [raw][..0] == []; }
    ParseEntryShape(decodeUri, k, v, rest);
    ParseOne(decodeUri, raw);
  }

  /** `a=b=c` reads as `a=b`; `a=` and `?a` hold nothing. */
  lemma QueryValueBoundaries(decodeUri: Decoder)
    requires decodeUri("a") == Some("a") && decodeUri("b") == Some("b")
    ensures ParseQueryString(decodeUri, "a=b=c") == map["a" := "b"]
    ensures ParseQueryString(decodeUri, "a=") == map[]
    ensures ParseQueryString(decodeUri, "?a") == map[]
  {
    QuerySinglePart(decodeUri, "a", "b", "=c");
    assert "a" + "=" + "b" + "=c" == "a=b=c";
    QuerySinglePart(decodeUri, "a", "", "");
    assert "a" + "=" + "" + "" == "a=";
    QueryBareKey(decodeUri, "a");
    assert "?" + "a" == "?a";
  }

  /** A part without `=` contributes nothing. */
  lemma QueryBareKey(decodeUri: Decoder, k: string)
    requires '=' !in k && '&' !in k
    ensures ParseQueryString(decodeUri, "?" + k) == map[]
  {
    var raw := "?" + k;
    assert StartsWith(raw, "?") && raw[1..] == k;
    SplitOnFree(k, '&');
    QueryOfParts(decodeUri, raw, [k]);
    assert Sort([k]) == [k] by { assert [k][..0] == []; }
    ParseEntryNoValue(decodeUri, k);
    ParseOne(decodeUri, k);
  }
}

=== FILE: gateway.dfy ===
/** `WorkerAPIGateway`: registration (`use`, `add` behind the per-method
    helpers) and the request handler. A request is dispatched to the first
    route whose pattern matches its normalised path and whose method equals
    the upper-cased request method. Failing that, a path that some route
    matches under another method is refused with 405 and an `Allow` list of
    those methods in the order first seen; any other path gets 404. Every
    request runs through the global chain; a matched route's own middleware
    follow it, innermost. */
module Gateway {
  import opened Wrappers
  import opened Strings
  import opened Paths
  import opened Uri
  import opened Tokens
  import opened Http
  import opened Pipeline
  import opened Chain
  import opened Decoders

  /** A registered route (`Router`); the handler is named, not run. */
  datatype Route = Route(verb: Verb, pathname: string, tokens: seq<Token>, middlewares: seq<Middleware>, handler: string)

  datatype Gateway = Gateway(routes: seq<Route>, stack: seq<Binding>)

  /** What registration throws. */
  datatype RegistrationError =
    | NoMiddleware              // `use(prefix, ...middlewares): at least one middleware required`
    | BadPattern(PatternError)  // what `tokenize` throws for the route's path

  /* ---------------------------------------------------------------------
     registration
     --------------------------------------------------------------------- */

  /** `new WorkerAPIGateway({ extended })`: an extended gateway starts with
      the default middleware registered at the root. */
  function New(extended: bool): (g: Gateway)
    ensures g.routes == []
    ensures extended ==> g.stack == [Binding("/", [RequestStamp])]
    ensures !extended ==> g.stack == []
    ensures extended ==> StampFirst(g)
    ensures !extended ==> forall pathname :: GlobalChain(g.stack, pathname) == []
  {
    Gateway([], if extended then [Binding("/", [RequestStamp])] else [])
  }

  /** `use(prefix, ...middlewares)`: the prefix is normalised, and an empty
      middleware list is refused. */
  function Use(g: Gateway, prefix: string, ms: seq<Middleware>): (r: Result<Gateway, RegistrationError>)
    ensures r.Err? <==> |ms| == 0
    ensures r.Err? ==> r.error == NoMiddleware
    ensures r.Ok? ==> r.value.routes == g.routes
    ensures r.Ok? ==> |r.value.stack| == |g.stack| + 1 && r.value.stack[..|g.stack|] == g.stack
    ensures r.Ok? ==> r.value.stack[|g.stack|].middlewares == ms
                      && r.value.stack[|g.stack|].prefix == NormalizePath(prefix)
  {
    NormalizePrefixIsNormalizePath(prefix);
    if |ms| == 0 then Err(NoMiddleware)
    else
      var stack := g.stack + [Binding(NormalizePrefix(prefix), ms)];
      assert stack[..|g.stack|] == g.stack;
      Ok(g.(stack := stack))
  }

  /** `use(mw, ...middlewares)`: a global registration at the root. */
  function UseGlobal(g: Gateway, m: Middleware, ms: seq<Middleware>): (r: Gateway)
    ensures r.routes == g.routes
    ensures r.stack == g.stack + [Binding("/", [m] + ms)]
  {
    g.(stack := g.stack + [Binding("/", [m] + ms)])
  }

  /** Registering without a prefix is registering at `"/"`. */
  lemma UseGlobalIsRoot(g: Gateway, m: Middleware, ms: seq<Middleware>)
    ensures Use(g, "/", [m] + ms) == Ok(UseGlobal(g, m, ms))
  {
    assert StartsWith("/", "/");
  }

  /** The shape an extended gateway keeps: the default middleware's root
      binding comes first, and every prefix is non-empty, as a normalised
      prefix always is. */
  predicate StampFirst(g: Gateway) {
    && |g.stack| > 0
    && g.stack[0] == Binding("/", [RequestStamp])
    && forall b :: b in g.stack ==> b.prefix != ""
  }

  /** On a gateway of that shape the default middleware is the outermost
      layer of every request's chain: the root covers every pathname, and no
      binding sorts before the first one of length 1. */
  lemma StampRunsFirst(g: Gateway, pathname: string)
    requires StampFirst(g)
    ensures |GlobalChain(g.stack, pathname)| > 0 && GlobalChain(g.stack, pathname)[0] == RequestStamp
  {
    var b0 := g.stack[0];
    var m := Matching(g.stack, pathname);
    assert m == [b0] + Matching(g.stack[1..], pathname);
    var s := SortByLength(m);
    SortByLengthPermutes(m);
    SortByLengthSorted(m);
    assert b0 in multiset(s);
    SortedMinLen(s, b0);
    assert s[0] in multiset(m);
    MatchingMembers(g.stack, pathname);
    assert Len(s[0]) == 1;
    SortByLengthStable(m, 1);
    OfLengthHead(s);
    OfLengthCons(1, b0, Matching(g.stack[1..], pathname));
    assert s[0] == OfLength(1, s)[0] == OfLength(1, m)[0] == b0;
    assert GlobalChain(g.stack, pathname) == [RequestStamp] + Flatten(s[1..]);
  }

  /** Registration keeps that shape: `use` appends a binding whose prefix is
      normalised, and `add` leaves the stack alone. */
  lemma RegistrationKeepsStampFirst(g: Gateway, prefix: string, ms: seq<Middleware>, verb: Verb, path: string, handler: string)
    requires StampFirst(g)
    ensures Use(g, prefix, ms).Ok? ==> StampFirst(Use(g, prefix, ms).value)
    ensures Add(g, verb, path, handler, ms).Ok? ==> StampFirst(Add(g, verb, path, handler, ms).value)
  {
    if Use(g, prefix, ms).Ok? {
      var stack := Use(g, prefix, ms).value.stack;
      assert stack == g.stack + [stack[|g.stack|]];
    }
  }

  /** `add(method, path, handler, middlewares)`: the path is normalised and
      compiled; a pattern `tokenize` refuses makes registration throw. */
  function Add(g: Gateway, verb: Verb, path: string, handler: string, ms: seq<Middleware>): (r: Result<Gateway, RegistrationError>)
    ensures r.Err? <==> Tokenize(NormalizePath(path)).Err?
    ensures r.Err? ==> r.error == BadPattern(Tokenize(NormalizePath(path)).error)
    ensures r.Ok? ==> r.value.stack == g.stack
    ensures r.Ok? ==> |r.value.routes| == |g.routes| + 1 && r.value.routes[..|g.routes|] == g.routes
    ensures r.Ok? ==>
              var route := r.value.routes[|g.routes|];
              && route.verb == verb && route.handler == handler && route.middlewares == ms
              && route.pathname == NormalizePath(path)
              && route.tokens == Tokenize(NormalizePath(path)).value
  {
    var pathname := NormalizePath(path);
    SplitNormalizePath(path);
    match Tokenize(pathname)
    case Err(e) => Err(BadPattern(e))
    case Ok(tokens) =>
      var routes := g.routes + [Route(verb, pathname, tokens, ms, handler)];
      assert routes[..|g.routes|] == g.routes;
      Ok(g.(routes := routes))
  }

  /** A registered route matches the path it was registered with, whatever
      the decoder: the registration and the lookup agree. */
  lemma AddedRouteMatchesItsPath(g: Gateway, verb: Verb, path: string, handler: string, ms: seq<Middleware>, decodeUri: Decoder)
    requires Add(g, verb, path, handler, ms).Ok?
    ensures MatchTokens(Add(g, verb, path, handler, ms).value.routes[|g.routes|].tokens, Split(NormalizePath(path)), decodeUri).Some?
  {
    PatternMatchesItself(NormalizePath(path), decodeUri);
  }

  /* ---------------------------------------------------------------------
     route resolution
     --------------------------------------------------------------------- */

  predicate PathMatch(r: Route, parts: seq<string>, decodeUri: Decoder) {
    MatchTokens(r.tokens, parts, decodeUri).Some?
  }

  /** `verb` is the upper-cased request method. */
  predicate FullMatch(r: Route, verb: string, parts: seq<string>, decodeUri: Decoder) {
    PathMatch(r, parts, decodeUri) && VerbName(r.verb) == verb
  }

  /** The methods of the routes whose pattern matches, in route order. */
  function PathMethods(routes: seq<Route>, parts: seq<string>, decodeUri: Decoder): seq<Verb> {
    if |routes| == 0 then []
    else
      var last := routes[|routes| - 1];
      PathMethods(routes[..|routes| - 1], parts, decodeUri) + (if PathMatch(last, parts, decodeUri) then [last.verb] else [])
  }

  lemma {:induction false} PathMethodsEmpty(routes: seq<Route>, parts: seq<string>, decodeUri: Decoder)
    ensures |PathMethods(routes, parts, decodeUri)| == 0 <==> forall j :: 0 <= j < |routes| ==> !PathMatch(routes[j], parts, decodeUri)
  {
    if |routes| > 0 {
      var n := |routes| - 1;
      PathMethodsEmpty(routes[..n], parts, decodeUri);
      assert forall j :: 0 <= j < n ==> routes[..n][j] == routes[j];
    }
  }

  /** A `Set`'s iteration order: each value once, where it first appears. */
  function Distinct(vs: seq<Verb>): seq<Verb> {
    if |vs| == 0 then []
    else
      var d := Distinct(vs[..|vs| - 1]);
      if vs[|vs| - 1] in d then d else d + [vs[|vs| - 1]]
  }

  /** `Distinct` keeps every value, once, in the order of first appearance. */
  lemma {:induction false} DistinctSpec(vs: seq<Verb>)
    ensures forall v :: v in Distinct(vs) <==> v in vs
    ensures forall i, j :: 0 <= i < j < |Distinct(vs)| ==> Distinct(vs)[i] != Distinct(vs)[j]
    ensures forall i, j, k :: 0 <= i < j < |Distinct(vs)| && 0 <= k < |vs| && vs[k] == Distinct(vs)[j] ==> Distinct(vs)[i] in vs[..k]
  {
    if |vs| > 0 {
      var n := |vs| - 1;
      var init := vs[..n];
      DistinctSpec(init);
      assert vs == init + [vs[n]];
      var d0 := Distinct(init);
      var d := Distinct(vs);
      assert d == d0 || (vs[n] !in d0 && d == d0 + [vs[n]]);
      forall i, j, k | 0 <= i < j < |d| && 0 <= k < |vs| && vs[k] == d[j] ensures d[i] in vs[..k] {
        assert d[i] == d0[i];
        if k < n {
          assert init[..k] == vs[..k];
          assert init[k] == vs[k];
        } else {
          assert d[i] in init;
          assert vs[..k] == init;
        }
      }
    }
  }

  datatype Resolution =
    | Matched(index: nat, params: map<string, string>)
    | NotAllowed(methods: seq<Verb>)
    | NotFound

  /** The loop over `this.routes` from route `i` on; `seen` is the
      `methodMismatch` set so far, empty for `null`. */
  function Scan(routes: seq<Route>, verb: string, parts: seq<string>, decodeUri: Decoder, i: nat, seen: seq<Verb>): (r: Resolution)
    requires i <= |routes|
    ensures r.Matched? ==> i <= r.index < |routes| && FullMatch(routes[r.index], verb, parts, decodeUri)
    ensures r.NotAllowed? ==> |r.methods| > 0
    decreases |routes| - i
  {
    if i == |routes| then
      if |seen| == 0 then NotFound else NotAllowed(seen)
    else
      match MatchTokens(routes[i].tokens, parts, decodeUri)
      case None => Scan(routes, verb, parts, decodeUri, i + 1, seen)
      case Some(params) =>
        if VerbName(routes[i].verb) != verb then
          var m := routes[i].verb;
          Scan(routes, verb, parts, decodeUri, i + 1, if m in seen then seen else seen + [m])
        else Matched(i, params)
  }

  function Resolve(routes: seq<Route>, verb: string, parts: seq<string>, decodeUri: Decoder): Resolution {
    Scan(routes, verb, parts, decodeUri, 0, [])
  }

  /** The scan from route `i` stops at a route exactly when one from `i`
      on matches both path and method. */
  lemma {:induction false} ScanFinds(routes: seq<Route>, verb: string, parts: seq<string>, decodeUri: Decoder, i: nat, seen: seq<Verb>)
    requires i <= |routes|
    ensures Scan(routes, verb, parts, decodeUri, i, seen).Matched?
            <==> exists j :: i <= j < |routes| && FullMatch(routes[j], verb, parts, decodeUri)
    decreases |routes| - i
  {
    if i < |routes| && !FullMatch(routes[i], verb, parts, decodeUri) {
      var m := routes[i].verb;
      ScanFinds(routes, verb, parts, decodeUri, i + 1, seen);
      ScanFinds(routes, verb, parts, decodeUri, i + 1, if m in seen then seen else seen + [m]);
    }
  }

  /** The route the scan stops at is the first match from `i` on, and the
      parameters are its bindings. */
  lemma {:induction false} ScanFirst(routes: seq<Route>, verb: string, parts: seq<string>, decodeUri: Decoder, i: nat, seen: seq<Verb>)
    requires i <= |routes|
    ensures var r := Scan(routes, verb, parts, decodeUri, i, seen);
      r.Matched? ==>
        && (forall j :: i <= j < r.index ==> !FullMatch(routes[j], verb, parts, decodeUri))
        && r.params == MatchTokens(routes[r.index].tokens, parts, decodeUri).value
    decreases |routes| - i
  {
    if i < |routes| && !FullMatch(routes[i], verb, parts, decodeUri) {
      var m := routes[i].verb;
      if MatchTokens(routes[i].tokens, parts, decodeUri).None? {
        ScanFirst(routes, verb, parts, decodeUri, i + 1, seen);
      } else {
        ScanFirst(routes, verb, parts, decodeUri, i + 1, if m in seen then seen else seen + [m]);
      }
    }
  }

  /** When the scan finds no full match, `seen` ends up as the distinct
      methods of the routes whose pattern matches. */
  lemma {:induction false} ScanFallback(routes: seq<Route>, verb: string, parts: seq<string>, decodeUri: Decoder, i: nat, seen: seq<Verb>)
    requires i <= |routes|
    requires seen == Distinct(PathMethods(routes[..i], parts, decodeUri))
    ensures var r := Scan(routes, verb, parts, decodeUri, i, seen);
      !r.Matched? ==> r == (if |PathMethods(routes, parts, decodeUri)| == 0 then NotFound
                            else NotAllowed(Distinct(PathMethods(routes, parts, decodeUri))))
    decreases |routes| - i
  {
    if i == |routes| {
      assert routes[..i] == routes;
      DistinctSpec(PathMethods(routes, parts, decodeUri));
      if |seen| == 0 {
        assert forall v :: v !in PathMethods(routes, parts, decodeUri);
      }
    } else {
      var next := routes[..i + 1];
      assert next[..i] == routes[..i];
      assert next[i] == routes[i];
      var m := routes[i].verb;
      if MatchTokens(routes[i].tokens, parts, decodeUri).Some? {
        if VerbName(m) != verb {
          assert PathMethods(next, parts, decodeUri) == PathMethods(routes[..i], parts, decodeUri) + [m];
          ScanFallback(routes, verb, parts, decodeUri, i + 1, if m in seen then seen else seen + [m]);
        }
      } else {
        assert PathMethods(next, parts, decodeUri) == PathMethods(routes[..i], parts, decodeUri);
        ScanFallback(routes, verb, parts, decodeUri, i + 1, seen);
      }
    }
  }

  /** What the loop over the routes decides: the first route matching both
      path and method wins, with its parameters; otherwise 405 when some
      route matches the path (listing those routes' methods once each, in
      route order), otherwise 404. */
  lemma ResolveSpec(routes: seq<Route>, verb: string, parts: seq<string>, decodeUri: Decoder)
    ensures var r := Resolve(routes, verb, parts, decodeUri);
      && (r.Matched? <==> exists j :: 0 <= j < |routes| && FullMatch(routes[j], verb, parts, decodeUri))
      && (r.Matched? ==>
            && r.index < |routes| && FullMatch(routes[r.index], verb, parts, decodeUri)
            && (forall j :: 0 <= j < r.index ==> !FullMatch(routes[j], verb, parts, decodeUri))
            && r.params == MatchTokens(routes[r.index].tokens, parts, decodeUri).value)
      && (r.NotAllowed? <==> !r.Matched? && exists j :: 0 <= j < |routes| && PathMatch(routes[j], parts, decodeUri))
      && (r.NotAllowed? ==> r.methods == Distinct(PathMethods(routes, parts, decodeUri)))
      && (r.NotFound? <==> forall j :: 0 <= j < |routes| ==> !PathMatch(routes[j], parts, decodeUri))
  {
    assert routes[..0] == [];
    ScanFinds(routes, verb, parts, decodeUri, 0, []);
    ScanFirst(routes, verb, parts, decodeUri, 0, []);
    ScanFallback(routes, verb, parts, decodeUri, 0, []);
    PathMethodsEmpty(routes, parts, decodeUri);
    if exists j :: 0 <= j < |routes| && FullMatch(routes[j], verb, parts, decodeUri) {
      var j :| 0 <= j < |routes| && FullMatch(routes[j], verb, parts, decodeUri);
      assert PathMatch(routes[j], parts, decodeUri);
    }
  }

  /** The `Allow` list names each method once, and exactly the methods of
      the routes whose pattern matches. */
  lemma AllowListSpec(routes: seq<Route>, verb: string, parts: seq<string>, decodeUri: Decoder)
    requires Resolve(routes, verb, parts, decodeUri).NotAllowed?
    ensures var ms := Resolve(routes, verb, parts, decodeUri).methods;
      && |ms| > 0
      && (forall i, j :: 0 <= i < j < |ms| ==> ms[i] != ms[j])
      && (forall v :: v in ms <==> exists j :: 0 <= j < |routes| && PathMatch(routes[j], parts, decodeUri) && routes[j].verb == v)
      && (forall v :: v in ms ==> VerbName(v) != verb)
  {
    ResolveSpec(routes, verb, parts, decodeUri);
    var pm := PathMethods(routes, parts, decodeUri);
    DistinctSpec(pm);
    PathMethodsElements(routes, parts, decodeUri);
    forall v | v in Resolve(routes, verb, parts, decodeUri).methods ensures VerbName(v) != verb {
      var j :| 0 <= j < |routes| && PathMatch(routes[j], parts, decodeUri) && routes[j].verb == v;
      assert !FullMatch(routes[j], verb, parts, decodeUri);
    }
    var j :| 0 <= j < |routes| && PathMatch(routes[j], parts, decodeUri);
    assert routes[j].verb in pm;
  }

  lemma {:induction false} PathMethodsElements(routes: seq<Route>, parts: seq<string>, decodeUri: Decoder)
    ensures forall v :: v in PathMethods(routes, parts, decodeUri) <==>
              exists j :: 0 <= j < |routes| && PathMatch(routes[j], parts, decodeUri) && routes[j].verb == v
  {
    if |routes| > 0 {
      var n := |routes| - 1;
      PathMethodsElements(routes[..n], parts, decodeUri);
      assert forall j :: 0 <= j < n ==> routes[..n][j] == routes[j];
      forall v | exists j :: 0 <= j < |routes| && PathMatch(routes[j], parts, decodeUri) && routes[j].verb == v
        ensures v in PathMethods(routes, parts, decodeUri)
      {
        var j :| 0 <= j < |routes| && PathMatch(routes[j], parts, decodeUri) && routes[j].verb == v;
        if j < n {
          assert routes[..n][j] == routes[j];
        }
      }
    }
  }

  /* ---------------------------------------------------------------------
     the request handler
     --------------------------------------------------------------------- */

  /** What the handler assembles for a request: the middleware list, the
      innermost handler and the context. */
  datatype Plan = Plan(chain: seq<Middleware>, endpoint: Endpoint, context: Context)

  function Dispatch(g: Gateway, req: Request, decodeUri: Decoder): Plan {
    var pathname := NormalizePath(req.pathname);
    var parts := Split(pathname);
    var query := ParseQueryString(decodeUri, req.search);
    var cookie := ParseCookie(decodeUri, HeaderOr(req, "cookie"));
    var global := GlobalChain(g.stack, pathname);
    match Resolve(g.routes, Upper(req.methodName), parts, decodeUri)
    case Matched(i, params) =>
      Plan(global + g.routes[i].middlewares, Serve(g.routes[i].handler), Context(params, query, cookie))
    case NotAllowed(methods) => Plan(global, RefuseMethod(methods), Context(map[], query, cookie))
    case NotFound => Plan(global, Missing, Context(map[], query, cookie))
  }

  /** `handler(req, env, ctx)`: the composed handler called with the
      original request. */
  function Handle(g: Gateway, req: Request, rt: Runtime): Outcome {
    var plan := Dispatch(g, req, rt.decodeUri);
    Run(Compose(plan.chain, Terminal(plan.endpoint)), req, plan.context, rt)
  }

  /** What `Dispatch` assembles, case by case: a matched route runs the
      global chain then its own middleware, with its parameters; a fallback
      runs the global chain alone with no parameters. Query and cookie are
      parsed either way. */
  lemma DispatchSpec(g: Gateway, req: Request, decodeUri: Decoder)
    ensures var plan := Dispatch(g, req, decodeUri);
      var global := GlobalChain(g.stack, NormalizePath(req.pathname));
      var r := Resolve(g.routes, Upper(req.methodName), Split(req.pathname), decodeUri);
      && plan.context.query == ParseQueryString(decodeUri, req.search)
      && plan.context.cookie == ParseCookie(decodeUri, HeaderOr(req, "cookie"))
      && global <= plan.chain
      && (r.Matched? ==>
            && r.index < |g.routes|
            && plan.chain == global + g.routes[r.index].middlewares
            && plan.endpoint == Serve(g.routes[r.index].handler)
            && plan.context.params == r.params)
      && (r.NotAllowed? ==> plan == Plan(global, RefuseMethod(r.methods), plan.context) && plan.context.params == map[])
      && (r.NotFound? ==> plan == Plan(global, Missing, plan.context) && plan.context.params == map[])
  {
    SplitNormalizePath(req.pathname);
    ResolveSpec(g.routes, Upper(req.methodName), Split(req.pathname), decodeUri);
  }

  /** When no route adds middleware of its own, every request runs the
      global chain for its pathname and nothing more. */
  lemma BareRoutesRunGlobalChain(g: Gateway, req: Request, decodeUri: Decoder)
    requires forall i :: 0 <= i < |g.routes| ==> g.routes[i].middlewares == []
    ensures Dispatch(g, req, decodeUri).chain == GlobalChain(g.stack, NormalizePath(req.pathname))
  {
    match Resolve(g.routes, Upper(req.methodName), Split(NormalizePath(req.pathname)), decodeUri)
    case Matched(i, _) =>
      ResolveSpec(g.routes, Upper(req.methodName), Split(NormalizePath(req.pathname)), decodeUri);
      assert GlobalChain(g.stack, NormalizePath(req.pathname)) + [] == GlobalChain(g.stack, NormalizePath(req.pathname));
    case NotAllowed(_) =>
    case NotFound =>
  }

  /** One extra trailing slash on the request path changes nothing. */
  lemma TrailingSlashIgnored(g: Gateway, req: Request, decodeUri: Decoder)
    requires req.pathname != "" && req.pathname[|req.pathname| - 1] != '/'
    ensures Dispatch(g, req.(pathname := req.pathname + "/"), decodeUri) == Dispatch(g, req, decodeUri)
  {
    NormalizeTrailingSlash(req.pathname);
  }

  /** The request method is compared after upper-casing. */
  lemma MethodCaseIgnored(g: Gateway, req: Request, name: string, decodeUri: Decoder)
    requires Upper(name) == Upper(req.methodName)
    ensures Dispatch(g, req.(methodName := name), decodeUri) == Dispatch(g, req, decodeUri)
  {
  }

  /** With no global middleware, a path no route matches is answered 404
      by the fallback endpoint alone. */
  lemma FallbackNotFound(routes: seq<Route>, req: Request, rt: Runtime)
    requires Resolve(routes, Upper(req.methodName), Split(req.pathname), rt.decodeUri).NotFound?
    ensures Handle(Gateway(routes, []), req, rt).response == JsonMessage(404, Pipeline.NotFound, map[])
  {
    FallbackPlan(routes, req, rt);
  }

  /** With no global middleware, a path matched only under other methods is
      answered 405 with the `Allow` header, by the fallback endpoint alone. */
  lemma FallbackNotAllowed(routes: seq<Route>, req: Request, rt: Runtime, methods: seq<Verb>)
    requires Resolve(routes, Upper(req.methodName), Split(req.pathname), rt.decodeUri) == NotAllowed(methods)
    ensures Handle(Gateway(routes, []), req, rt).response
              == JsonMessage(405, MethodNotAllowed, map["allow" := Join(VerbNames(methods), ", ")])
  {
    FallbackPlan(routes, req, rt);
  }

  /** With no global middleware, a request no route serves runs the fallback
      endpoint with nothing around it. */
  lemma FallbackPlan(routes: seq<Route>, req: Request, rt: Runtime)
    requires !Resolve(routes, Upper(req.methodName), Split(req.pathname), rt.decodeUri).Matched?
    ensures var plan := Dispatch(Gateway(routes, []), req, rt.decodeUri);
      var r := Resolve(routes, Upper(req.methodName), Split(req.pathname), rt.decodeUri);
      && plan.chain == []
      && (r.NotFound? ==> plan.endpoint == Missing)
      && (r.NotAllowed? ==> plan.endpoint == RefuseMethod(r.methods))
      && Handle(Gateway(routes, []), req, rt) == Run(Terminal(plan.endpoint), req, plan.context, rt)
  {
    var g := Gateway(routes, []);
    DispatchSpec(g, req, rt.decodeUri);
    SplitNormalizePath(req.pathname);
    var plan := Dispatch(g, req, rt.decodeUri);
    assert GlobalChain([], NormalizePath(req.pathname)) == [];
    ComposeIsNest(plan.chain, Terminal(plan.endpoint));
  }
}

=== FILE: http.dfy ===
/** The slice of the Fetch API the router and its middlewares touch: a
    request reduced to its method, URL pathname and search part and header
    map, and a response reduced to its status, body and header map. Header
    names are stored lower-case, as the `Headers` class normalises them.

    The platform services the code calls but the model does not see are
    bundled in `Runtime`: `decodeURIComponent`, `new URL(...)`, the request
    id `crypto.randomUUID()` draws, the `Date.now()` difference, and the
    route handlers themselves. */
module Http {
  import opened Wrappers
  import opened Strings
  import opened Uri

  type Headers = map<string, string>

  datatype Verb = HEAD | GET | POST | PUT | PATCH | DELETE | OPTIONS

  /** The method name as the router's `Method` type spells it. */
  function VerbName(v: Verb): string {
    match v
    case HEAD => "HEAD"
    case GET => "GET"
    case POST => "POST"
    case PUT => "PUT"
    case PATCH => "PATCH"
    case DELETE => "DELETE"
    case OPTIONS => "OPTIONS"
  }

  /** Distinct methods have distinct names. */
  lemma VerbNameInjective(a: Verb, b: Verb)
    requires VerbName(a) == VerbName(b)
    ensures a == b
  {
  }

  /** A method name is already upper-case, so `toUpperCase` leaves it. */
  lemma VerbNameUpper(v: Verb)
    ensures Upper(VerbName(v)) == VerbName(v)
  {
    var s := VerbName(v);
    assert forall i :: 0 <= i < |s| ==> 'A' <= s[i] <= 'Z';
  }

  function VerbNames(vs: seq<Verb>): (r: seq<string>)
    ensures |r| == |vs|
    ensures forall i :: 0 <= i < |vs| ==> r[i] == VerbName(vs[i])
  {
    seq(|vs|, i requires 0 <= i < |vs| => VerbName(vs[i]))
  }

  datatype Request = Request(methodName: string, pathname: string, search: string, headers: Headers)

  datatype Body =
    | Empty                  // `new Response(null, …)`
    | Json(message: string)  // `Response.json({ message })`
    | Content(name: string)  // whatever a route handler returns

  datatype Response = Response(status: int, body: Body, headers: Headers)

  /** `{ params, query, cookie }`; `env` and `ctx` are opaque and left out. */
  datatype Context = Context(params: map<string, string>, query: map<string, string>, cookie: map<string, string>)

  /** What `new URL(s)` yields that the middlewares read. */
  datatype Url = Url(origin: string, hostname: string)

  datatype Runtime = Runtime(
    decodeUri: Decoder,
    parseUrl: string -> Option<Url>,          // `new URL(s)`, `None` when it throws
    requestId: string,                        // `crypto.randomUUID()`
    elapsedMs: int,                           // `Date.now() - start`
    serve: (string, Request, Context) -> Response)  // the route handlers, by name

  /** `req.headers.get(name) || ""`: a missing header reads as the empty
      string. */
  function HeaderOr(req: Request, name: string): (r: string)
    ensures name in req.headers ==> r == req.headers[name]
    ensures name !in req.headers ==> r == ""
  {
    if name in req.headers then req.headers[name] else ""
  }

  /** Reading a header after setting one: the header just set reads back
      as its value, and setting any other header leaves the reading as it
      was. */
  lemma HeaderGetSet(req: Request, name: string, other: string, value: string)
    ensures HeaderOr(req.(headers := req.headers[name := value]), name) == value
    ensures other != name ==>
              HeaderOr(req.(headers := req.headers[other := value]), name) == HeaderOr(req, name)
  {
  }

  /** `req.headers.get(name)` used in a truthiness test: `None` both for a
      missing header and for an empty one. */
  function Truthy(req: Request, name: string): (r: Option<string>)
    ensures r.Some? <==> name in req.headers && req.headers[name] != ""
    ensures r.Some? ==> r.value == req.headers[name]
  {
    if HeaderOr(req, name) == "" then None else Some(HeaderOr(req, name))
  }

  /** `Response.json({ message }, { status, headers })`: the JSON body comes
      with its content type. */
  function JsonMessage(status: int, message: string, extra: Headers): (r: Response)
    ensures r.status == status && r.body == Json(message)
    ensures r.headers.Keys == extra.Keys + {"content-type"}
    ensures r.headers["content-type"] == "application/json"
  {
    Response(status, Json(message), extra["content-type" := "application/json"])
  }

  /** `res.headers.set(name, value)`. */
  function SetHeader(res: Response, name: string, value: string): (r: Response)
    ensures r.status == res.status && r.body == res.body
    ensures name in r.headers && r.headers[name] == value
    ensures forall k :: k != name ==> (k in r.headers <==> k in res.headers)
    ensures forall k :: k != name && k in res.headers ==> r.headers[k] == res.headers[k]
  {
    res.(headers := res.headers[name := value])
  }

  /** What a middleware decides before `next`: call it with this request, or
      answer at once. */
  datatype Step = Forward(request: Request) | Respond(response: Response)
}

=== FILE: origins.dfy ===
/** The origin helpers the CORS and referer middlewares share. An origin
    comes from the `origin` header when it is non-empty, otherwise from the
    origin of the URL in the `referer` header. */
module Origins {
  import opened Wrappers
  import opened Http

  /** `getOrigin(req)`. */
  function GetOrigin(req: Request, parseUrl: string -> Option<Url>): (r: Option<string>)
    ensures Truthy(req, "origin").Some? ==> r == Truthy(req, "origin")
    ensures Truthy(req, "origin").None? && Truthy(req, "referer").None? ==> r.None?
  {
    match Truthy(req, "origin")
    case Some(origin) => Some(origin)
    case None =>
      match Truthy(req, "referer")
      case None => None
      case Some(referer) =>
        match parseUrl(referer)
        case None => None
        case Some(url) => Some(url.origin)
  }

  /** The referer decides only when the origin header is missing or empty,
      and then only through its parsed origin. */
  lemma RefererFallback(req: Request, parseUrl: string -> Option<Url>)
    requires Truthy(req, "origin").None? && Truthy(req, "referer").Some?
    ensures parseUrl(Truthy(req, "referer").value).None? ==> GetOrigin(req, parseUrl).None?
    ensures parseUrl(Truthy(req, "referer").value).Some? ==>
              GetOrigin(req, parseUrl) == Some(parseUrl(Truthy(req, "referer").value).value.origin)
  {
  }

  /** A non-empty origin header wins whatever the referer says. */
  lemma OriginWins(req: Request, parseUrl: string -> Option<Url>, referer: string)
    requires Truthy(req, "origin").Some?
    ensures GetOrigin(req.(headers := req.headers["referer" := referer]), parseUrl) == GetOrigin(req, parseUrl)
  {
    var req' := req.(headers := req.headers["referer" := referer]);
    assert Truthy(req', "origin") == Truthy(req, "origin");
  }

  /** `isAllowedOrigin(origin, allowed)`. */
  function IsAllowedOrigin(origin: Option<string>, allowed: seq<string>): (r: Option<string>)
    ensures r.Some? <==> origin.Some? && origin.value != "" && origin.value in allowed
    ensures r.Some? ==> r == origin
  {
    if origin.Some? && origin.value != "" && origin.value in allowed then origin else None
  }

  /** What `getHostName` comes to: `null`, a host name, or the exception
      `new URL(origin)` throws for an origin that does not parse. */
  datatype Host = NoHost | HostName(name: string) | Unparsable

  /** `getHostName(req)`. */
  function GetHostName(req: Request, parseUrl: string -> Option<Url>): (r: Host)
    ensures r.NoHost? <==> GetOrigin(req, parseUrl).None? || GetOrigin(req, parseUrl).value == ""
    ensures r.HostName? ==> GetOrigin(req, parseUrl).Some? && parseUrl(GetOrigin(req, parseUrl).value).Some?
                            && parseUrl(GetOrigin(req, parseUrl).value).value.hostname == r.name
    ensures r.Unparsable? <==> GetOrigin(req, parseUrl).Some? && GetOrigin(req, parseUrl).value != ""
                               && parseUrl(GetOrigin(req, parseUrl).value).None?
  {
    match GetOrigin(req, parseUrl)
    case None => NoHost
    case Some(origin) =>
      if origin == "" then NoHost
      else
        match parseUrl(origin)
        case None => Unparsable
        case Some(url) => HostName(url.hostname)
  }

  /** When the URL parser never yields an empty origin, as `new URL` never
      does, the host name is null exactly when the origin is. */
  lemma HostNameNullity(req: Request, parseUrl: string -> Option<Url>)
    requires forall s :: parseUrl(s).Some? ==> parseUrl(s).value.origin != ""
    ensures GetHostName(req, parseUrl).NoHost? <==> GetOrigin(req, parseUrl).None?
  {
    if Truthy(req, "origin").None? && Truthy(req, "referer").Some? {
      var referer := Truthy(req, "referer").value;
      if parseUrl(referer).Some? {
        assert parseUrl(referer).value.origin != "";
      }
    }
  }
}

=== FILE: paths.dfy ===
/** Path handling in the router: splitting a pathname into segments,
    normalising a registered or requested path, and the segment-aligned
    prefix test that decides which middleware bindings apply. The router
    always runs with trailing slashes ignored (its `ignoreTrailingSlash`
    field is fixed at `true`), so that flag is not a parameter here. */
module Paths {
  import opened Strings

  /** A segment as `split` produces it: non-empty, slash-free, trimmed. */
  predicate IsSegment(s: string) {
    s != "" && '/' !in s && Trim(s) == s
  }

  predicate AllSegments(segs: seq<string>) {
    forall i :: 0 <= i < |segs| ==> IsSegment(segs[i])
  }

  /** Trim every piece and drop the empty ones. */
  function Segments(pieces: seq<string>): (segs: seq<string>)
    requires forall i :: 0 <= i < |pieces| ==> '/' !in pieces[i]
    ensures AllSegments(segs)
  {
    if |pieces| == 0 then []
    else
      var t := Trim(pieces[0]);
      var rest := Segments(pieces[1..]);
      TrimKeepsOut(pieces[0], '/');
      TrimIdempotent(pieces[0]);
      if t == "" then rest else [t] + rest
  }

  /** `split(pathname)` in router.ts. */
  function Split(pathname: string): (segs: seq<string>)
    ensures AllSegments(segs)
  {
    Segments(SplitOn(pathname, '/'))
  }

  lemma {:induction false} SegmentsConcat(a: seq<string>, b: seq<string>)
    requires forall i :: 0 <= i < |a| ==> '/' !in a[i]
    requires forall i :: 0 <= i < |b| ==> '/' !in b[i]
    ensures Segments(a + b) == Segments(a) + Segments(b)
  {
    if |a| > 0 {
      var t := Trim(a[0]);
      var h := if t == "" then [] else [t];
      assert Segments(a + b) == h + Segments(a[1..] + b) by {
        assert (a + b)[0] == a[0];
        assert (a + b)[1..] == a[1..] + b;
      }
      SegmentsConcat(a[1..], b);
      assert Segments(a) == h + Segments(a[1..]);
      ConcatAssoc(h, Segments(a[1..]), Segments(b));
    } else {
      assert a + b == b;
    }
  }

  lemma SegmentsCons(segs: seq<string>)
    requires AllSegments(segs) && |segs| > 0
    ensures Segments(segs) == [segs[0]] + Segments(segs[1..])
    ensures AllSegments(segs[1..])
  {
    assert IsSegment(segs[0]);
  }

  lemma {:induction false} SegmentsOfSegments(segs: seq<string>)
    requires AllSegments(segs)
    ensures Segments(segs) == segs
  {
    if |segs| > 0 {
      SegmentsCons(segs);
      SegmentsOfSegments(segs[1..]);
      calc {
        Segments(segs);
        [segs[0]] + Segments(segs[1..]);
        [segs[0]] + segs[1..];
        segs;
      }
    }
  }

  /** A slash splits a path into the segments of either side. */
  lemma SplitConcat(x: string, y: string)
    ensures Split(x + "/" + y) == Split(x) + Split(y)
  {
    SplitOnConcat(x, y, '/');
    assert x + "/" + y == x + ['/'] + y;
    SegmentsConcat(SplitOn(x, '/'), SplitOn(y, '/'));
  }

  lemma SplitEmpty()
    ensures Split("") == []
  {
    assert SplitOn("", '/') == [""];
    assert Trim("") == "";
    assert Segments([""]) == [];
  }

  /** `split("/posts/") == split("/posts")`, and so for every path. */
  lemma SplitTrailingSlash(p: string)
    ensures Split(p + "/") == Split(p)
  {
    SplitConcat(p, "");
    assert p + "/" + "" == p + "/";
  }

  lemma SplitLeadingSlash(p: string)
    ensures Split("/" + p) == Split(p)
  {
    SplitConcat("", p);
    assert "" + "/" + p == "/" + p;
  }

  /** The canonical pathname of a sequence of segments. */
  function Canonical(segs: seq<string>): string {
    "/" + Join(segs, "/")
  }

  /** `Split` and `Canonical` are inverse on well-formed segments. */
  lemma SplitCanonical(segs: seq<string>)
    requires AllSegments(segs)
    ensures Split(Canonical(segs)) == segs
  {
    SplitLeadingSlash(Join(segs, "/"));
    if |segs| > 0 {
      SplitOnJoin(segs, '/');
      SegmentsOfSegments(segs);
    }
  }

  /** Splitting with `split`, rejoining canonically and splitting again
      changes nothing: every path has a canonical form with its segments. */
  lemma CanonicalOfSplit(p: string)
    ensures Split(Canonical(Split(p))) == Split(p)
  {
    SplitCanonical(Split(p));
  }

  /* ---------------------------------------------------------------------
     normalisation
     --------------------------------------------------------------------- */

  /** `normalizePath(p, true)`. */
  function NormalizePath(p: string): (r: string)
    ensures |r| >= 1 && r[0] == '/'
  {
    if p == "" then "/"
    else
      var q := if StartsWith(p, "/") then p else "/" + p;
      if |q| > 1 && q[|q| - 1] == '/' then q[..|q| - 1] else q
  }

  /** `normalizePrefix(p, true)`. */
  function NormalizePrefix(p: string): string {
    NormalizePath(if StartsWith(p, "/") then p else "/" + p)
  }

  /** Exactly one trailing slash is removed, and only past the root; a
      missing leading slash is supplied; nothing else changes. */
  lemma NormalizePathShape(p: string)
    ensures p == "" ==> NormalizePath(p) == "/"
    ensures p != "" ==>
      var q := if |p| > 0 && p[0] == '/' then p else "/" + p;
      (NormalizePath(p) == q && (|q| == 1 || q[|q| - 1] != '/'))
      || (|q| > 1 && q == NormalizePath(p) + "/")
  {
  }

  /** Normalisation never changes the segments a path splits into, which is
      why `/posts/` and `/posts` resolve to the same route. */
  lemma SplitNormalizePath(p: string)
    ensures Split(NormalizePath(p)) == Split(p)
  {
    if p == "" {
      SplitEmpty();
      SplitLeadingSlash("");
      assert "/" + "" == "/";
    } else {
      var q := if StartsWith(p, "/") then p else "/" + p;
      if !StartsWith(p, "/") {
        SplitLeadingSlash(p);
      }
      assert Split(q) == Split(p);
      if |q| > 1 && q[|q| - 1] == '/' {
        assert q == q[..|q| - 1] + "/";
        SplitTrailingSlash(q[..|q| - 1]);
        assert NormalizePath(p) == q[..|q| - 1];
      } else {
        assert NormalizePath(p) == q;
      }
    }
  }

  /** A path and the same path with one extra trailing slash normalise to
      the same pathname. */
  lemma NormalizeTrailingSlash(p: string)
    requires p != "" && p[|p| - 1] != '/'
    ensures NormalizePath(p + "/") == NormalizePath(p)
  {
    if StartsWith(p, "/") {
      assert StartsWith(p + "/", "/");
      assert (p + "/")[..|p|] == p;
    } else {
      assert (p + "/")[0] == p[0];
      assert ("/" + (p + "/"))[..|p| + 1] == "/" + p;
    }
  }

  /** Normalisation is not idempotent: a doubled trailing slash loses only
      one slash per application. */
  lemma NormalizeNotIdempotent()
    ensures NormalizePath("/a//") == "/a/"
    ensures NormalizePath(NormalizePath("/a//")) == "/a"
  {
  }

  /** Canonical pathnames are left alone by normalisation. */
  lemma NormalizeCanonical(segs: seq<string>)
    requires AllSegments(segs)
    ensures NormalizePath(Canonical(segs)) == Canonical(segs)
  {
    if |segs| > 0 {
      LastOfJoin(segs);
    }
  }

  lemma {:induction false} LastOfJoin(segs: seq<string>)
    requires |segs| > 0 && AllSegments(segs)
    ensures |Join(segs, "/")| > 0 && Join(segs, "/")[|Join(segs, "/")| - 1] != '/'
  {
    var last := segs[0];
    if |segs| > 1 {
      LastOfJoin(segs[1..]);
    } else {
      assert last[|last| - 1] in last;
    }
  }

  /** `normalizePrefix` adds nothing to `normalizePath`, which already
      supplies the leading slash. */
  lemma NormalizePrefixIsNormalizePath(p: string)
    ensures NormalizePrefix(p) == NormalizePath(p)
  {
    if p != "" && !StartsWith(p, "/") {
      assert StartsWith("/" + p, "/");
    }
  }

  /* ---------------------------------------------------------------------
     prefix test
     --------------------------------------------------------------------- */

  /** `pathnameStartsWith(pathname, prefix)`. */
  predicate PathnameStartsWith(pathname: string, prefix: string) {
    if prefix == "/" then true
    else if !StartsWith(pathname, prefix) then false
    else |pathname| == |prefix| || pathname[|prefix|] == '/'
  }

  lemma {:induction false} JoinConcat(a: seq<string>, b: seq<string>, sep: string)
    requires |a| > 0 && |b| > 0
    ensures Join(a + b, sep) == Join(a, sep) + sep + Join(b, sep)
  {
    if |a| == 1 {
      assert (a + b)[1..] == b;
    } else {
      assert (a + b)[1..] == a[1..] + b;
      JoinConcat(a[1..], b, sep);
    }
  }

  lemma PrefixSegmentsMatch(a: seq<string>, b: seq<string>)
    requires a <= b
    ensures PathnameStartsWith(Canonical(b), Canonical(a))
  {
    var pa, pb := Canonical(a), Canonical(b);
    if |a| == |b| {
      assert a == b;
    } else if pa != "/" {
      var c := b[|a|..];
      assert b == a + c;
      if |a| > 0 {
        JoinConcat(a, c, "/");
        assert pb == pa + "/" + Join(c, "/");
        assert pb[..|pa|] == pa;
        assert pb[|pa|] == '/';
      }
    }
  }

  /** Below a prefix other than the root, the prefix's segments begin the
      pathname's segments. */
  lemma PrefixSplits(pathname: string, prefix: string)
    requires prefix != "/" && PathnameStartsWith(pathname, prefix)
    ensures Split(prefix) <= Split(pathname)
  {
    assert pathname[..|prefix|] == prefix;
    if |pathname| == |prefix| {
      assert pathname == prefix;
    } else {
      var rest := pathname[|prefix| + 1..];
      assert pathname == prefix + "/" + rest;
      SplitConcat(prefix, rest);
    }
  }

  lemma MatchPrefixSegments(a: seq<string>, b: seq<string>)
    requires AllSegments(a) && AllSegments(b)
    requires PathnameStartsWith(Canonical(b), Canonical(a))
    ensures a <= b
  {
    if |a| > 0 {
      LastOfJoin(a);
      SplitCanonical(a);
      SplitCanonical(b);
      PrefixSplits(Canonical(b), Canonical(a));
    }
  }

  /** The prefix test is segment-aligned: on canonical pathnames it holds
      exactly when the prefix's segments begin the pathname's segments. */
  lemma AlignedPrefix(a: seq<string>, b: seq<string>)
    requires AllSegments(a) && AllSegments(b)
    ensures PathnameStartsWith(Canonical(b), Canonical(a)) <==> a <= b
  {
    if a <= b {
      PrefixSegmentsMatch(a, b);
    }
    if PathnameStartsWith(Canonical(b), Canonical(a)) {
      MatchPrefixSegments(a, b);
    }
  }

  /** The boundary cases the router's own comment names. */
  lemma PrefixBoundaryExamples()
    ensures !PathnameStartsWith("/apiv2", "/api")
    ensures PathnameStartsWith("/api", "/api")
    ensures PathnameStartsWith("/api/x", "/api")
    ensures PathnameStartsWith("/anything", "/")
  {
    assert "/apiv2"[..4] == "/api";
    assert "/api/x"[..4] == "/api";
  }
}

=== FILE: pipeline.dfy ===
/** Middleware and their composition. A middleware here is a named layer:
    what it decides before `next` (`Admit`: forward a request, or answer at
    once) and what it does to the response `next` returns (`Finish`).
    `Compose` is `composeMiddleware`, a `reduceRight` that wraps the final
    handler from the last middleware to the first, so that element 0 ends up
    outermost; `Run` executes the composed handler and records the order in
    which layers are entered and left. */
module Pipeline {
  import opened Wrappers
  import opened Strings
  import opened Http
  import CorsPolicy
  import TokenPolicy
  import RefererPolicy
  import AgentPolicy

  /** A layer registered for its shape alone: one that always calls `next`
      and leaves the response alone, or one that always answers. */
  datatype LayerKind = PassThrough | ShortCircuit(response: Response)

  datatype Middleware =
    | RequestStamp                          // `defaultMiddleware()`
    | VerifyToken(token: string)            // `middlewareVerifyTokenInit({ token })`
    | Cors(config: CorsPolicy.CorsConfig)   // `middlewareCorsInit(config)`
    | VerifyReferer(origins: seq<string>)   // `middlewareVerifyRefererInit({ origins })`
    | VerifyUserAgent                       // `middlewareVerifyUserAgent`
    | Layer(name: string, kind: LayerKind)

  const RequestIdHeader := "x-request-id"
  const PoweredByHeader := "x-powered-by"
  const DurationHeader := "x-duration-ms"
  const PoweredBy := "day1swhan"

  /** What the middleware does with the request before calling `next`. */
  function Admit(m: Middleware, req: Request, rt: Runtime): Step {
    match m
    case RequestStamp => Forward(req.(headers := req.headers[RequestIdHeader := rt.requestId]))
    case VerifyToken(token) => TokenPolicy.Admit(token, req)
    case Cors(config) => CorsPolicy.Admit(config, req, rt.parseUrl)
    case VerifyReferer(origins) => RefererPolicy.Admit(origins, req, rt.parseUrl)
    case VerifyUserAgent => AgentPolicy.Admit(req)
    case Layer(_, PassThrough) => Forward(req)
    case Layer(_, ShortCircuit(res)) => Respond(res)
  }

  /** What the middleware does to the response of `next`; `req` is the
      request the middleware itself received. */
  function Finish(m: Middleware, req: Request, res: Response, rt: Runtime): Response {
    match m
    case RequestStamp =>
      SetHeader(SetHeader(SetHeader(res, RequestIdHeader, rt.requestId), PoweredByHeader, PoweredBy),
                DurationHeader, Decimal(rt.elapsedMs))
    case Cors(config) => CorsPolicy.Finish(config, req, rt.parseUrl, res)
    case _ => res
  }

  /** A middleware that neither changes the request it forwards nor the
      response it returns. */
  predicate Inert(m: Middleware) {
    !m.RequestStamp? && !m.Cors?
  }

  /** What sits at the bottom of a composed handler. */
  datatype Endpoint =
    | Serve(handler: string)          // a route's handler, by name
    | Missing                         // `notFoundHandler()`
    | RefuseMethod(methods: seq<Verb>) // `notAllowedHandler(methods)`

  const NotFound := "Not Found"
  const MethodNotAllowed := "Method Not Allowed"

  function Answer(e: Endpoint, req: Request, ctx: Context, rt: Runtime): Response {
    match e
    case Serve(handler) => rt.serve(handler, req, ctx)
    case Missing => JsonMessage(404, NotFound, map[])
    case RefuseMethod(methods) => JsonMessage(405, MethodNotAllowed, map["allow" := Join(VerbNames(methods), ", ")])
  }

  /** A composed handler: an endpoint inside any number of layers. */
  datatype Handler = Terminal(endpoint: Endpoint) | Wrapped(layer: Middleware, next: Handler)

  /** The layers from the outermost in. */
  function Layers(h: Handler): seq<Middleware> {
    match h
    case Terminal(_) => []
    case Wrapped(m, next) => [m] + Layers(next)
  }

  function Core(h: Handler): Endpoint {
    match h
    case Terminal(e) => e
    case Wrapped(_, next) => Core(next)
  }

  /** A handler is determined by its layers and its endpoint. */
  lemma {:induction false} HandlerDetermined(a: Handler, b: Handler)
    requires Layers(a) == Layers(b) && Core(a) == Core(b)
    ensures a == b
  {
    match a
    case Terminal(_) =>
    case Wrapped(m, next) =>
      assert Layers(b)[0] == m;
      assert Layers(next) == Layers(a)[1..] == Layers(b)[1..];
      HandlerDetermined(next, b.next);
  }

  /** `composeMiddleware(middlewares, finalHandler)`: `reduceRight` folds
      from the last middleware to the first, each wrapping what was built
      so far. */
  function Compose(ms: seq<Middleware>, final: Handler): (h: Handler)
    ensures Layers(h) == ms + Layers(final)
    ensures Core(h) == Core(final)
  {
    if |ms| == 0 then final
    else
      var last := |ms| - 1;
      assert ms == ms[..last] + [ms[last]];
      Compose(ms[..last], Wrapped(ms[last], final))
  }

  /** The nesting read from the outside: `ms[0](ms[1](…(final)))`. */
  function Nest(ms: seq<Middleware>, final: Handler): Handler {
    if |ms| == 0 then final else Wrapped(ms[0], Nest(ms[1..], final))
  }

  lemma {:induction false} NestShape(ms: seq<Middleware>, final: Handler)
    ensures Layers(Nest(ms, final)) == ms + Layers(final)
    ensures Core(Nest(ms, final)) == Core(final)
  {
    if |ms| > 0 {
      NestShape(ms[1..], final);
      assert ms == [ms[0]] + ms[1..];
    }
  }

  /** The right fold builds exactly the nesting with element 0 outermost;
      with no middleware it is the final handler itself. */
  lemma ComposeIsNest(ms: seq<Middleware>, final: Handler)
    ensures Compose(ms, final) == Nest(ms, final)
    ensures |ms| == 0 ==> Compose(ms, final) == final
  {
    NestShape(ms, final);
    HandlerDetermined(Compose(ms, final), Nest(ms, final));
  }

  /** Composing a concatenation nests the second part inside the first. */
  lemma ComposeAppend(a: seq<Middleware>, b: seq<Middleware>, final: Handler)
    ensures Compose(a + b, final) == Compose(a, Compose(b, final))
  {
    assert (a + b) + Layers(final) == a + (b + Layers(final));
    HandlerDetermined(Compose(a + b, final), Compose(a, Compose(b, final)));
  }

  /* ---------------------------------------------------------------------
     running a composed handler
     --------------------------------------------------------------------- */

  datatype Event = Enter(layer: Middleware) | Leave(layer: Middleware) | Reached(endpoint: Endpoint)

  datatype Outcome = Outcome(response: Response, trace: seq<Event>)

  /** Calling the composed handler with a request and a context. Every
      middleware hands `next` the context it received. */
  function Run(h: Handler, req: Request, ctx: Context, rt: Runtime): Outcome {
    match h
    case Terminal(e) => Outcome(Answer(e, req, ctx, rt), [Reached(e)])
    case Wrapped(m, next) =>
      match Admit(m, req, rt)
      case Respond(res) => Outcome(res, [Enter(m), Leave(m)])
      case Forward(forwarded) =>
        var inner := Run(next, forwarded, ctx, rt);
        Outcome(Finish(m, req, inner.response, rt), [Enter(m)] + inner.trace + [Leave(m)])
  }

  /** Every layer forwards, so the endpoint is reached. */
  predicate Passes(h: Handler, req: Request, rt: Runtime) {
    match h
    case Terminal(_) => true
    case Wrapped(m, next) =>
      match Admit(m, req, rt)
      case Respond(_) => false
      case Forward(forwarded) => Passes(next, forwarded, rt)
  }

  /** The layers a request enters: all of them up to the first that
      answers. */
  function Entered(h: Handler, req: Request, rt: Runtime): seq<Middleware> {
    match h
    case Terminal(_) => []
    case Wrapped(m, next) =>
      match Admit(m, req, rt)
      case Respond(_) => [m]
      case Forward(forwarded) => [m] + Entered(next, forwarded, rt)
  }

  function Enters(ms: seq<Middleware>): (r: seq<Event>)
    ensures |r| == |ms|
    ensures forall i :: 0 <= i < |ms| ==> r[i] == Enter(ms[i])
  {
    seq(|ms|, i requires 0 <= i < |ms| => Enter(ms[i]))
  }

  /** The exits, innermost first. */
  function Leaves(ms: seq<Middleware>): (r: seq<Event>)
    ensures |r| == |ms|
    ensures forall i :: 0 <= i < |ms| ==> r[i] == Leave(ms[|ms| - 1 - i])
  {
    seq(|ms|, i requires 0 <= i < |ms| => Leave(ms[|ms| - 1 - i]))
  }

  /** Every middleware is left in the mirror position of the one it was
      entered in: the exits are the entries reversed. */
  lemma LeavesMirrorEnters(ms: seq<Middleware>)
    ensures |Leaves(ms)| == |Enters(ms)|
    ensures forall i :: 0 <= i < |ms| ==> Leaves(ms)[i].layer == Enters(ms)[|ms| - 1 - i].layer
  {
  }

  /** The entered layers begin the handler's layers, all of them when the
      endpoint is reached, and at least one when it is not. */
  lemma {:induction false} EnteredPrefix(h: Handler, req: Request, rt: Runtime)
    ensures Entered(h, req, rt) <= Layers(h)
    ensures Passes(h, req, rt) ==> Entered(h, req, rt) == Layers(h)
    ensures !Passes(h, req, rt) ==> |Entered(h, req, rt)| > 0
  {
    match h
    case Terminal(_) =>
    case Wrapped(m, next) =>
      match Admit(m, req, rt)
      case Respond(_) =>
      case Forward(forwarded) =>
        EnteredPrefix(next, forwarded, rt);
  }

  /** The trace is well nested: the entered layers in order, the endpoint
      if every layer forwarded, then the same layers left in reverse. */
  lemma {:induction false} TraceShape(h: Handler, req: Request, ctx: Context, rt: Runtime)
    ensures Run(h, req, ctx, rt).trace
            == Enters(Entered(h, req, rt))
               + (if Passes(h, req, rt) then [Reached(Core(h))] else [])
               + Leaves(Entered(h, req, rt))
  {
    match h
    case Terminal(_) =>
    case Wrapped(m, next) =>
      match Admit(m, req, rt)
      case Respond(_) =>
      case Forward(forwarded) =>
        TraceShape(next, forwarded, ctx, rt);
        var e := Entered(next, forwarded, rt);
        var mid: seq<Event> := if Passes(next, forwarded, rt) then [Reached(Core(next))] else [];
        EntersLeavesCons(m, e);
        Regroup([Enter(m)], Enters(e), mid, Leaves(e), [Leave(m)]);
  }

  lemma Regroup(a: seq<Event>, b: seq<Event>, c: seq<Event>, d: seq<Event>, e: seq<Event>)
    ensures a + (b + c + d) + e == (a + b) + c + (d + e)
  {
  }

  lemma EntersLeavesCons(m: Middleware, e: seq<Middleware>)
    ensures Enters([m] + e) == [Enter(m)] + Enters(e)
    ensures Leaves([m] + e) == Leaves(e) + [Leave(m)]
  {
  }

  /** The endpoint appears in the trace exactly when every layer forwarded;
      a layer that answers keeps every inner layer and the endpoint from
      running. */
  lemma {:induction false} ReachedIffPasses(h: Handler, req: Request, ctx: Context, rt: Runtime)
    ensures Passes(h, req, rt) <==> Reached(Core(h)) in Run(h, req, ctx, rt).trace
    ensures forall ev :: ev in Run(h, req, ctx, rt).trace && ev.Reached? ==> ev == Reached(Core(h))
  {
    match h
    case Terminal(_) =>
    case Wrapped(m, next) =>
      match Admit(m, req, rt)
      case Respond(_) =>
      case Forward(forwarded) =>
        ReachedIffPasses(next, forwarded, ctx, rt);
  }

  /** Inert layers that all forward are invisible: the response is the
      endpoint's own answer to the very request and context given. */
  lemma {:induction false} InertLayersTransparent(h: Handler, req: Request, ctx: Context, rt: Runtime)
    requires forall i :: 0 <= i < |Layers(h)| ==> Inert(Layers(h)[i])
    requires Passes(h, req, rt)
    ensures Run(h, req, ctx, rt).response == Answer(Core(h), req, ctx, rt)
  {
    match h
    case Terminal(_) =>
    case Wrapped(m, next) =>
      assert Layers(h)[0] == m;
      assert forall i :: 0 <= i < |Layers(next)| ==> Layers(next)[i] == Layers(h)[i + 1];
      match Admit(m, req, rt)
      case Forward(forwarded) =>
        assert forwarded == req;
        InertLayersTransparent(next, req, ctx, rt);
  }

  /** A layer that short-circuits answers for the whole handler when it is
      outermost, and nothing inside it runs. */
  lemma OutermostShortCircuit(name: string, res: Response, rest: seq<Middleware>, final: Handler, req: Request, ctx: Context, rt: Runtime)
    ensures Run(Compose([Layer(name, ShortCircuit(res))] + rest, final), req, ctx, rt)
            == Outcome(res, [Enter(Layer(name, ShortCircuit(res))), Leave(Layer(name, ShortCircuit(res)))])
  {
    ComposeIsNest([Layer(name, ShortCircuit(res))] + rest, final);
  }
}

=== FILE: referer_policy.dfy ===
/** The referer middleware: a request goes on only when its origin (from
    `origin`, or else from `referer`) is in the allow-list. */
module RefererPolicy {
  import opened Wrappers
  import opened Http
  import opened Origins

  const NotAllowed := "Referer Not Allowed"

  /** The decision `middlewareVerifyRefererInit({ origins })` takes before
      calling `next`. */
  function Admit(origins: seq<string>, req: Request, parseUrl: string -> Option<Url>): (s: Step)
    ensures s.Forward? <==> exists o :: GetOrigin(req, parseUrl) == Some(o) && o != "" && o in origins
    ensures s.Forward? ==> s.request == req
    ensures s.Respond? ==> s.response == JsonMessage(403, NotAllowed, map[])
  {
    match IsAllowedOrigin(GetOrigin(req, parseUrl), origins)
    case None => Respond(JsonMessage(403, NotAllowed, map[]))
    case Some(_) => Forward(req)
  }

  /** A request that carries neither an origin nor a referer is refused,
      whatever the allow-list holds. */
  lemma NoOriginRefused(origins: seq<string>, req: Request, parseUrl: string -> Option<Url>)
    requires Truthy(req, "origin").None? && Truthy(req, "referer").None?
    ensures Admit(origins, req, parseUrl) == Respond(JsonMessage(403, NotAllowed, map[]))
  {
  }

  /** A referer whose URL does not parse is refused when no origin header
      is present. */
  lemma UnparsableRefererRefused(origins: seq<string>, req: Request, parseUrl: string -> Option<Url>)
    requires Truthy(req, "origin").None? && Truthy(req, "referer").Some?
    requires parseUrl(Truthy(req, "referer").value).None?
    ensures Admit(origins, req, parseUrl).Respond?
  {
    RefererFallback(req, parseUrl);
  }

  /** The allow-list is matched exactly: an origin that only shares a
      prefix with an allowed one is refused. */
  lemma ExactMatchOnly(parseUrl: string -> Option<Url>)
    ensures Admit(["https://velog.io"], Request("GET", "/view.png", "", map["origin" := "https://velog.io.evil"]), parseUrl).Respond?
    ensures Admit(["https://velog.io"], Request("GET", "/view.png", "", map["origin" := "https://velog.io"]), parseUrl).Forward?
  {
    var bad := Request("GET", "/view.png", "", map["origin" := "https://velog.io.evil"]);
    assert GetOrigin(bad, parseUrl) == Some("https://velog.io.evil");
    assert |"https://velog.io.evil"| != |"https://velog.io"|;
  }
}

=== FILE: scenarios.dfy ===
/** The application `src/index.ts` assembles: an extended gateway, four
    prefix bindings (user agent everywhere, referer on the tracking pixel,
    CORS then the API token on `/posts`) and four `GET` routes. The lemmas
    follow requests through it. */
module Scenarios {
  import opened Wrappers
  import opened Strings
  import opened Paths
  import opened Uri
  import opened Tokens
  import opened Http
  import opened Pipeline
  import opened Chain
  import opened Gateway
  import CorsPolicy
  import AgentPolicy
  import Origins
  import TokenPolicy

  const ApiToken := "this-is-token"
  const AllowOrigins := ["https://velog.io", "http://localhost:3000"]
  const CorsSettings := CorsPolicy.CorsConfig(AllowOrigins, [], ["content-type", "x-api-token"], true, None, [])

  /** A route registration: `app.get(path, handler)` and its siblings. */
  datatype RouteSpec = RouteSpec(verb: Verb, path: string, handler: string)

  /** The route registrations made one after another; the first refused
      pattern stops the module from loading. */
  function AddAll(g: Gateway, specs: seq<RouteSpec>): (r: Result<Gateway, RegistrationError>)
    ensures r.Ok? ==> r.value.stack == g.stack && |r.value.routes| == |g.routes| + |specs|
    ensures r.Ok? ==> r.value.routes[..|g.routes|] == g.routes
    decreases |specs|
  {
    if |specs| == 0 then Ok(g)
    else
      match Add(g, specs[0].verb, specs[0].path, specs[0].handler, [])
      case Err(e) => Err(e)
      case Ok(g1) =>
        var r := AddAll(g1, specs[1..]);
        if r.Ok? then
          assert r.value.routes[..|g.routes|] == r.value.routes[..|g1.routes|][..|g.routes|];
          r
        else r
  }

  const RouteSpecs := [
    RouteSpec(GET, "/view.png", "pageView"),
    RouteSpec(GET, "/posts/:postId/views", "postViews"),
    RouteSpec(GET, "/posts/:postId/sessions", "postSessions"),
    RouteSpec(GET, "/posts/:postId/sessions/:sessionId", "postSession")]

  /** The four `use` calls; each passes one middleware, so none throws. */
  function Prefixed(): Gateway {
    var g1 := Use(New(true), "/", [VerifyUserAgent]).value;
    var g2 := Use(g1, "/view.png", [VerifyReferer(AllowOrigins)]).value;
    var g3 := Use(g2, "/posts", [Cors(CorsSettings)]).value;
    Use(g3, "/posts", [VerifyToken(ApiToken)]).value
  }

  /** The registrations, in the order `index.ts` makes them. */
  function App(): Result<Gateway, RegistrationError> {
    AddAll(Prefixed(), RouteSpecs)
  }

  const Stack := [
    Binding("/", [RequestStamp]),
    Binding("/", [VerifyUserAgent]),
    Binding("/view.png", [VerifyReferer(AllowOrigins)]),
    Binding("/posts", [Cors(CorsSettings)]),
    Binding("/posts", [VerifyToken(ApiToken)])]

  const Routes := [
    Route(GET, "/view.png", [Static("view.png")], [], "pageView"),
    Route(GET, "/posts/:postId/views", [Static("posts"), Param("postId"), Static("views")], [], "postViews"),
    Route(GET, "/posts/:postId/sessions", [Static("posts"), Param("postId"), Static("sessions")], [], "postSessions"),
    Route(GET, "/posts/:postId/sessions/:sessionId",
          [Static("posts"), Param("postId"), Static("sessions"), Param("sessionId")], [], "postSession")]

  /** A path built from plain segments splits back into them and is left
      alone by normalisation. */
  lemma PlainPath(segs: seq<string>)
    requires forall i :: 0 <= i < |segs| ==> Plain(segs[i])
    ensures Split(Canonical(segs)) == segs
    ensures NormalizePath(Canonical(segs)) == Canonical(segs)
  {
    forall i | 0 <= i < |segs| ensures IsSegment(segs[i]) {
      TrimTrimmed(segs[i]);
    }
    SplitCanonical(segs);
    NormalizeCanonical(segs);
  }

  lemma Join3(a: string, b: string, c: string)
    ensures Join([a, b, c], "/") == a + "/" + b + "/" + c
  {
    assert [a, b, c][1..] == [b, c];
    assert [b, c][1..] == [c];
    assert Join([c], "/") == c;
    assert Join([b, c], "/") == b + "/" + c;
    assert Join([a, b, c], "/") == a + "/" + (b + "/" + c);
  }

  lemma Paths3(a: string, b: string, c: string)
    ensures Canonical([a, b, c]) == "/" + a + "/" + b + "/" + c
  {
    Join3(a, b, c);
  }

  lemma Paths4(a: string, b: string, c: string, d: string)
    ensures Canonical([a, b, c, d]) == "/" + a + "/" + b + "/" + c + "/" + d
  {
    assert [a, b, c, d][1..] == [b, c, d];
    Join3(b, c, d);
    assert Join([a, b, c, d], "/") == a + "/" + (b + "/" + c + "/" + d);
  }

  /** The segments of the four route patterns. */
  const PixelSegs := ["view.png"]
  const ViewsSegs := ["posts", ":postId", "views"]
  const SessionsSegs := ["posts", ":postId", "sessions"]
  const SessionSegs := ["posts", ":postId", "sessions", ":sessionId"]

  /** A literal that is a segment as it stands. */
  predicate Plain(s: string) {
    s != "" && '/' !in s && IsTrimmed(s)
  }

  lemma PlainLiterals()
    ensures Plain("view.png") && Plain("posts") && Plain(":postId")
    ensures Plain("views") && Plain("sessions") && Plain(":sessionId")
  {
  }

  lemma PlainPath3(a: string, b: string, c: string)
    requires Plain(a) && Plain(b) && Plain(c)
    ensures Split(Canonical([a, b, c])) == [a, b, c]
    ensures NormalizePath(Canonical([a, b, c])) == Canonical([a, b, c])
  {
    PlainPath([a, b, c]);
  }

  lemma PlainPath4(a: string, b: string, c: string, d: string)
    requires Plain(a) && Plain(b) && Plain(c) && Plain(d)
    ensures Split(Canonical([a, b, c, d])) == [a, b, c, d]
    ensures NormalizePath(Canonical([a, b, c, d])) == Canonical([a, b, c, d])
  {
    PlainPath([a, b, c, d]);
  }

  lemma PixelPattern()
    ensures NormalizePath("/view.png") == "/view.png" && Split("/view.png") == PixelSegs
  {
    PlainLiterals();
    OneSegment("view.png");
    assert "/" + "view.png" == "/view.png";
  }

  lemma ViewsPattern()
    ensures NormalizePath("/posts/:postId/views") == "/posts/:postId/views"
    ensures Split("/posts/:postId/views") == ViewsSegs
  {
    PlainLiterals();
    PlainPath3("posts", ":postId", "views");
    Paths3("posts", ":postId", "views");
    ViewsLiteral();
  }

  // The literal equations below are separate lemmas so that each is proved
  // without the large context of its caller.
  lemma ViewsLiteral()
    ensures "/" + "posts" + "/" + ":postId" + "/" + "views" == "/posts/:postId/views"
  {
  }

  lemma SessionsPattern()
    ensures NormalizePath("/posts/:postId/sessions") == "/posts/:postId/sessions"
    ensures Split("/posts/:postId/sessions") == SessionsSegs
  {
    PlainLiterals();
    PlainPath3("posts", ":postId", "sessions");
    Paths3("posts", ":postId", "sessions");
    SessionsLiteral();
  }

  lemma SessionPattern()
    ensures NormalizePath("/posts/:postId/sessions/:sessionId") == "/posts/:postId/sessions/:sessionId"
    ensures Split("/posts/:postId/sessions/:sessionId") == SessionSegs
  {
    PlainLiterals();
    PlainPath4("posts", ":postId", "sessions", ":sessionId");
    SessionLiteral();
  }

  lemma SessionLiteral()
    ensures Canonical(["posts", ":postId", "sessions", ":sessionId"]) == "/posts/:postId/sessions/:sessionId"
  {
    Paths4("posts", ":postId", "sessions", ":sessionId");
    SessionsLiteral();
    SessionSuffix();
  }

  lemma SessionsLiteral()
    ensures "/" + "posts" + "/" + ":postId" + "/" + "sessions" == "/posts/:postId/sessions"
  {
  }

  lemma SessionSuffix()
    ensures "/posts/:postId/sessions" + "/" + ":sessionId" == "/posts/:postId/sessions/:sessionId"
  {
  }

  /** A segment without a leading colon compiles to a static token. */
  lemma TokenizeStatic(seg: string, rest: seq<string>, path: string)
    requires seg != "" && seg[0] != ':'
    ensures TokenizeSegments(rest, path).Ok? ==>
              && TokenizeSegments([seg] + rest, path).Ok?
              && TokenizeSegments([seg] + rest, path).value == [Static(seg)] + TokenizeSegments(rest, path).value
  {
    assert ([seg] + rest)[1..] == rest;
  }

  /** A colon followed by a valid name compiles to a parameter token. */
  lemma TokenizeParam(seg: string, rest: seq<string>, path: string)
    requires StartsWith(seg, ":") && IsParamName(seg[1..])
    ensures TokenizeSegments(rest, path).Ok? ==>
              && TokenizeSegments([seg] + rest, path).Ok?
              && TokenizeSegments([seg] + rest, path).value == [Param(seg[1..])] + TokenizeSegments(rest, path).value
  {
    assert ([seg] + rest)[1..] == rest;
  }

  lemma ParamNamesValid()
    ensures StartsWith(":postId", ":") && ":postId"[1..] == "postId" && IsParamName("postId")
    ensures StartsWith(":sessionId", ":") && ":sessionId"[1..] == "sessionId" && IsParamName("sessionId")
  {
  }

  lemma PixelTokens()
    ensures Tokenize(NormalizePath("/view.png")) == Ok([Static("view.png")])
  {
    var p := "/view.png";
    PixelPattern();
    assert TokenizeSegments([], p) == Ok([]);
    TokenizeStatic("view.png", [], p);
    assert ["view.png"] + [] == PixelSegs;
    var r := TokenizeSegments(PixelSegs, p);
    assert r.Ok? && r.value == [Static("view.png")];
  }

  /** Static, parameter, static. */
  lemma TokenizeSPS(a: string, b: string, c: string, path: string)
    requires a != "" && a[0] != ':' && c != "" && c[0] != ':'
    requires StartsWith(b, ":") && IsParamName(b[1..])
    ensures TokenizeSegments([a, b, c], path).Ok?
    ensures TokenizeSegments([a, b, c], path).value == [Static(a), Param(b[1..]), Static(c)]
  {
    assert TokenizeSegments([], path) == Ok([]);
    TokenizeStatic(c, [], path);
    TokenizeParam(b, [c], path);
    TokenizeStatic(a, [b, c], path);
    assert [a, b, c] == [a] + ([b] + ([c] + []));
  }

  /** Static, parameter, static, parameter. */
  lemma TokenizeSPSP(a: string, b: string, c: string, d: string, path: string)
    requires a != "" && a[0] != ':' && c != "" && c[0] != ':'
    requires StartsWith(b, ":") && IsParamName(b[1..])
    requires StartsWith(d, ":") && IsParamName(d[1..])
    ensures TokenizeSegments([a, b, c, d], path).Ok?
    ensures TokenizeSegments([a, b, c, d], path).value == [Static(a), Param(b[1..]), Static(c), Param(d[1..])]
  {
    assert TokenizeSegments([], path) == Ok([]);
    TokenizeParam(d, [], path);
    TokenizeStatic(c, [d], path);
    TokenizeParam(b, [c, d], path);
    TokenizeStatic(a, [b, c, d], path);
    assert [a, b, c, d] == [a] + ([b] + ([c] + ([d] + [])));
  }

  lemma ViewsTokens()
    ensures Tokenize(NormalizePath("/posts/:postId/views")) == Ok([Static("posts"), Param("postId"), Static("views")])
  {
    var p := "/posts/:postId/views";
    ViewsPattern();
    ParamNamesValid();
    TokenizeSPS("posts", ":postId", "views", p);
    var r := TokenizeSegments(ViewsSegs, p);
    assert r.Ok? && r.value == [Static("posts"), Param("postId"), Static("views")];
  }

  lemma SessionsTokens()
    ensures Tokenize(NormalizePath("/posts/:postId/sessions")) == Ok([Static("posts"), Param("postId"), Static("sessions")])
  {
    var p := "/posts/:postId/sessions";
    SessionsPattern();
    ParamNamesValid();
    TokenizeSPS("posts", ":postId", "sessions", p);
    var r := TokenizeSegments(SessionsSegs, p);
    assert r.Ok? && r.value == [Static("posts"), Param("postId"), Static("sessions")];
  }

  lemma SessionTokens()
    ensures Tokenize(NormalizePath("/posts/:postId/sessions/:sessionId"))
            == Ok([Static("posts"), Param("postId"), Static("sessions"), Param("sessionId")])
  {
    var p := "/posts/:postId/sessions/:sessionId";
    SessionPattern();
    ParamNamesValid();
    TokenizeSPSP("posts", ":postId", "sessions", ":sessionId", p);
    var r := TokenizeSegments(SessionSegs, p);
    assert r.Ok? && r.value == [Static("posts"), Param("postId"), Static("sessions"), Param("sessionId")];
  }

  /** A `use` with a normalised prefix and some middleware appends it. */
  lemma UseStep(g: Gateway, prefix: string, ms: seq<Middleware>)
    requires |ms| > 0 && NormalizePath(prefix) == prefix
    ensures Use(g, prefix, ms) == Ok(g.(stack := g.stack + [Binding(prefix, ms)]))
  {
    NormalizePrefixIsNormalizePath(prefix);
  }

  /** Four `use` calls with normalised prefixes append four bindings. */
  lemma UseFour(g: Gateway, b0: Binding, b1: Binding, b2: Binding, b3: Binding)
    requires |b0.middlewares| > 0 && NormalizePath(b0.prefix) == b0.prefix
    requires |b1.middlewares| > 0 && NormalizePath(b1.prefix) == b1.prefix
    requires |b2.middlewares| > 0 && NormalizePath(b2.prefix) == b2.prefix
    requires |b3.middlewares| > 0 && NormalizePath(b3.prefix) == b3.prefix
    ensures var g1 := Use(g, b0.prefix, b0.middlewares).value;
      var g2 := Use(g1, b1.prefix, b1.middlewares).value;
      var g3 := Use(g2, b2.prefix, b2.middlewares).value;
      Use(g3, b3.prefix, b3.middlewares).value == g.(stack := g.stack + [b0, b1, b2, b3])
  {
    UseStep(g, b0.prefix, b0.middlewares);
    var g1 := Use(g, b0.prefix, b0.middlewares).value;
    UseStep(g1, b1.prefix, b1.middlewares);
    var g2 := Use(g1, b1.prefix, b1.middlewares).value;
    UseStep(g2, b2.prefix, b2.middlewares);
    var g3 := Use(g2, b2.prefix, b2.middlewares).value;
    UseStep(g3, b3.prefix, b3.middlewares);
    assert g.stack + [b0] + [b1] + [b2] + [b3] == g.stack + [b0, b1, b2, b3];
  }

  /** A one-segment path is already normalised and splits into its segment. */
  lemma OneSegment(a: string)
    requires Plain(a)
    ensures NormalizePath("/" + a) == "/" + a && Split("/" + a) == [a]
  {
    assert Canonical([a]) == "/" + a;
    PlainPath([a]);
  }

  lemma RootNormal()
    ensures NormalizePath("/") == "/"
  {
    assert Canonical([]) == "/";
    PlainPath([]);
  }

  lemma PostsNormal()
    ensures NormalizePath("/posts") == "/posts"
  {
    assert "/" + "posts" == "/posts";
    OneSegment("posts");
  }

  /** The prefixes `index.ts` registers are already normalised. */
  lemma PrefixesNormal()
    ensures NormalizePath("/") == "/"
    ensures NormalizePath("/view.png") == "/view.png"
    ensures NormalizePath("/posts") == "/posts"
  {
    PixelPattern();
    RootNormal();
    PostsNormal();
  }

  lemma PrefixedStack()
    ensures Prefixed() == Gateway([], Stack)
  {
    PrefixesNormal();
    var b1, b2, b3, b4 := Stack[1], Stack[2], Stack[3], Stack[4];
    UseFour(New(true), b1, b2, b3, b4);
    assert Stack == [Stack[0]] + [b1, b2, b3, b4];
  }

  /** The route registration `spec` compiles into `route`. */
  predicate CompilesTo(spec: RouteSpec, route: Route) {
    && Tokenize(NormalizePath(spec.path)).Ok?
    && route == Route(spec.verb, NormalizePath(spec.path), Tokenize(NormalizePath(spec.path)).value, [], spec.handler)
  }

  predicate AllCompile(specs: seq<RouteSpec>, routes: seq<Route>) {
    |specs| == |routes| && (|specs| == 0 || (CompilesTo(specs[0], routes[0]) && AllCompile(specs[1..], routes[1..])))
  }

  /** A registration whose pattern compiles appends the compiled route. */
  lemma AddCompiled(g: Gateway, spec: RouteSpec, route: Route)
    requires CompilesTo(spec, route)
    ensures Add(g, spec.verb, spec.path, spec.handler, []) == Ok(g.(routes := g.routes + [route]))
  {
  }

  /** After a first registration that succeeds, the rest continue from
      its result. */
  lemma AddAllCons(g: Gateway, specs: seq<RouteSpec>, g1: Gateway)
    requires |specs| > 0 && Add(g, specs[0].verb, specs[0].path, specs[0].handler, []) == Ok(g1)
    ensures AddAll(g, specs) == AddAll(g1, specs[1..])
  {
  }

  /** A first registration that compiles appends its route and hands over
      to the rest. */
  lemma AddAllStep(g: Gateway, specs: seq<RouteSpec>, route: Route)
    requires |specs| > 0 && CompilesTo(specs[0], route)
    ensures AddAll(g, specs) == AddAll(g.(routes := g.routes + [route]), specs[1..])
  {
    AddCompiled(g, specs[0], route);
    AddAllCons(g, specs, g.(routes := g.routes + [route]));
  }

  lemma AppendRoutes(g: Gateway, routes: seq<Route>)
    requires |routes| > 0
    ensures var g1 := g.(routes := g.routes + [routes[0]]);
      g1.(routes := g1.routes + routes[1..]) == g.(routes := g.routes + routes)
  {
    assert g.routes + [routes[0]] + routes[1..] == g.routes + routes;
  }

  /** Registrations whose patterns all compile append the compiled routes,
      in order. */
  lemma {:induction false} AddAllCompiled(g: Gateway, specs: seq<RouteSpec>, routes: seq<Route>)
    requires AllCompile(specs, routes)
    ensures AddAll(g, specs) == Ok(g.(routes := g.routes + routes))
    decreases |specs|
  {
    if |specs| > 0 {
      AddAllStep(g, specs, routes[0]);
      AddAllCompiled(g.(routes := g.routes + [routes[0]]), specs[1..], routes[1..]);
      AppendRoutes(g, routes);
    } else {
      assert g.routes + routes == g.routes;
    }
  }

  lemma PixelRoute()
    ensures CompilesTo(RouteSpecs[0], Routes[0])
  {
    PixelPattern();
    PixelTokens();
  }

  lemma ViewsRoute()
    ensures CompilesTo(RouteSpecs[1], Routes[1])
  {
    ViewsPattern();
    ViewsTokens();
  }

  lemma SessionsRoute()
    ensures CompilesTo(RouteSpecs[2], Routes[2])
  {
    SessionsPattern();
    SessionsTokens();
  }

  lemma SessionRoute()
    ensures CompilesTo(RouteSpecs[3], Routes[3])
  {
    SessionPattern();
    SessionTokens();
  }

  /** `index.ts` loads: every pattern compiles, and the gateway holds the
      five bindings and four routes in registration order. */
  lemma RoutesCompile()
    ensures AllCompile(RouteSpecs, Routes)
  {
    PixelRoute();
    ViewsRoute();
    SessionsRoute();
    SessionRoute();
    assert AllCompile(RouteSpecs[4..], Routes[4..]);
    assert AllCompile(RouteSpecs[3..], Routes[3..]);
    assert AllCompile(RouteSpecs[2..], Routes[2..]);
    assert AllCompile(RouteSpecs[1..], Routes[1..]);
  }

  lemma AppLoads()
    ensures App() == Ok(Gateway(Routes, Stack))
  {
    PrefixedStack();
    RoutesCompile();
    AddAllCompiled(Gateway([], Stack), RouteSpecs, Routes);
  }

  /* ---------------------------------------------------------------------
     the global chain
     --------------------------------------------------------------------- */

  lemma AllMatch(bs: seq<Binding>, pathname: string)
    requires forall i :: 0 <= i < |bs| ==> PathnameStartsWith(pathname, bs[i].prefix)
    ensures Matching(bs, pathname) == bs
  {
    if |bs| > 0 {
      AllMatch(bs[1..], pathname);
      assert bs == [bs[0]] + bs[1..];
    }
  }

  lemma FlattenThree(b0: Binding, b1: Binding, b2: Binding)
    ensures Flatten([b0, b1, b2]) == b0.middlewares + b1.middlewares + b2.middlewares
  {
    assert [b0, b1, b2][1..] == [b1, b2];
    assert [b1, b2][1..] == [b2];
    assert [b2][1..] == [];
    assert Flatten([b2]) == b2.middlewares;
  }

  lemma FlattenFour(b0: Binding, b1: Binding, b2: Binding, b3: Binding)
    ensures Flatten([b0, b1, b2, b3]) == b0.middlewares + b1.middlewares + b2.middlewares + b3.middlewares
  {
    assert [b0, b1, b2, b3][1..] == [b1, b2, b3];
    FlattenThree(b1, b2, b3);
  }

  lemma SortedFour(b0: Binding, b1: Binding, b2: Binding, b3: Binding)
    requires Len(b0) <= Len(b1) <= Len(b2) <= Len(b3)
    ensures SortedByLength([b0, b1, b2, b3])
  {
  }

  lemma SortedThree(b0: Binding, b1: Binding, b2: Binding)
    requires Len(b0) <= Len(b1) <= Len(b2)
    ensures SortedByLength([b0, b1, b2])
  {
  }

  lemma MatchingCons(b: Binding, bs: seq<Binding>, p: string)
    ensures Matching([b] + bs, p) == (if PathnameStartsWith(p, b.prefix) then [b] else []) + Matching(bs, p)
  {
    assert ([b] + bs)[1..] == bs;
  }

  /** What one binding contributes to the filtered stack. */
  function Kept(b: Binding, p: string): seq<Binding> {
    if PathnameStartsWith(p, b.prefix) then [b] else []
  }

  lemma MatchingFive(b0: Binding, b1: Binding, b2: Binding, b3: Binding, b4: Binding, p: string)
    ensures Matching([b0, b1, b2, b3, b4], p) == Kept(b0, p) + (Kept(b1, p) + (Kept(b2, p) + (Kept(b3, p) + Kept(b4, p))))
  {
    MatchingCons(b4, [], p);
    assert [b4] == [b4] + [];
    MatchingCons(b3, [b4], p);
    assert [b3, b4] == [b3] + [b4];
    MatchingCons(b2, [b3, b4], p);
    assert [b2, b3, b4] == [b2] + [b3, b4];
    MatchingCons(b1, [b2, b3, b4], p);
    assert [b1, b2, b3, b4] == [b1] + [b2, b3, b4];
    MatchingCons(b0, [b1, b2, b3, b4], p);
    assert [b0, b1, b2, b3, b4] == [b0] + [b1, b2, b3, b4];
  }

  /** The middle one of five bindings drops out. */
  lemma MatchingSkipsMiddle(b0: Binding, b1: Binding, b2: Binding, b3: Binding, b4: Binding, p: string)
    requires PathnameStartsWith(p, b0.prefix) && PathnameStartsWith(p, b1.prefix)
    requires PathnameStartsWith(p, b3.prefix) && PathnameStartsWith(p, b4.prefix)
    requires !PathnameStartsWith(p, b2.prefix)
    ensures Matching([b0, b1, b2, b3, b4], p) == [b0, b1, b3, b4]
  {
    MatchingFive(b0, b1, b2, b3, b4, p);
    assert Kept(b0, p) == [b0] && Kept(b1, p) == [b1] && Kept(b2, p) == [];
    assert Kept(b3, p) == [b3] && Kept(b4, p) == [b4];
    assert [b3] + [b4] == [b3, b4];
    assert [] + [b3, b4] == [b3, b4];
    assert [b1] + [b3, b4] == [b1, b3, b4];
    assert [b0] + [b1, b3, b4] == [b0, b1, b3, b4];
  }

  /** The last two of five bindings drop out. */
  lemma MatchingKeepsFirstThree(b0: Binding, b1: Binding, b2: Binding, b3: Binding, b4: Binding, p: string)
    requires PathnameStartsWith(p, b0.prefix) && PathnameStartsWith(p, b1.prefix) && PathnameStartsWith(p, b2.prefix)
    requires !PathnameStartsWith(p, b3.prefix) && !PathnameStartsWith(p, b4.prefix)
    ensures Matching([b0, b1, b2, b3, b4], p) == [b0, b1, b2]
  {
    MatchingFive(b0, b1, b2, b3, b4, p);
    assert Kept(b0, p) == [b0] && Kept(b1, p) == [b1] && Kept(b2, p) == [b2];
    assert Kept(b3, p) == [] && Kept(b4, p) == [];
    assert [b2] + ([] + []) == [b2];
    assert [b1] + [b2] == [b1, b2];
    assert [b0] + [b1, b2] == [b0, b1, b2];
  }

  lemma PostsPrefix(rest: string)
    ensures PathnameStartsWith("/posts/" + rest, "/posts")
    ensures !PathnameStartsWith("/posts/" + rest, "/view.png")
  {
    var p := "/posts/" + rest;
    assert p[..6] == "/posts" && p[6] == '/';
    if |p| >= 9 {
      assert p[2] == 'o';
      assert p[..9][2] == 'o';
    }
  }

  /** Two root bindings and two bindings of one longer prefix that
      applies, around a third that does not: the third drops out and the
      rest keep their order. */
  lemma ChainSkipsMiddle(b0: Binding, b1: Binding, b2: Binding, b3: Binding, b4: Binding, p: string)
    requires b0.prefix == "/" && b1.prefix == "/" && b4.prefix == b3.prefix && |b3.prefix| > 1
    requires PathnameStartsWith(p, b3.prefix) && !PathnameStartsWith(p, b2.prefix)
    ensures GlobalChain([b0, b1, b2, b3, b4], p) == b0.middlewares + b1.middlewares + b3.middlewares + b4.middlewares
  {
    MatchingSkipsMiddle(b0, b1, b2, b3, b4, p);
    SortedFour(b0, b1, b3, b4);
    SortedIsFixed([b0, b1, b3, b4]);
    FlattenFour(b0, b1, b3, b4);
  }

  /** Two root bindings and a third that applies, before two that do not. */
  lemma ChainKeepsFirstThree(b0: Binding, b1: Binding, b2: Binding, b3: Binding, b4: Binding, p: string)
    requires b0.prefix == "/" && b1.prefix == "/" && |b2.prefix| > 1
    requires PathnameStartsWith(p, b2.prefix) && !PathnameStartsWith(p, b3.prefix) && !PathnameStartsWith(p, b4.prefix)
    ensures GlobalChain([b0, b1, b2, b3, b4], p) == b0.middlewares + b1.middlewares + b2.middlewares
  {
    MatchingKeepsFirstThree(b0, b1, b2, b3, b4, p);
    SortedThree(b0, b1, b2);
    SortedIsFixed([b0, b1, b2]);
    FlattenThree(b0, b1, b2);
  }

  /** Under `/posts` the chain is the default middleware, the user-agent
      check, CORS and the token check, in that order. */
  lemma PostsChain(rest: string)
    ensures GlobalChain(Stack, "/posts/" + rest) == [RequestStamp, VerifyUserAgent, Cors(CorsSettings), VerifyToken(ApiToken)]
  {
    var b0, b1, b2, b3, b4 := Stack[0], Stack[1], Stack[2], Stack[3], Stack[4];
    assert Stack == [b0, b1, b2, b3, b4];
    PostsPrefix(rest);
    ChainSkipsMiddle(b0, b1, b2, b3, b4, "/posts/" + rest);
    assert [RequestStamp] + [VerifyUserAgent] + [Cors(CorsSettings)] + [VerifyToken(ApiToken)]
        == [RequestStamp, VerifyUserAgent, Cors(CorsSettings), VerifyToken(ApiToken)];
  }

  /** On the tracking pixel the chain is the default middleware, the
      user-agent check and the referer check. */
  lemma PixelChain()
    ensures GlobalChain(Stack, "/view.png") == [RequestStamp, VerifyUserAgent, VerifyReferer(AllowOrigins)]
  {
    var b0, b1, b2, b3, b4 := Stack[0], Stack[1], Stack[2], Stack[3], Stack[4];
    assert Stack == [b0, b1, b2, b3, b4];
    assert PathnameStartsWith("/view.png", "/view.png");
    assert !PathnameStartsWith("/view.png", "/posts") by {
      assert "/view.png"[..6][1] == 'v';
    }
    ChainKeepsFirstThree(b0, b1, b2, b3, b4, "/view.png");
    assert [RequestStamp] + [VerifyUserAgent] + [VerifyReferer(AllowOrigins)]
        == [RequestStamp, VerifyUserAgent, VerifyReferer(AllowOrigins)];
  }

  /* ---------------------------------------------------------------------
     resolving the view-count route
     --------------------------------------------------------------------- */

  /** A static, a parameter and a static token bind the middle segment. */
  lemma BindStaticParamStatic(a: string, name: string, b: string, x: string, decodeUri: Decoder)
    ensures Bind([Static(a), Param(name), Static(b)], [a, x, b], decodeUri) == Some(Assign(map[], name, Decode(decodeUri, x)))
  {
    var t, parts := [Static(a), Param(name), Static(b)], [a, x, b];
    assert t[..2][..1][..0] == [] && parts[..2][..1][..0] == [];
    assert Bind([], [], decodeUri) == Some(map[]);
    assert t[..2][..1] == [Static(a)] && parts[..2][..1] == [a];
    assert Bind([Static(a)], [a], decodeUri) == Some(map[]);
    assert t[..2] == [Static(a), Param(name)] && parts[..2] == [a, x];
    assert Bind([Static(a), Param(name)], [a, x], decodeUri) == Some(Assign(map[], name, Decode(decodeUri, x)));
  }

  /** `/posts/:postId/views` against `posts/<id>/views` binds `postId`. */
  lemma ViewsBinds(id: string, decodeUri: Decoder)
    ensures MatchTokens(Routes[1].tokens, ["posts", id, "views"], decodeUri) == Some(map["postId" := Decode(decodeUri, id)])
  {
    BindStaticParamStatic("posts", "postId", "views", id, decodeUri);
  }

  /** The session-list pattern fails on its last segment. */
  lemma SessionsRejectsViews(id: string, decodeUri: Decoder)
    ensures MatchTokens(Routes[2].tokens, ["posts", id, "views"], decodeUri).None?
  {
  }

  /** A GET of `/posts/<id>/views` is served by the view-count route, with
      the decoded id as `postId`. */
  lemma ResolveViews(id: string, decodeUri: Decoder)
    ensures Resolve(Routes, "GET", ["posts", id, "views"], decodeUri) == Matched(1, map["postId" := Decode(decodeUri, id)])
  {
    var parts := ["posts", id, "views"];
    ViewsBinds(id, decodeUri);
    assert MatchTokens(Routes[0].tokens, parts, decodeUri).None?;
    assert Scan(Routes, "GET", parts, decodeUri, 0, []) == Scan(Routes, "GET", parts, decodeUri, 1, []);
  }

  /** A POST of the same path is refused with 405 and `Allow: GET`. */
  lemma RefuseViewsPost(id: string, decodeUri: Decoder)
    ensures Resolve(Routes, "POST", ["posts", id, "views"], decodeUri) == NotAllowed([GET])
  {
    var parts := ["posts", id, "views"];
    ViewsBinds(id, decodeUri);
    SessionsRejectsViews(id, decodeUri);
    assert MatchTokens(Routes[0].tokens, parts, decodeUri).None?;
    assert MatchTokens(Routes[3].tokens, parts, decodeUri).None?;
    assert Scan(Routes, "POST", parts, decodeUri, 0, []) == Scan(Routes, "POST", parts, decodeUri, 1, []);
    assert Scan(Routes, "POST", parts, decodeUri, 1, []) == Scan(Routes, "POST", parts, decodeUri, 2, [GET]);
    assert Scan(Routes, "POST", parts, decodeUri, 2, [GET]) == Scan(Routes, "POST", parts, decodeUri, 3, [GET]);
    assert Scan(Routes, "POST", parts, decodeUri, 3, [GET]) == Scan(Routes, "POST", parts, decodeUri, 4, [GET]);
  }

  /* ---------------------------------------------------------------------
     a preflight request under /posts
     --------------------------------------------------------------------- */

  /** No route of the application adds middleware of its own, so every
      request runs exactly the global chain. */
  lemma PlanIsGlobalChain(req: Request, decodeUri: Decoder)
    ensures Dispatch(Gateway(Routes, Stack), req, decodeUri).chain == GlobalChain(Stack, NormalizePath(req.pathname))
  {
    assert forall i :: 0 <= i < |Routes| ==> Routes[i].middlewares == [];
    BareRoutesRunGlobalChain(Gateway(Routes, Stack), req, decodeUri);
  }

  /** What the default middleware forwards. */
  function Stamped(req: Request, rt: Runtime): (r: Request)
    ensures Admit(RequestStamp, req, rt) == Forward(r)
  {
    req.(headers := req.headers[RequestIdHeader := rt.requestId])
  }

  /** The default middleware only adds the request id, so the headers the
      later middlewares read are unchanged. */
  lemma StampKeepsHeaders(req: Request, rt: Runtime, name: string)
    requires name != RequestIdHeader
    ensures HeaderOr(Stamped(req, rt), name) == HeaderOr(req, name)
    ensures Truthy(Stamped(req, rt), name) == Truthy(req, name)
  {
  }

  /** The user-agent check sees the caller's agent on the stamped request. */
  lemma StampedPassesAgent(req: Request, rt: Runtime)
    requires !AgentPolicy.PatternTest(AgentPolicy.Agent(req))
    ensures Admit(VerifyUserAgent, Stamped(req, rt), rt) == Forward(Stamped(req, rt))
  {
    StampKeepsHeaders(req, rt, "user-agent");
    assert AgentPolicy.Agent(Stamped(req, rt)) == AgentPolicy.Agent(req);
  }

  lemma ComposeThree(m0: Middleware, m1: Middleware, m2: Middleware, rest: seq<Middleware>, final: Handler)
    ensures Compose([m0, m1, m2] + rest, final) == Wrapped(m0, Wrapped(m1, Wrapped(m2, Compose(rest, final))))
  {
    var inner := Compose(rest, final);
    ComposeAppend([m0, m1, m2], rest, final);
    ComposeIsNest([m0, m1, m2], inner);
    assert [m0, m1, m2][1..] == [m1, m2] && [m1, m2][1..] == [m2] && [m2][1..] == [];
    assert Nest([m2], inner) == Wrapped(m2, inner);
    assert Nest([m1, m2], inner) == Wrapped(m1, Wrapped(m2, inner));
  }

  /** One layer that forwards: the inner outcome, finished by the layer
      and bracketed by its events. */
  lemma RunForwards(m: Middleware, next: Handler, req: Request, forwarded: Request, ctx: Context, rt: Runtime)
    requires Admit(m, req, rt) == Forward(forwarded)
    ensures var inner := Run(next, forwarded, ctx, rt);
      Run(Wrapped(m, next), req, ctx, rt) == Outcome(Finish(m, req, inner.response, rt), [Enter(m)] + inner.trace + [Leave(m)])
  {
  }

  // Bracketing a trace in an enter and a leave, proved apart from the runs
  // that use it.
  lemma Bracket2(x: Event, a: Event, b: Event, y: Event)
    ensures [x] + [a, b] + [y] == [x, a, b, y]
  {
  }

  lemma Bracket4(x: Event, a: Event, b: Event, c: Event, d: Event, y: Event)
    ensures [x] + [a, b, c, d] + [y] == [x, a, b, c, d, y]
  {
  }

  lemma Bracket6(x: Event, a: Event, b: Event, c: Event, d: Event, e: Event, f: Event, y: Event)
    ensures [x] + [a, b, c, d, e, f] + [y] == [x, a, b, c, d, e, f, y]
  {
  }

  /** A trace of four layers entered and left shows no endpoint. */
  lemma NoEndpointIn(m0: Middleware, m1: Middleware, m2: Middleware, m3: Middleware, e: Endpoint)
    ensures Reached(e) !in [Enter(m0), Enter(m1), Enter(m2), Enter(m3), Leave(m3), Leave(m2), Leave(m1), Leave(m0)]
  {
  }

  /** Whatever follows CORS, an allowed preflight that passes the
      user-agent check is answered by CORS and stamped on the way out. */
  lemma PreflightAnswered(c: CorsPolicy.CorsConfig, inner: Handler, req: Request, ctx: Context, rt: Runtime)
    requires CorsPolicy.IsPreflight(req)
    requires !AgentPolicy.PatternTest(AgentPolicy.Agent(req))
    ensures var h := Wrapped(RequestStamp, Wrapped(VerifyUserAgent, Wrapped(Cors(c), inner)));
      var res := CorsPolicy.Admit(c, Stamped(req, rt), rt.parseUrl).response;
      Run(h, req, ctx, rt) == Outcome(Finish(RequestStamp, req, res, rt),
                                      [Enter(RequestStamp), Enter(VerifyUserAgent), Enter(Cors(c)),
                                       Leave(Cors(c)), Leave(VerifyUserAgent), Leave(RequestStamp)])
  {
    var stamped := Stamped(req, rt);
    StampedPassesAgent(req, rt);
    assert CorsPolicy.IsPreflight(stamped);
    var res := CorsPolicy.Admit(c, stamped, rt.parseUrl).response;
    var cors := Wrapped(Cors(c), inner);
    assert Run(cors, stamped, ctx, rt) == Outcome(res, [Enter(Cors(c)), Leave(Cors(c))]);
    RunForwards(VerifyUserAgent, cors, stamped, stamped, ctx, rt);
    assert Finish(VerifyUserAgent, stamped, res, rt) == res;
    Bracket2(Enter(VerifyUserAgent), Enter(Cors(c)), Leave(Cors(c)), Leave(VerifyUserAgent));
    RunForwards(RequestStamp, Wrapped(VerifyUserAgent, cors), req, stamped, ctx, rt);
    Bracket4(Enter(RequestStamp), Enter(VerifyUserAgent), Enter(Cors(c)),
             Leave(Cors(c)), Leave(VerifyUserAgent), Leave(RequestStamp));
  }

  /** The origin CORS sees on the stamped request is the caller's. */
  lemma StampKeepsOrigin(c: CorsPolicy.CorsConfig, req: Request, rt: Runtime)
    ensures CorsPolicy.AllowOrigin(c, Stamped(req, rt), rt.parseUrl) == CorsPolicy.AllowOrigin(c, req, rt.parseUrl)
  {
    StampKeepsHeaders(req, rt, "origin");
    StampKeepsHeaders(req, rt, "referer");
    assert Origins.GetOrigin(Stamped(req, rt), rt.parseUrl) == Origins.GetOrigin(req, rt.parseUrl);
  }

  /** The default middleware's stamp on the way out keeps the status, the
      body and every other header. */
  lemma StampedResponse(req: Request, res: Response, rt: Runtime)
    ensures var r := Finish(RequestStamp, req, res, rt);
      && r.status == res.status && r.body == res.body
      && PoweredByHeader in r.headers && r.headers[PoweredByHeader] == PoweredBy
      && RequestIdHeader in r.headers && r.headers[RequestIdHeader] == rt.requestId
      && forall k :: k in res.headers && k !in {RequestIdHeader, PoweredByHeader, DurationHeader} ==>
           k in r.headers && r.headers[k] == res.headers[k]
  {
  }

  const PostsMiddleware := [RequestStamp, VerifyUserAgent, Cors(CorsSettings), VerifyToken(ApiToken)]

  /** The handler composed for a request under `/posts`, from the outside in. */
  lemma PostsHandler(e: Endpoint)
    ensures Compose(PostsMiddleware, Terminal(e))
         == Wrapped(RequestStamp, Wrapped(VerifyUserAgent, Wrapped(Cors(CorsSettings), Wrapped(VerifyToken(ApiToken), Terminal(e)))))
  {
    assert PostsMiddleware == [RequestStamp, VerifyUserAgent, Cors(CorsSettings)] + [VerifyToken(ApiToken)];
    ComposeThree(RequestStamp, VerifyUserAgent, Cors(CorsSettings), [VerifyToken(ApiToken)], Terminal(e));
    ComposeIsNest([VerifyToken(ApiToken)], Terminal(e));
    assert [VerifyToken(ApiToken)][1..] == [];
  }

  /** The chain under `/posts` answers an allowed preflight from CORS:
      204 with the allowed origin, stamped by the default middleware on
      the way out, and the token check is never entered. */
  lemma PreflightRun(e: Endpoint, req: Request, ctx: Context, rt: Runtime)
    requires CorsPolicy.IsPreflight(req)
    requires !AgentPolicy.PatternTest(AgentPolicy.Agent(req))
    requires CorsPolicy.AllowOrigin(CorsSettings, req, rt.parseUrl).Some?
    ensures var out := Run(Compose(PostsMiddleware, Terminal(e)), req, ctx, rt);
      && out.trace == [Enter(RequestStamp), Enter(VerifyUserAgent), Enter(Cors(CorsSettings)),
                       Leave(Cors(CorsSettings)), Leave(VerifyUserAgent), Leave(RequestStamp)]
      && out.response.status == 204
      && out.response.body == Empty
      && PoweredByHeader in out.response.headers && out.response.headers[PoweredByHeader] == PoweredBy
      && CorsPolicy.AllowOriginHeader in out.response.headers
      && out.response.headers[CorsPolicy.AllowOriginHeader] == CorsPolicy.AllowOrigin(CorsSettings, req, rt.parseUrl).value
  {
    var c := CorsSettings;
    PostsHandler(e);
    PreflightAnswered(c, Wrapped(VerifyToken(ApiToken), Terminal(e)), req, ctx, rt);
    StampKeepsOrigin(c, req, rt);
    var res := CorsPolicy.Admit(c, Stamped(req, rt), rt.parseUrl).response;
    StampedResponse(req, res, rt);
  }

  /** Inside CORS, a request that is not a preflight and carries no token
      is refused by the token check, and CORS decorates the refusal. */
  lemma CorsWrapsRefusal(c: CorsPolicy.CorsConfig, token: string, e: Endpoint, req: Request, ctx: Context, rt: Runtime)
    requires !CorsPolicy.IsPreflight(req)
    requires "x-api-token" !in req.headers
    ensures var refusal := JsonMessage(401, TokenPolicy.Unauthorized, map[]);
      Run(Wrapped(Cors(c), Wrapped(VerifyToken(token), Terminal(e))), req, ctx, rt)
      == Outcome(CorsPolicy.Finish(c, req, rt.parseUrl, refusal),
                 [Enter(Cors(c)), Enter(VerifyToken(token)), Leave(VerifyToken(token)), Leave(Cors(c))])
  {
    TokenPolicy.MissingToken(token, req);
    var refusal := JsonMessage(401, TokenPolicy.Unauthorized, map[]);
    assert Run(Wrapped(VerifyToken(token), Terminal(e)), req, ctx, rt)
        == Outcome(refusal, [Enter(VerifyToken(token)), Leave(VerifyToken(token))]);
  }

  /** After the user-agent check, a tokenless request meets CORS and
      the token check. */
  lemma AgentThenRefusal(c: CorsPolicy.CorsConfig, token: string, e: Endpoint, req: Request, ctx: Context, rt: Runtime)
    requires !CorsPolicy.IsPreflight(req)
    requires Admit(VerifyUserAgent, req, rt) == Forward(req)
    requires "x-api-token" !in req.headers
    ensures var refusal := JsonMessage(401, TokenPolicy.Unauthorized, map[]);
      Run(Wrapped(VerifyUserAgent, Wrapped(Cors(c), Wrapped(VerifyToken(token), Terminal(e)))), req, ctx, rt)
      == Outcome(CorsPolicy.Finish(c, req, rt.parseUrl, refusal),
                 [Enter(VerifyUserAgent), Enter(Cors(c)), Enter(VerifyToken(token)),
                  Leave(VerifyToken(token)), Leave(Cors(c)), Leave(VerifyUserAgent)])
  {
    CorsWrapsRefusal(c, token, e, req, ctx, rt);
    RunForwards(VerifyUserAgent, Wrapped(Cors(c), Wrapped(VerifyToken(token), Terminal(e))), req, req, ctx, rt);
    Bracket4(Enter(VerifyUserAgent), Enter(Cors(c)), Enter(VerifyToken(token)),
             Leave(VerifyToken(token)), Leave(Cors(c)), Leave(VerifyUserAgent));
  }

  /** What the later middlewares see of a tokenless, non-preflight request
      from an acceptable agent once it is stamped. */
  lemma StampedTokenless(req: Request, rt: Runtime)
    requires !CorsPolicy.IsPreflight(req)
    requires !AgentPolicy.PatternTest(AgentPolicy.Agent(req))
    requires "x-api-token" !in req.headers
    ensures !CorsPolicy.IsPreflight(Stamped(req, rt))
    ensures Admit(VerifyUserAgent, Stamped(req, rt), rt) == Forward(Stamped(req, rt))
    ensures "x-api-token" !in Stamped(req, rt).headers
  {
    StampedPassesAgent(req, rt);
  }

  /** A request without a token that passes the user-agent check and is
      not a preflight goes through CORS and is refused by the token check;
      CORS still decorates the refusal on the way out. */
  lemma TokenRefused(c: CorsPolicy.CorsConfig, token: string, e: Endpoint, req: Request, ctx: Context, rt: Runtime)
    requires !CorsPolicy.IsPreflight(req)
    requires !AgentPolicy.PatternTest(AgentPolicy.Agent(req))
    requires "x-api-token" !in req.headers
    ensures var h := Wrapped(RequestStamp, Wrapped(VerifyUserAgent, Wrapped(Cors(c), Wrapped(VerifyToken(token), Terminal(e)))));
      var stamped := Stamped(req, rt);
      var refusal := JsonMessage(401, TokenPolicy.Unauthorized, map[]);
      Run(h, req, ctx, rt) == Outcome(Finish(RequestStamp, req, CorsPolicy.Finish(c, stamped, rt.parseUrl, refusal), rt),
                                      [Enter(RequestStamp), Enter(VerifyUserAgent), Enter(Cors(c)), Enter(VerifyToken(token)),
                                       Leave(VerifyToken(token)), Leave(Cors(c)), Leave(VerifyUserAgent), Leave(RequestStamp)])
  {
    StampedTokenless(req, rt);
    var inner := Wrapped(VerifyUserAgent, Wrapped(Cors(c), Wrapped(VerifyToken(token), Terminal(e))));
    AgentThenRefusal(c, token, e, Stamped(req, rt), ctx, rt);
    RunForwards(RequestStamp, inner, req, Stamped(req, rt), ctx, rt);
    Bracket6(Enter(RequestStamp), Enter(VerifyUserAgent), Enter(Cors(c)), Enter(VerifyToken(token)),
             Leave(VerifyToken(token)), Leave(Cors(c)), Leave(VerifyUserAgent), Leave(RequestStamp));
  }

  /** Under `/posts`, an ordinary request from an allowed origin that
      carries no token is refused with 401, the route handler is never
      reached, and the refusal still carries the CORS headers, so the
      browser can read it. */
  lemma MissingTokenRun(e: Endpoint, req: Request, ctx: Context, rt: Runtime)
    requires !CorsPolicy.IsPreflight(req)
    requires !AgentPolicy.PatternTest(AgentPolicy.Agent(req))
    requires "x-api-token" !in req.headers
    requires CorsPolicy.AllowOrigin(CorsSettings, req, rt.parseUrl).Some?
    ensures var out := Run(Compose(PostsMiddleware, Terminal(e)), req, ctx, rt);
      && out.response.status == 401
      && Reached(e) !in out.trace
      && CorsPolicy.AllowOriginHeader in out.response.headers
      && out.response.headers[CorsPolicy.AllowOriginHeader] == CorsPolicy.AllowOrigin(CorsSettings, req, rt.parseUrl).value
      && PoweredByHeader in out.response.headers && out.response.headers[PoweredByHeader] == PoweredBy
  {
    var c := CorsSettings;
    PostsHandler(e);
    TokenRefused(c, ApiToken, e, req, ctx, rt);
    StampKeepsOrigin(c, req, rt);
    var refusal := JsonMessage(401, TokenPolicy.Unauthorized, map[]);
    var corsRes := CorsPolicy.Finish(c, Stamped(req, rt), rt.parseUrl, refusal);
    StampedResponse(req, corsRes, rt);
    NoEndpointIn(RequestStamp, VerifyUserAgent, Cors(c), VerifyToken(ApiToken), e);
  }

  /** An allowed preflight for any path under `/posts`, whatever route it
      resolves to, is answered 204 by CORS and never reaches the token
      check. */
  lemma PreflightSkipsToken(rest: string, req: Request, rt: Runtime)
    requires NormalizePath(req.pathname) == "/posts/" + rest
    requires CorsPolicy.IsPreflight(req)
    requires !AgentPolicy.PatternTest(AgentPolicy.Agent(req))
    requires CorsPolicy.AllowOrigin(CorsSettings, req, rt.parseUrl).Some?
    ensures var out := Handle(Gateway(Routes, Stack), req, rt);
      && out.response.status == 204
      && PoweredByHeader in out.response.headers && out.response.headers[PoweredByHeader] == PoweredBy
      && Enter(VerifyToken(ApiToken)) !in out.trace
  {
    var plan := Dispatch(Gateway(Routes, Stack), req, rt.decodeUri);
    PlanIsGlobalChain(req, rt.decodeUri);
    PostsChain(rest);
    assert plan.chain == PostsMiddleware;
    PreflightRun(plan.endpoint, req, plan.context, rt);
    TokenNotEntered(CorsSettings, ApiToken);
  }

  /** The token check is not among the layers a preflight passes. */
  lemma TokenNotEntered(c: CorsPolicy.CorsConfig, token: string)
    ensures Enter(VerifyToken(token)) !in [Enter(RequestStamp), Enter(VerifyUserAgent), Enter(Cors(c)),
                                           Leave(Cors(c)), Leave(VerifyUserAgent), Leave(RequestStamp)]
  {
  }
}

=== FILE: string_sort.dfy ===
/** `Array.prototype.sort()` without a comparator on an array of strings:
    the strings are ordered lexicographically by character code. The order
    is total, so the sorted result depends only on the multiset of
    elements, which is what makes the query and cookie decoders insensitive
    to the order of their input. */
module StringSort {

  /** `a` sorts no later than `b`. */
  predicate Below(a: string, b: string) {
    if |a| == 0 then true
    else if |b| == 0 then false
    else if a[0] != b[0] then a[0] < b[0]
    else Below(a[1..], b[1..])
  }

  lemma {:induction false} BelowReflexive(a: string)
    ensures Below(a, a)
  {
    if |a| > 0 {
      BelowReflexive(a[1..]);
    }
  }

  lemma {:induction false} BelowTotal(a: string, b: string)
    ensures Below(a, b) || Below(b, a)
  {
    if |a| > 0 && |b| > 0 && a[0] == b[0] {
      BelowTotal(a[1..], b[1..]);
    }
  }

  lemma {:induction false} BelowAntisymmetric(a: string, b: string)
    requires Below(a, b) && Below(b, a)
    ensures a == b
  {
    if |a| > 0 {
      BelowAntisymmetric(a[1..], b[1..]);
      assert a == [a[0]] + a[1..] && b == [b[0]] + b[1..];
    }
  }

  lemma {:induction false} BelowTransitive(a: string, b: string, c: string)
    requires Below(a, b) && Below(b, c)
    ensures Below(a, c)
  {
    if |a| > 0 && a[0] == b[0] && b[0] == c[0] {
      BelowTransitive(a[1..], b[1..], c[1..]);
    }
  }

  predicate Sorted(s: seq<string>) {
    forall i, j :: 0 <= i < j < |s| ==> Below(s[i], s[j])
  }

  /** Insert `x` into a sorted sequence in front of the first element it
      sorts below. */
  function Insert(x: string, s: seq<string>): seq<string> {
    if |s| == 0 then [x]
    else if Below(x, s[0]) then [x] + s
    else [s[0]] + Insert(x, s[1..])
  }

  /** Insertion sort; the result is unique, so any correct sort agrees. */
  function Sort(s: seq<string>): seq<string> {
    if |s| == 0 then [] else Insert(s[|s| - 1], Sort(s[..|s| - 1]))
  }

  lemma {:induction false} InsertPermutes(x: string, s: seq<string>)
    ensures multiset(Insert(x, s)) == multiset(s) + multiset{x}
  {
    if |s| > 0 && !Below(x, s[0]) {
      InsertPermutes(x, s[1..]);
      assert s == [s[0]] + s[1..];
    }
  }

  /** Every element of a sequence is one of its multiset's elements. */
  lemma InMultiset(s: seq<string>, k: int)
    requires 0 <= k < |s|
    ensures s[k] in multiset(s)
  {
  }

  /** The first element of a sorted sequence sorts below everything
      inserted after it, when it sorts below the new element too. */
  lemma HeadBelowInserted(x: string, s: seq<string>)
    requires Sorted(s) && |s| > 0 && Below(s[0], x)
    ensures forall k :: 0 <= k < |Insert(x, s[1..])| ==> Below(s[0], Insert(x, s[1..])[k])
  {
    var t := Insert(x, s[1..]);
    InsertPermutes(x, s[1..]);
    forall k | 0 <= k < |t| ensures Below(s[0], t[k]) {
      InMultiset(t, k);
      if t[k] != x {
        assert t[k] in multiset(s[1..]);
        var m :| 0 <= m < |s[1..]| && s[1..][m] == t[k];
        assert s[m + 1] == t[k];
      }
    }
  }

  lemma {:induction false} InsertSorted(x: string, s: seq<string>)
    requires Sorted(s)
    ensures Sorted(Insert(x, s))
  {
    if |s| == 0 {
    } else if Below(x, s[0]) {
      var r := [x] + s;
      forall i, j | 0 <= i < j < |r| ensures Below(r[i], r[j]) {
        if i == 0 && j > 1 {
          BelowTransitive(x, s[0], s[j - 1]);
        }
      }
    } else {
      BelowTotal(x, s[0]);
      InsertSorted(x, s[1..]);
      HeadBelowInserted(x, s);
      var t := Insert(x, s[1..]);
      var r := [s[0]] + t;
      assert Insert(x, s) == r;
      forall i, j | 0 <= i < j < |r| ensures Below(r[i], r[j]) {
        if i == 0 {
          assert r[j] == t[j - 1];
        } else {
          assert r[i] == t[i - 1] && r[j] == t[j - 1];
        }
      }
    }
  }

  /** The sort yields a sorted permutation of its input. */
  lemma {:induction false} SortCorrect(s: seq<string>)
    ensures Sorted(Sort(s))
    ensures multiset(Sort(s)) == multiset(s)
  {
    if |s| > 0 {
      var init := s[..|s| - 1];
      SortCorrect(init);
      InsertSorted(s[|s| - 1], Sort(init));
      InsertPermutes(s[|s| - 1], Sort(init));
      assert s == init + [s[|s| - 1]];
    }
  }

  /** Two sorted permutations of one multiset start alike. */
  lemma SortedHeads(a: seq<string>, b: seq<string>)
    requires Sorted(a) && Sorted(b) && |a| > 0
    requires multiset(a) == multiset(b)
    ensures |b| > 0 && a[0] == b[0]
  {
    assert |b| == |multiset(b)| == |a|;
    assert a[0] in multiset(b) && b[0] in multiset(a);
    var i :| 0 <= i < |b| && b[i] == a[0];
    var j :| 0 <= j < |a| && a[j] == b[0];
    BelowReflexive(a[0]);
    BelowReflexive(b[0]);
    assert Below(b[0], a[0]) by {
      if i > 0 { assert Below(b[0], b[i]); }
    }
    assert Below(a[0], b[0]) by {
      if j > 0 { assert Below(a[0], a[j]); }
    }
    BelowAntisymmetric(a[0], b[0]);
  }

  lemma TailMultiset(a: seq<string>)
    requires |a| > 0
    ensures multiset(a[1..]) == multiset(a) - multiset{a[0]}
  {
    assert a == [a[0]] + a[1..];
  }

  /** Two sorted permutations of one multiset are equal. */
  lemma {:induction false} SortedUnique(a: seq<string>, b: seq<string>)
    requires Sorted(a) && Sorted(b)
    requires multiset(a) == multiset(b)
    ensures a == b
  {
    if |a| == 0 {
      assert |b| == |multiset(b)| == 0;
    } else {
      SortedHeads(a, b);
      TailMultiset(a);
      TailMultiset(b);
      SortedUnique(a[1..], b[1..]);
      assert a == [a[0]] + a[1..] && b == [b[0]] + b[1..];
    }
  }

  /** Sorting forgets the input order: permuted inputs sort alike. */
  lemma SortForgetsOrder(a: seq<string>, b: seq<string>)
    requires multiset(a) == multiset(b)
    ensures Sort(a) == Sort(b)
  {
    SortCorrect(a);
    SortCorrect(b);
    SortedUnique(Sort(a), Sort(b));
  }
}

=== FILE: strings.dfy ===
/** The JavaScript string operations the router relies on, stated over
    `seq<char>`: `split` on a one-character separator, `join`, `trim`,
    ASCII case mapping, `startsWith`, substring search, `String(n)` for
    integers, and assignment of a property on a plain object. */
module Strings {

  /* ---------------------------------------------------------------------
     split and join
     --------------------------------------------------------------------- */

  /** `s.split(c)`: the pieces between occurrences of `c`; the empty string
      gives one empty piece. */
  function SplitOn(s: string, c: char): (parts: seq<string>)
    ensures |parts| >= 1
    ensures forall i :: 0 <= i < |parts| ==> c !in parts[i]
  {
    if |s| == 0 then [""]
    else
      var rest := SplitOn(s[1..], c);
      if s[0] == c then [""] + rest
      else [[s[0]] + rest[0]] + rest[1..]
  }

  /** `parts.join(sep)`. */
  function Join(parts: seq<string>, sep: string): string {
    if |parts| == 0 then ""
    else if |parts| == 1 then parts[0]
    else parts[0] + sep + Join(parts[1..], sep)
  }

  lemma {:induction false} SplitOnFree(s: string, c: char)
    requires c !in s
    ensures SplitOn(s, c) == [s]
  {
    if |s| > 0 {
      SplitOnFree(s[1..], c);
      assert [s[0]] + s[1..] == s;
    }
  }

  /** Splitting a concatenation around one separator splits each side. */
  lemma {:induction false} SplitOnConcat(a: string, b: string, c: char)
    ensures SplitOn(a + [c] + b, c) == SplitOn(a, c) + SplitOn(b, c)
  {
    var s := a + [c] + b;
    if |a| == 0 {
      assert s[0] == c && s[1..] == b;
    } else {
      assert s[0] == a[0];
      assert s[1..] == a[1..] + [c] + b;
      SplitOnConcat(a[1..], b, c);
    }
  }

  /** A trailing separator adds exactly one empty piece. */
  lemma SplitOnTrailing(a: string, c: char)
    ensures SplitOn(a + [c], c) == SplitOn(a, c) + [""]
  {
    SplitOnConcat(a, "", c);
    assert a + [c] + "" == a + [c];
  }

  /** Joining the pieces of a split gives back the original string. */
  lemma {:induction false} JoinSplitOn(s: string, c: char)
    ensures Join(SplitOn(s, c), [c]) == s
  {
    if |s| > 0 {
      var rest := SplitOn(s[1..], c);
      JoinSplitOn(s[1..], c);
      if s[0] == c {
        assert SplitOn(s, c)[1..] == rest;
      } else {
        var parts := SplitOn(s, c);
        assert parts[1..] == rest[1..];
        if |rest| > 1 {
          assert rest[1..] == parts[1..];
          assert Join(rest, [c]) == rest[0] + [c] + Join(rest[1..], [c]);
        }
        assert [s[0]] + s[1..] == s;
      }
    }
  }

  /** Splitting a join gives back the pieces, when no piece holds the
      separator. */
  lemma {:induction false} SplitOnJoin(parts: seq<string>, c: char)
    requires |parts| >= 1
    requires forall i :: 0 <= i < |parts| ==> c !in parts[i]
    ensures SplitOn(Join(parts, [c]), c) == parts
  {
    SplitOnFree(parts[0], c);
    if |parts| > 1 {
      SplitOnJoin(parts[1..], c);
      SplitOnConcat(parts[0], Join(parts[1..], [c]), c);
      assert [parts[0]] + parts[1..] == parts;
    }
  }

  /* ---------------------------------------------------------------------
     trim
     --------------------------------------------------------------------- */

  /** ECMAScript WhiteSpace and LineTerminator code points: what `trim`
      removes. */
  predicate IsSpace(ch: char) {
    || ch == '\t' || ch == '\n' || ch == '\U{0B}' || ch == '\U{0C}' || ch == '\r'
    || ch == ' ' || ch == '\U{A0}' || ch == '\U{1680}'
    || ('\U{2000}' <= ch <= '\U{200A}')
    || ch == '\U{2028}' || ch == '\U{2029}' || ch == '\U{202F}' || ch == '\U{205F}'
    || ch == '\U{3000}' || ch == '\U{FEFF}'
  }

  predicate AllSpace(s: string) {
    forall i :: 0 <= i < |s| ==> IsSpace(s[i])
  }

  /** Neither end of `s` is white space. */
  predicate IsTrimmed(s: string) {
    |s| == 0 || (!IsSpace(s[0]) && !IsSpace(s[|s| - 1]))
  }

  function TrimStart(s: string): string {
    if |s| > 0 && IsSpace(s[0]) then TrimStart(s[1..]) else s
  }

  function TrimEnd(s: string): string {
    if |s| > 0 && IsSpace(s[|s| - 1]) then TrimEnd(s[..|s| - 1]) else s
  }

  /** `s.trim()`. */
  function Trim(s: string): string {
    TrimEnd(TrimStart(s))
  }

  /** `TrimStart` cuts the longest all-space prefix. */
  lemma {:induction false} TrimStartSpec(s: string)
    ensures |TrimStart(s)| <= |s| && TrimStart(s) == s[|s| - |TrimStart(s)|..]
    ensures AllSpace(s[..|s| - |TrimStart(s)|])
    ensures |TrimStart(s)| == 0 || !IsSpace(TrimStart(s)[0])
  {
    if |s| > 0 && IsSpace(s[0]) {
      var t := s[1..];
      TrimStartSpec(t);
      var r := TrimStart(s);
      assert r == TrimStart(t);
      var k := |s| - |r|;
      assert s[k..] == t[|t| - |r|..];
      forall i | 0 <= i < k ensures IsSpace(s[..k][i]) {
        if i > 0 {
          assert s[..k][i] == t[..|t| - |r|][i - 1];
        }
      }
    }
  }

  /** `TrimEnd` cuts the longest all-space suffix. */
  lemma {:induction false} TrimEndSpec(s: string)
    ensures |TrimEnd(s)| <= |s| && TrimEnd(s) == s[..|TrimEnd(s)|]
    ensures AllSpace(s[|TrimEnd(s)|..])
    ensures |TrimEnd(s)| == 0 || !IsSpace(TrimEnd(s)[|TrimEnd(s)| - 1])
  {
    if |s| > 0 && IsSpace(s[|s| - 1]) {
      var init := s[..|s| - 1];
      TrimEndSpec(init);
      var r := TrimEnd(s);
      assert s[|r|..] == init[|r|..] + [s[|s| - 1]];
    }
  }

  /** The result of `trim` is a trimmed slice of the input with only white
      space cut away on either side. */
  lemma TrimSlice(s: string)
    ensures IsTrimmed(Trim(s))
    ensures exists i, j :: 0 <= i <= j <= |s| && Trim(s) == s[i..j]
              && AllSpace(s[..i]) && AllSpace(s[j..])
  {
    var t := TrimStart(s);
    TrimStartSpec(s);
    var r := TrimEnd(t);
    TrimEndSpec(t);
    var i := |s| - |t|;
    var j := i + |r|;
    assert r == s[i..j];
    assert s[j..] == t[|r|..];
    assert Trim(s) == r;
    assert IsTrimmed(r) by {
      if |r| > 0 {
        assert r[0] == t[0];
      }
    }
    assert 0 <= i <= j <= |s| && Trim(s) == s[i..j] && AllSpace(s[..i]) && AllSpace(s[j..]);
  }

  lemma {:induction false} TrimStartSpace(w: string, x: string)
    requires AllSpace(w)
    ensures TrimStart(w + x) == TrimStart(x)
  {
    if |w| == 0 {
      assert w + x == x;
    } else {
      assert (w + x)[0] == w[0] && IsSpace(w[0]);
      assert (w + x)[1..] == w[1..] + x;
      TrimStartSpace(w[1..], x);
    }
  }

  lemma {:induction false} TrimEndSpace(x: string, w: string)
    requires AllSpace(w)
    ensures TrimEnd(x + w) == TrimEnd(x)
  {
    if |w| == 0 {
      assert x + w == x;
    } else {
      assert (x + w)[|x + w| - 1] == w[|w| - 1] && IsSpace(w[|w| - 1]);
      assert (x + w)[..|x + w| - 1] == x + w[..|w| - 1];
      TrimEndSpace(x, w[..|w| - 1]);
    }
  }

  /** `trim` is determined by its characterisation: whatever lies between
      two runs of white space, trimmed, is the result. */
  lemma TrimUnique(a: string, r: string, b: string)
    requires AllSpace(a) && AllSpace(b) && IsTrimmed(r)
    ensures Trim(a + r + b) == r
  {
    var rb := r + b;
    assert a + r + b == a + rb;
    TrimStartSpace(a, rb);
    if |r| == 0 {
      assert rb == b + "";
      TrimStartSpace(b, "");
      assert TrimStart(a + r + b) == "";
    } else {
      assert rb[0] == r[0];
      assert TrimStart(rb) == rb;
      TrimEndSpace(r, b);
      assert TrimEnd(r) == r;
    }
  }

  lemma {:induction false} TrimStartAppend(x: string, y: string)
    requires TrimStart(x) != ""
    ensures TrimStart(x + y) == TrimStart(x) + y
  {
    assert (x + y)[0] == x[0];
    if IsSpace(x[0]) {
      assert (x + y)[1..] == x[1..] + y;
      TrimStartAppend(x[1..], y);
    }
  }

  /** White space around a string does not change its trimmed form. */
  lemma TrimPadding(w1: string, t: string, w2: string)
    requires AllSpace(w1) && AllSpace(w2)
    ensures Trim(w1 + t + w2) == Trim(t)
  {
    assert w1 + t + w2 == w1 + (t + w2);
    TrimStartSpace(w1, t + w2);
    var t1 := TrimStart(t);
    TrimStartSpec(t);
    if t1 == "" {
      assert AllSpace(t);
      TrimStartSpace(t, w2);
      TrimStartSpace(w2, "");
      assert w2 + "" == w2;
    } else {
      TrimStartAppend(t, w2);
      TrimEndSpace(t1, w2);
    }
  }

  lemma TrimTrimmed(s: string)
    requires IsTrimmed(s)
    ensures Trim(s) == s
  {
    TrimUnique("", s, "");
    assert "" + s + "" == s;
  }

  lemma TrimIdempotent(s: string)
    ensures Trim(Trim(s)) == Trim(s)
  {
    TrimSlice(s);
    TrimTrimmed(Trim(s));
  }

  /** Trimming only removes characters: whatever is absent from `s` is
      absent from `Trim(s)`. */
  lemma TrimKeepsOut(s: string, c: char)
    requires c !in s
    ensures c !in Trim(s)
  {
    TrimSlice(s);
  }

  /* ---------------------------------------------------------------------
     case mapping, prefixes, substrings
     --------------------------------------------------------------------- */

  function UpperChar(ch: char): char {
    if 'a' <= ch <= 'z' then (ch as int - 32) as char else ch
  }

  function LowerChar(ch: char): char {
    if 'A' <= ch <= 'Z' then (ch as int + 32) as char else ch
  }

  /** `s.toUpperCase()` on the ASCII letters. */
  function Upper(s: string): (r: string)
    ensures |r| == |s|
    ensures forall i :: 0 <= i < |s| ==> r[i] == UpperChar(s[i])
  {
    seq(|s|, i requires 0 <= i < |s| => UpperChar(s[i]))
  }

  /** `s.toLowerCase()` on the ASCII letters. */
  function Lower(s: string): (r: string)
    ensures |r| == |s|
    ensures forall i :: 0 <= i < |s| ==> r[i] == LowerChar(s[i])
  {
    seq(|s|, i requires 0 <= i < |s| => LowerChar(s[i]))
  }

  /** What the ASCII case mappings promise: upper-casing leaves no lower-case
      letter and lower-casing no upper-case one, each mapping is idempotent,
      the two agree on what they fold together, and a text is its own
      upper case exactly when it holds no lower-case letter. */
  lemma CaseFolding(s: string)
    ensures forall i :: 0 <= i < |s| ==> !('a' <= Upper(s)[i] <= 'z')
    ensures forall i :: 0 <= i < |s| ==> !('A' <= Lower(s)[i] <= 'Z')
    ensures Upper(Upper(s)) == Upper(s) && Lower(Lower(s)) == Lower(s)
    ensures Lower(Upper(s)) == Lower(s) && Upper(Lower(s)) == Upper(s)
    ensures Upper(s) == s <==> forall i :: 0 <= i < |s| ==> !('a' <= s[i] <= 'z')
  {
    if Upper(s) == s {
      forall i | 0 <= i < |s| ensures !('a' <= s[i] <= 'z') {
        assert s[i] == Upper(s)[i];
      }
    }
  }

  predicate StartsWith(s: string, p: string) {
    |p| <= |s| && s[..|p|] == p
  }

  /** `sub` occurs somewhere in `s` (an unanchored match). */
  predicate Contains(s: string, sub: string) {
    exists i | 0 <= i <= |s| - |sub| :: OccursAt(s, sub, i)
  }

  predicate OccursAt(s: string, sub: string, i: int) {
    0 <= i && i + |sub| <= |s| && s[i..i + |sub|] == sub
  }

  /** `s.replace(/c/g, "")`. */
  function RemoveAll(s: string, c: char): (r: string)
    ensures c !in r
    ensures |r| <= |s|
    ensures c !in s ==> r == s
    ensures multiset(r) == multiset(s)[c := 0]
  {
    if |s| == 0 then ""
    else
      var h := if s[0] == c then "" else [s[0]];
      assert s == [s[0]] + s[1..];
      assert multiset(h) == multiset([s[0]])[c := 0];
      h + RemoveAll(s[1..], c)
  }

  lemma ConcatAssoc<T>(x: seq<T>, y: seq<T>, z: seq<T>)
    ensures x + (y + z) == (x + y) + z
  {
  }

  /** On one character, removal drops exactly that character; with
      `RemoveAllConcat` this fixes the result of every removal. */
  lemma RemoveAllSingle(x: char, c: char)
    ensures RemoveAll([x], c) == if x == c then "" else [x]
  {
  }

  /** Removal works piecewise. */
  lemma {:induction false} RemoveAllConcat(a: string, b: string, c: char)
    ensures RemoveAll(a + b, c) == RemoveAll(a, c) + RemoveAll(b, c)
  {
    if |a| == 0 {
      assert a + b == b;
    } else {
      assert (a + b)[0] == a[0];
      assert (a + b)[1..] == a[1..] + b;
      RemoveAllConcat(a[1..], b, c);
      var h := if a[0] == c then "" else [a[0]];
      assert RemoveAll(a + b, c) == h + RemoveAll(a[1..] + b, c);
      assert RemoveAll(a, c) == h + RemoveAll(a[1..], c);
      ConcatAssoc(h, RemoveAll(a[1..], c), RemoveAll(b, c));
    }
  }

  /* ---------------------------------------------------------------------
     numbers
     --------------------------------------------------------------------- */

  function DigitChar(d: nat): char
    requires d < 10
  {
    ('0' as int + d) as char
  }

  /** The number a run of decimal digits denotes, read left to right. */
  function DigitsValue(r: string): int {
    if |r| == 0 then 0 else DigitsValue(r[..|r| - 1]) * 10 + (r[|r| - 1] as int - '0' as int)
  }

  /** `String(n)` for a natural number: the digits that denote `n`, with no
      leading zero except in `"0"` itself. */
  function NatDecimal(n: nat): (r: string)
    ensures |r| >= 1
    ensures forall i :: 0 <= i < |r| ==> '0' <= r[i] <= '9'
    ensures DigitsValue(r) == n
    ensures r[0] != '0' || r == "0"
  {
    if n < 10 then [DigitChar(n)]
    else
      var r := NatDecimal(n / 10) + [DigitChar(n % 10)];
      assert r[..|r| - 1] == NatDecimal(n / 10);
      r
  }

  /** `String(n)` for an integer. */
  function Decimal(n: int): string {
    if n < 0 then "-" + NatDecimal(-n) else NatDecimal(n)
  }

  /* ---------------------------------------------------------------------
     plain objects used as records
     --------------------------------------------------------------------- */

  /** `obj[k] = v` on an object literal `{}`: the key `__proto__` reaches the
      inherited prototype setter, which ignores a string, so nothing is
      stored for it. */
  function Assign(m: map<string, string>, k: string, v: string): (r: map<string, string>)
    ensures k != "__proto__" ==> k in r && r[k] == v
    ensures k == "__proto__" ==> r == m
    ensures r.Keys == if k == "__proto__" then m.Keys else m.Keys + {k}
    ensures forall x :: x in m && x != k ==> x in r && r[x] == m[x]
  {
    if k == "__proto__" then m else m[k := v]
  }
}

=== FILE: token_policy.dfy ===
/** The API-token middleware: the `x-api-token` header, trimmed, must be
    present and equal the configured token. */
module TokenPolicy {
  import opened Strings
  import opened Http

  const Unauthorized := "Unauthorized, please check headers"
  const Forbidden := "Forbidden, please check x-api-token"

  /** The presented token: the header, or `""`, trimmed. */
  function Presented(req: Request): string {
    Trim(HeaderOr(req, "x-api-token"))
  }

  /** The decision `middlewareVerifyTokenInit({ token })` takes before
      calling `next`. */
  function Admit(token: string, req: Request): (s: Step)
    ensures s.Forward? ==> s.request == req
    ensures s.Forward? <==> Presented(req) != "" && Presented(req) == token
    ensures s.Respond? ==> s.response.body.Json?
  {
    var presented := Presented(req);
    if presented == "" then Respond(JsonMessage(401, Unauthorized, map[]))
    else if presented != token then Respond(JsonMessage(403, Forbidden, map[]))
    else Forward(req)
  }

  /** A missing token and one made only of white space are refused alike,
      with 401. */
  lemma MissingToken(token: string, req: Request)
    requires "x-api-token" !in req.headers || AllSpace(req.headers["x-api-token"])
    ensures Admit(token, req) == Respond(JsonMessage(401, Unauthorized, map[]))
  {
    var h := HeaderOr(req, "x-api-token");
    TrimUnique(h, "", "");
    assert h + "" + "" == h;
  }

  /** A token that differs from the configured one after trimming is
      refused with 403, never with 401. */
  lemma WrongToken(token: string, req: Request)
    requires Presented(req) != "" && Presented(req) != token
    ensures Admit(token, req) == Respond(JsonMessage(403, Forbidden, map[]))
  {
  }

  /** White space around the token does not matter: `" tok "` passes for
      the token `"tok"`. */
  lemma PaddingIgnored(token: string, req: Request, w1: string, w2: string)
    requires AllSpace(w1) && AllSpace(w2) && Trim(token) == token
    requires req.headers == map["x-api-token" := w1 + token + w2]
    ensures token != "" ==> Admit(token, req) == Forward(req)
    ensures token == "" ==> Admit(token, req).Respond? && Admit(token, req).response.status == 401
  {
    TrimPadding(w1, token, w2);
  }

  /** With a configured token of `""` every request is refused: the empty
      string cannot be presented. */
  lemma EmptyTokenRefusesAll(req: Request)
    ensures Admit("", req).Respond?
  {
  }
}

=== FILE: tokens.dfy ===
/** Route patterns: compiling a normalised pattern into tokens at
    registration time, and matching the tokens against the segments of a
    requested path. */
module Tokens {
  import opened Wrappers
  import opened Strings
  import opened Paths
  import opened Uri

  datatype Token = Static(value: string) | Param(name: string)

  datatype PatternError =
    | EmptyParam(path: string)                 // `Invalid param in path "…"`
    | BadParamName(name: string, path: string) // `Bad param name "…" in path "…"`

  predicate IsLetter(ch: char) {
    ('A' <= ch <= 'Z') || ('a' <= ch <= 'z')
  }

  predicate IsDigit(ch: char) {
    '0' <= ch <= '9'
  }

  /** `/^[A-Za-z_][A-Za-z0-9_]*$/.test(name)`. */
  predicate IsParamName(name: string) {
    && |name| > 0
    && (IsLetter(name[0]) || name[0] == '_')
    && forall i :: 1 <= i < |name| ==> IsLetter(name[i]) || IsDigit(name[i]) || name[i] == '_'
  }

  /** A segment that registration refuses: a `:` whose name is empty or
      does not fit the parameter-name pattern. */
  predicate IsBadSegment(seg: string) {
    StartsWith(seg, ":") && !IsParamName(seg[1..])
  }

  /** The error `tokenize` throws for a refused segment. */
  function SegmentError(seg: string, path: string): PatternError
    requires StartsWith(seg, ":")
  {
    if seg[1..] == "" then EmptyParam(path) else BadParamName(seg[1..], path)
  }

  /** The token a segment compiles to when it is not refused. */
  predicate IsTokenOf(t: Token, seg: string) {
    if StartsWith(seg, ":") then t == Param(seg[1..]) else t == Static(seg)
  }

  /** The body of `tokenize`'s loop, over the segments left to compile. */
  function TokenizeSegments(segs: seq<string>, path: string): (r: Result<seq<Token>, PatternError>)
    ensures r.Ok? <==> forall i :: 0 <= i < |segs| ==> !IsBadSegment(segs[i])
    ensures r.Ok? ==> |r.value| == |segs| && forall i :: 0 <= i < |segs| ==> IsTokenOf(r.value[i], segs[i])
  {
    if |segs| == 0 then Ok([])
    else
      var seg := segs[0];
      var rest := TokenizeSegments(segs[1..], path);
      if StartsWith(seg, ":") && seg[1..] == "" then Err(EmptyParam(path))
      else if StartsWith(seg, ":") && !IsParamName(seg[1..]) then Err(BadParamName(seg[1..], path))
      else if rest.Err? then Err(rest.error)
      else
        var t := if StartsWith(seg, ":") then Param(seg[1..]) else Static(seg);
        Ok([t] + rest.value)
  }

  /** A failed compilation names the first refused segment. */
  lemma {:induction false} FirstBadSegment(segs: seq<string>, path: string)
    requires TokenizeSegments(segs, path).Err?
    ensures exists i :: 0 <= i < |segs| && IsBadSegment(segs[i])
                        && (forall j :: 0 <= j < i ==> !IsBadSegment(segs[j]))
                        && TokenizeSegments(segs, path).error == SegmentError(segs[i], path)
  {
    if !IsBadSegment(segs[0]) {
      var rest := segs[1..];
      assert TokenizeSegments(rest, path).Err?;
      assert TokenizeSegments(segs, path).error == TokenizeSegments(rest, path).error;
      FirstBadSegment(rest, path);
      var i :| 0 <= i < |rest| && IsBadSegment(rest[i])
               && (forall j :: 0 <= j < i ==> !IsBadSegment(rest[j]))
               && TokenizeSegments(rest, path).error == SegmentError(rest[i], path);
      assert segs[i + 1] == rest[i];
      forall j | 0 <= j < i + 1 ensures !IsBadSegment(segs[j]) {
        if j > 0 {
          assert segs[j] == rest[j - 1];
        }
      }
    } else {
      assert TokenizeSegments(segs, path).error == SegmentError(segs[0], path);
    }
  }

  /** `tokenize(path)`: fails exactly when some segment is refused (the
      error names the first one, by `FirstBadSegment`); otherwise one token
      per segment. */
  function Tokenize(path: string): (r: Result<seq<Token>, PatternError>)
    ensures r.Ok? <==> forall i :: 0 <= i < |Split(path)| ==> !IsBadSegment(Split(path)[i])
    ensures r.Ok? ==> |r.value| == |Split(path)|
                      && forall i :: 0 <= i < |Split(path)| ==> IsTokenOf(r.value[i], Split(path)[i])
  {
    TokenizeSegments(Split(path), path)
  }

  /* ---------------------------------------------------------------------
     the pattern a token sequence stands for
     --------------------------------------------------------------------- */

  function TokenText(t: Token): string {
    match t
    case Static(v) => v
    case Param(n) => ":" + n
  }

  function Texts(tokens: seq<Token>): (r: seq<string>)
    ensures |r| == |tokens|
    ensures forall i :: 0 <= i < |tokens| ==> r[i] == TokenText(tokens[i])
  {
    seq(|tokens|, i requires 0 <= i < |tokens| => TokenText(tokens[i]))
  }

  /** The canonical pattern text of a token sequence. */
  function Render(tokens: seq<Token>): string {
    Canonical(Texts(tokens))
  }

  /** Tokens that some pattern compiles to. */
  predicate WellFormed(t: Token) {
    match t
    case Static(v) => IsSegment(v) && !StartsWith(v, ":")
    case Param(n) => IsParamName(n)
  }

  lemma ParamTextIsSegment(n: string)
    requires IsParamName(n)
    ensures IsSegment(":" + n)
    ensures StartsWith(":" + n, ":") && (":" + n)[1..] == n
  {
    var s := ":" + n;
    assert s[|s| - 1] == n[|n| - 1];
    assert IsTrimmed(s);
    TrimTrimmed(s);
  }

  lemma WellFormedTexts(tokens: seq<Token>)
    requires forall i :: 0 <= i < |tokens| ==> WellFormed(tokens[i])
    ensures AllSegments(Texts(tokens))
    ensures forall i :: 0 <= i < |tokens| ==> !IsBadSegment(Texts(tokens)[i])
    ensures forall i :: 0 <= i < |tokens| ==> IsTokenOf(tokens[i], Texts(tokens)[i])
  {
    var texts := Texts(tokens);
    forall i | 0 <= i < |tokens|
      ensures IsSegment(texts[i]) && !IsBadSegment(texts[i]) && IsTokenOf(tokens[i], texts[i])
    {
      if tokens[i].Param? {
        ParamTextIsSegment(tokens[i].name);
      }
    }
  }

  /** Compiling the text of well-formed tokens gives the tokens back. */
  lemma TokenizeRender(tokens: seq<Token>)
    requires forall i :: 0 <= i < |tokens| ==> WellFormed(tokens[i])
    ensures Tokenize(Render(tokens)) == Ok(tokens)
  {
    var texts := Texts(tokens);
    WellFormedTexts(tokens);
    SplitCanonical(texts);
    var r := TokenizeSegments(texts, Render(tokens));
    assert r.Ok?;
    assert r.value == tokens by {
      forall i | 0 <= i < |tokens| ensures r.value[i] == tokens[i] {
        assert IsTokenOf(r.value[i], texts[i]);
      }
    }
  }

  /** A compiled pattern is the canonical form of the pattern it came
      from: the tokens keep every segment. */
  lemma RenderTokenize(path: string)
    requires Tokenize(path).Ok?
    ensures Render(Tokenize(path).value) == Canonical(Split(path))
  {
    var segs := Split(path);
    var tokens := Tokenize(path).value;
    assert Texts(tokens) == segs by {
      forall i | 0 <= i < |segs| ensures Texts(tokens)[i] == segs[i] {
        assert IsTokenOf(tokens[i], segs[i]);
        if StartsWith(segs[i], ":") {
          assert segs[i] == ":" + segs[i][1..];
        }
      }
    }
  }

  lemma LiteralSegment(s: string)
    requires s != "" && '/' !in s && IsTrimmed(s)
    ensures IsSegment(s)
  {
    TrimTrimmed(s);
  }

  /** The refusals of `tokenize`: an empty name, a name starting with a
      digit, a name holding `-`. */
  lemma TokenizeRefusesEmptyName()
    ensures Tokenize("/posts/:") == Err(EmptyParam("/posts/:"))
  {
    PostsSegment();
    LiteralSegment(":");
    assert "/" + "posts" + "/" + ":" == "/posts/:";
    FirstRefusal("/posts/:", "posts", ":");
  }

  lemma TokenizeRefusesLeadingDigit()
    ensures Tokenize("/posts/:1id") == Err(BadParamName("1id", "/posts/:1id"))
  {
    PostsSegment();
    LiteralSegment(":1id");
    LeadingDigitName();
    PathOf("/posts/:1id", ":1id");
    FirstRefusal("/posts/:1id", "posts", ":1id");
  }

  lemma TokenizeRefusesDash()
    ensures Tokenize("/posts/:post-id") == Err(BadParamName("post-id", "/posts/:post-id"))
  {
    PostsSegment();
    LiteralSegment(":post-id");
    DashName();
    PathOf("/posts/:post-id", ":post-id");
    FirstRefusal("/posts/:post-id", "posts", ":post-id");
  }

  lemma PostsSegment()
    ensures IsSegment("posts") && !StartsWith("posts", ":")
  {
    LiteralSegment("posts");
  }

  lemma PathOf(path: string, b: string)
    requires path == "/posts/" + b
    ensures path == "/" + "posts" + "/" + b
  {
    assert "/" + "posts" + "/" == "/posts/";
  }

  lemma LeadingDigitName()
    ensures StartsWith(":1id", ":") && ":1id"[1..] == "1id" && !IsParamName("1id")
  {
    assert ":1id"[1..] == "1id";
  }

  lemma DashName()
    ensures StartsWith(":post-id", ":") && ":post-id"[1..] == "post-id" && !IsParamName("post-id")
  {
    assert ":post-id"[1..] == "post-id";
    assert "post-id"[4] == '-';
  }

  /** A two-segment pattern whose first segment is static and whose second
      is refused fails with the second segment's error. */
  lemma FirstRefusal(path: string, a: string, b: string)
    requires path == "/" + a + "/" + b
    requires IsSegment(a) && !StartsWith(a, ":")
    requires IsSegment(b) && IsBadSegment(b)
    ensures Tokenize(path) == Err(SegmentError(b, path))
  {
    var segs := [a, b];
    assert [a, b][1..] == [b];
    assert Join(segs, "/") == a + "/" + b;
    assert Canonical(segs) == path;
    SplitCanonical(segs);
    var r := TokenizeSegments(segs, path);
    assert !IsBadSegment(segs[0]) && IsBadSegment(segs[1]);
    FirstBadSegment(segs, path);
  }

  /* ---------------------------------------------------------------------
     matching
     --------------------------------------------------------------------- */

  /** `matchTokens` walked up to the length of `tokens`: a static token must
      equal its segment verbatim, a parameter binds the decoded segment,
      and a later parameter of the same name overwrites an earlier one. */
  function Bind(tokens: seq<Token>, parts: seq<string>, decodeUri: Decoder): Option<map<string, string>>
    requires |tokens| == |parts|
  {
    if |tokens| == 0 then Some(map[])
    else
      var n := |tokens| - 1;
      match Bind(tokens[..n], parts[..n], decodeUri)
      case None => None
      case Some(params) =>
        match tokens[n]
        case Static(v) => if v == parts[n] then Some(params) else None
        case Param(name) => Some(Assign(params, name, Decode(decodeUri, parts[n])))
  }

  /** `matchTokens(tokens, parts)`; `None` stands for `null`. */
  function MatchTokens(tokens: seq<Token>, parts: seq<string>, decodeUri: Decoder): Option<map<string, string>> {
    if |tokens| != |parts| then None else Bind(tokens, parts, decodeUri)
  }

  /** Token `i` is a static token that differs from segment `i`. */
  predicate Mismatch(tokens: seq<Token>, parts: seq<string>, i: int)
    requires 0 <= i < |tokens| && |tokens| == |parts|
  {
    tokens[i].Static? && tokens[i].value != parts[i]
  }

  /** Token `i` is the last parameter of its name. */
  predicate LastOfName(tokens: seq<Token>, i: int)
    requires 0 <= i < |tokens|
  {
    tokens[i].Param? && forall j :: i < j < |tokens| ==> tokens[j] != tokens[i]
  }

  function ParamNames(tokens: seq<Token>): set<string> {
    set i | 0 <= i < |tokens| && tokens[i].Param? :: tokens[i].name
  }

  lemma {:induction false} BindFails(tokens: seq<Token>, parts: seq<string>, decodeUri: Decoder)
    requires |tokens| == |parts|
    ensures Bind(tokens, parts, decodeUri).None?
            <==> exists i :: 0 <= i < |tokens| && Mismatch(tokens, parts, i)
  {
    if |tokens| > 0 {
      var n := |tokens| - 1;
      var ts, ps := tokens[..n], parts[..n];
      BindFails(ts, ps, decodeUri);
      assert forall i :: 0 <= i < n ==> (Mismatch(ts, ps, i) <==> Mismatch(tokens, parts, i));
      if Bind(tokens, parts, decodeUri).None? && Bind(ts, ps, decodeUri).Some? {
        assert Mismatch(tokens, parts, n);
      }
    }
  }

  lemma ParamNamesSnoc(tokens: seq<Token>)
    requires |tokens| > 0
    ensures var n := |tokens| - 1;
      ParamNames(tokens) == ParamNames(tokens[..n]) + (if tokens[n].Param? then {tokens[n].name} else {})
  {
    var n := |tokens| - 1;
    var ts := tokens[..n];
    forall x | x in ParamNames(tokens) ensures x in ParamNames(ts) + (if tokens[n].Param? then {tokens[n].name} else {}) {
      var i :| 0 <= i < |tokens| && tokens[i].Param? && tokens[i].name == x;
      if i < n { assert ts[i] == tokens[i]; }
    }
    forall x | x in ParamNames(ts) ensures x in ParamNames(tokens) {
      var i :| 0 <= i < |ts| && ts[i].Param? && ts[i].name == x;
      assert tokens[i] == ts[i];
    }
  }

  lemma {:induction false} BindKeys(tokens: seq<Token>, parts: seq<string>, decodeUri: Decoder)
    requires |tokens| == |parts|
    ensures Bind(tokens, parts, decodeUri).Some? ==>
              Bind(tokens, parts, decodeUri).value.Keys == ParamNames(tokens) - {"__proto__"}
  {
    if |tokens| > 0 {
      var n := |tokens| - 1;
      BindKeys(tokens[..n], parts[..n], decodeUri);
      ParamNamesSnoc(tokens);
    }
  }

  lemma {:induction false} BindValues(tokens: seq<Token>, parts: seq<string>, decodeUri: Decoder)
    requires |tokens| == |parts|
    ensures Bind(tokens, parts, decodeUri).Some? ==>
              forall i :: 0 <= i < |tokens| && LastOfName(tokens, i) && tokens[i].name != "__proto__" ==>
                tokens[i].name in Bind(tokens, parts, decodeUri).value
                && Bind(tokens, parts, decodeUri).value[tokens[i].name] == Decode(decodeUri, parts[i])
  {
    if |tokens| > 0 {
      var n := |tokens| - 1;
      var ts, ps := tokens[..n], parts[..n];
      BindValues(ts, ps, decodeUri);
      var r := Bind(tokens, parts, decodeUri);
      if r.Some? {
        forall i | 0 <= i < |tokens| && LastOfName(tokens, i) && tokens[i].name != "__proto__"
          ensures tokens[i].name in r.value && r.value[tokens[i].name] == Decode(decodeUri, parts[i])
        {
          if i < n {
            assert LastOfName(ts, i);
            assert tokens[n] != tokens[i];
          }
        }
      }
    }
  }

  /** What `matchTokens` promises: no result exactly when the counts differ
      or a static token differs from its segment; otherwise the bindings
      are the parameter names (bar `__proto__`), each bound to the decoded
      segment of its last occurrence. */
  lemma MatchTokensSpec(tokens: seq<Token>, parts: seq<string>, decodeUri: Decoder)
    ensures MatchTokens(tokens, parts, decodeUri).None?
            <==> |tokens| != |parts| || exists i :: 0 <= i < |tokens| && Mismatch(tokens, parts, i)
    ensures MatchTokens(tokens, parts, decodeUri).Some? ==>
              && MatchTokens(tokens, parts, decodeUri).value.Keys == ParamNames(tokens) - {"__proto__"}
              && forall i :: 0 <= i < |tokens| && LastOfName(tokens, i) && tokens[i].name != "__proto__" ==>
                   tokens[i].name in MatchTokens(tokens, parts, decodeUri).value
                   && MatchTokens(tokens, parts, decodeUri).value[tokens[i].name] == Decode(decodeUri, parts[i])
  {
    if |tokens| == |parts| {
      BindFails(tokens, parts, decodeUri);
      BindKeys(tokens, parts, decodeUri);
      BindValues(tokens, parts, decodeUri);
    }
  }

  /** Whether a path matches never depends on how segments decode. */
  lemma MatchIgnoresDecoder(tokens: seq<Token>, parts: seq<string>, d1: Decoder, d2: Decoder)
    ensures MatchTokens(tokens, parts, d1).Some? == MatchTokens(tokens, parts, d2).Some?
  {
    MatchTokensSpec(tokens, parts, d1);
    MatchTokensSpec(tokens, parts, d2);
  }

  /** A registered pattern matches its own text. */
  lemma PatternMatchesItself(path: string, decodeUri: Decoder)
    requires Tokenize(path).Ok?
    ensures MatchTokens(Tokenize(path).value, Split(path), decodeUri).Some?
  {
    var tokens, segs := Tokenize(path).value, Split(path);
    MatchTokensSpec(tokens, segs, decodeUri);
    forall i | 0 <= i < |tokens| ensures !Mismatch(tokens, segs, i) {
      assert IsTokenOf(tokens[i], segs[i]);
    }
  }
}

=== FILE: uri.dfy ===
/** The router's `decode` helper. `decodeURIComponent` itself is a platform
    function the model does not see: it is a parameter, `None` standing for
    the `URIError` it throws on malformed input. */
module Uri {
  import opened Wrappers

  type Decoder = string -> Option<string>

  /** `decode(s)`: the decoded text, or `s` itself when decoding throws. */
  function Decode(decodeUri: Decoder, s: string): string {
    match decodeUri(s)
    case Some(d) => d
    case None => s
  }
}

=== FILE: wrappers.dfy ===
/** Failure-compatible datatypes used throughout the model: `Option` stands
    for a JavaScript value that may be `null`, `Result` for an operation that
    may throw. */
module Wrappers {

  datatype Option<+T> = None | Some(value: T) {

    /** The value, or `default` when there is none (JavaScript's `x ?? d`). */
    function GetOr(default: T): T {
      match this
      case Some(v) => v
      case None => default
    }
  }

  datatype Result<+T, +E> = Ok(value: T) | Err(error: E) {

    predicate IsFailure() {
      Err?
    }

    function PropagateFailure<U>(): Result<U, E>
      requires Err?
    {
      Err(error)
    }

    function Extract(): T
      requires Ok?
    {
      value
    }
  }
}
